=== FILE: README.md ===
# Texon dashboard core, modelled in Dafny

The Texon dashboard keeps one row per school, keyed by the school's e-mail domain. Each row
holds figures drawn from three sources:

- the College Sports Directory (CSD), a set of database tables with schools and their staff;
- Brightpearl, an order system reached over HTTP;
- Klaviyo, an e-mail marketing service reached over HTTP.

Staff of the company log in with a company address. An admin stores each service's
credentials through a settings form.

This project models the deterministic core of that system as pure Dafny functions, and
proves what the code promises. The database, cURL, cookies, the clock and the password
functions become values and parameters.

| module | file | models |
|---|---|---|
| `Php` | php.dfy | PHP's `empty()`, `trim`, `explode`/`implode`, `str_replace`, `strtolower`/`strtoupper`, `ucfirst`/`ucwords`, as sequence functions, with their algebra |
| `Names` | names.dfy | `parseFullName` and `formatNameForDisplay` |
| `Helpers` | helpers.dfy | `extractEmailDomain`, `getSchoolNameFromDomain`, `createSlug` |
| `DataSource` | data_source.dfy | the base class: the credentials lookup and upsert keyed by the source's name, the `{success, message, data}` envelope of `makeApiRequest`, and the request log line |
| `CsdSource` | csd_source.dfy | availability from the schema, the one-school lookup, the staff join |
| `BrightpearlSource` | brightpearl_source.dfy | availability and token expiry, the customer and order searches, the totals |
| `KlaviyoSource` | klaviyo_source.dfy | availability, the profile-then-metrics chain, the filters, the field mapping |
| `Auth` | auth.dfy | `login`, `register`, `getCurrentUser`, `validateEmailDomain`, `createSession` over a users table and a sessions table |
| `Web` | web.dfy | the POST fields, the JSON reply with its status, and the guards that open each handler |
| `SchoolStore` | school_store.dfy | the school_data table as a map from domain to row; the UPDATE statements of a refresh, checked against a column-level reference |
| `SchoolApi` | school_api.dfy | the add, refresh and delete handlers as guarded transitions of that map |
| `CredentialsApi` | credentials_api.dfy | the save-credentials handler: service list, required fields, stored shape, upsert |

A few modelling choices shape the contracts.

- **Tables.** `school_data.domain` and `api_credentials.service` are UNIQUE columns, so those
  tables are maps. The users and sessions tables are sequences. A `SELECT … LIMIT 1` there
  takes the first matching row.
- **Handler replies.** `jsonResponse` ends the script, so each handler is one function that
  returns the reply it sends and the table it leaves.
- **The refresh.** It is written twice: in `refreshSchoolData` in add_school.php (lines
  127-202) and inline in refresh_school.php (lines 75-150). The two copies are the same text
  apart from one comment, so they are modelled once, as `SchoolStore.RefreshAt`, which both
  handlers call. It is modelled as the statements the code issues (`CsdStatements`,
  `BpStatements`, `KlStatements`, then the `data_json`/`last_updated` stamp). Those statements
  are proved equal to a column-level reference (`Refreshed`). What differs between the
  handlers is the code around the refresh: add_school inserts a fresh row first, and
  refresh_school looks up an existing one. `SchoolApi.AddIsInsertThenRefresh` proves that
  this wrapper code leaves the same table either way.
- **Remote services.** Each one is a function from the request the code builds to an HTTP
  status and a decoded body. So the lemmas can state what is asked as well as what is
  answered.

Where the repository's written description and its code differ, the model follows the code:

- the CSD lookup is one "domain equals or name contains" query, with no fuzzy e-mail matching
  and no per-staff name parsing;
- `explode(' ')` splits on single spaces;
- Klaviyo requests send the configured `KLAVIYO_API_VERSION`, never the saved `api_version`;
- Brightpearl requests use the configured account code, not the saved one;
- the doc comment of `formatNameForDisplay` gives the directory form as "Gates, William H.",
  but the code keeps the title and suffix: "Prof. Gates, William H., III" (`Names.GatesDirectory`).

## Model

| member | source | states |
|---|---|---|
| Names.ParseBlank | includes/functions.php:261-351 | an empty, "0" or blank name parses to five empty fields |
| Names.ParsePhases | includes/functions.php:315-345 | a non-empty name goes through the title phase, then the suffix phase, then the split; the title and suffix found are the result's |
| Names.StripTitleFirst | includes/functions.php:318-325 | the title phase takes the first listed title that the name starts with (followed by a space); no title exactly when none matches |
| Names.ParseTitle | includes/functions.php:277-325 | at most one title is taken: the first in list order found at the start of the trimmed name, and none exactly when no listed title is there |
| Names.StripSuffixChoice | includes/functions.php:327-342 | the suffix phase takes the first listed suffix that is trailing after a space or appears after ", ", and none exactly when no listed suffix does |
| Names.ParseSuffix | includes/functions.php:296-342 | at most one suffix is taken, the first in list order found trailing or after a comma in what the title phase left |
| Names.ParseSuffixRest | includes/functions.php:327-342 | a trailing suffix is cut off the end; otherwise every ", suffix" is deleted; the rest is trimmed; no suffix leaves the name unchanged |
| Names.ParseCompound | includes/functions.php:367-401 | the compound rule fires only on a single-token middle part that is not initial-shaped and equals a listed particle up to case; the particle then joins the last name with exactly three pieces, and otherwise the middle part is the middle name |
| Names.PrefixONeverFires | includes/functions.php:370-389 | the particle "o" can never fire, since a one-letter middle part always looks like an initial |
| Names.ParseRejoins | includes/functions.php:345-364 | one piece gives only the last name; two give first and last; three or more give first, middle and last that rejoin with single spaces to the split text, the middle holding exactly the inner pieces |
| Names.ParsePlain | includes/functions.php:345-356 | "first last" made of plain tokens that are neither a title nor a suffix parses to exactly those two fields |
| Names.FormatName | includes/functions.php:413-503 | the display text is always trimmed |
| Names.FormatThenParse | includes/functions.php:413-503 | format and parse round trip: a plain first and last name shown with the defaults parses back to the same fields |
| Names.RawPlainDisplay | includes/functions.php:413-503 | parse and format round trip: a raw "first last" of plain tokens, given as a string, is parsed first (lines 424-428) and displayed with the defaults exactly as given |
| Names.GatesRawFormal | includes/functions.php:424-428 | the raw worked example, parsed then rendered with the defaults, gives "Prof. William H. Gates, III" |
| Names.GatesTitle | includes/functions.php:276-325 | in the worked example "Dr.", "Dr" and "Professor" do not match, so the title phase takes "Prof." and leaves "William H. Gates III" |
| Names.GatesSuffix | includes/functions.php:296-342 | in what is left, the suffix phase finds no comma and skips "Jr." to "II", so it cuts off the trailing "III" |
| Names.GatesSplit | includes/functions.php:345-364 | "William H. Gates" splits into three pieces, and "H." looks like an initial, so it stays the middle name |
| Names.GatesParse | includes/functions.php:509-517 | "Prof. William H. Gates III" parses to title "Prof.", first "William", middle "H.", last "Gates" and suffix "III" |
| Names.GatesFormal | includes/functions.php:520 | with the defaults, the worked example renders "Prof. William H. Gates, III" |
| Names.GatesCasual | includes/functions.php:522 | without title and suffix the worked example renders "William H. Gates" |
| Names.GatesDirectory | includes/functions.php:521 | last name first keeps title and suffix: "Prof. Gates, William H., III" |
| Names.GatesInitialOnly | includes/functions.php:523-527 | without title and suffix and with the middle initial only, the worked example renders "William H. Gates" ("H." cut to one character and a dot is "H." again) |
| Names.GatesInitialUpper | includes/functions.php:430-445 | an example of this model, not of the source: with middle name "Henry", middle initial only and an upper-cased last name give "William H. GATES, III" |
| Helpers.ExtractEmailDomain | includes/functions.php:65-68 | the result is the text after the last '@' (or the whole text): it has no '@', ends the address, and is preceded by '@' when shorter |
| Helpers.DomainOfAddress | includes/functions.php:65-68 | the domain of "local@domain" is the domain, whatever the local part holds |
| Helpers.GetSchoolNameFromDomain | includes/functions.php:89-99 | with a '.', the name has no '.' or '-'; without one, it is the domain with only its first character upper-cased, every later character kept |
| Helpers.SchoolNameOfDomain | includes/functions.php:89-99 | the name comes from the second-to-last label, whatever host labels precede it |
| Helpers.LabelNameWords | includes/functions.php:94-96 | hyphens become spaces, a lower-case letter that starts the label or follows a hyphen or a `ucwords` delimiter is capitalised, and every other character keeps its case: anything not at a word start, and anything that is not a lower-case letter |
| Helpers.LabelNameUpper | includes/functions.php:94-96 | an upper-case label keeps its case: "MIT" names "MIT" |
| Helpers.CreateSlug | includes/functions.php:76-81 | a slug holds only lower-case ASCII letters, digits and '-', never two '-' in a row, and is no longer than its input |
| Helpers.SlugContent | includes/functions.php:76-81 | the letters and digits of the slug are exactly those of the input, lower-cased and in order |
| Helpers.SlugTwice | includes/functions.php:76-81 | slugging twice gives just the lower-cased letters and digits: the second pass deletes every '-', so the function is not idempotent |
| DataSource.ApplyUpdate | sources/data_source.php:68-75 | an update sets the columns it names and keeps the row's service and any column it leaves out |
| DataSource.GetCredentials | sources/data_source.php:45-54 | the row of the source's name is found exactly when one is stored, and it is that service's |
| DataSource.SaveCredentials | sources/data_source.php:62-83 | an existing row is updated and reports the update's result; otherwise a row tagged with the name is inserted and counts when an id comes back; a success can be looked up; a failure changes nothing; other services' rows never change |
| DataSource.SaveKeepsKeys | sources/data_source.php:62-83 | a save keeps every row under its own service name: at most one row per service |
| DataSource.SaveThenGet | sources/data_source.php:62-83 | after a successful save the lookup returns the updated row, or the inserted one |
| DataSource.MakeApiRequest | sources/brightpearl_source.php:209-229 | a request succeeds exactly for a 2xx status; a failure carries no data, the status code and "API request failed: " with the error |
| DataSource.PassOn | sources/brightpearl_source.php:80-82 | a failure handed on keeps its message and status code and carries no data |
| DataSource.LogApiRequest | sources/data_source.php:94-107 | the level is "info" exactly for a success and "error" otherwise, and the line opens with the source, the endpoint and the outcome word |
| DataSource.LogAgreesWithEnvelope | sources/brightpearl_source.php:209-212 | the log level and the returned envelope agree on the outcome |
| DataSource.OutcomeWordsDiffer | sources/data_source.php:97-101 | a line never reads as both "succeeded" and "failed" |
| CsdSource.AvailableIffAllTables | sources/csd_source.php:27-36 | the directory is available exactly when all three of its tables exist |
| CsdSource.FindSchool | sources/csd_source.php:46-52 | a school is found exactly when some row has the domain or a name containing the name derived from the domain, and the one found matches |
| CsdSource.GetSchoolData | sources/csd_source.php:44-79 | success exactly when a school matches; otherwise "School not found in College Sports Directory" with no data; on success total_staff is the size of the staff list |
| CsdSource.JoinComplete | sources/csd_source.php:63-68 | every staff member linked to the school through school_staff is in the join |
| CsdSource.StaffExactlyLinked | sources/csd_source.php:62-78 | the staff returned are exactly the staff linked to the found school |
| CsdSource.DomainRowFound | sources/csd_source.php:49-52 | a school whose domain column is the domain is always found |
| BrightpearlSource.RefreshToken | sources/brightpearl_source.php:238-248 | the token refresh always fails and carries no data |
| BrightpearlSource.AvailableIff | sources/brightpearl_source.php:40-58 | available exactly when there are credentials with a non-empty api_key and access_token whose expiry has not passed |
| BrightpearlSource.NoAccessTokenUnavailable | sources/brightpearl_source.php:43-45 | credentials without an access token never make the source available |
| BrightpearlSource.Endpoint | sources/brightpearl_source.php:131 | each endpoint is under the configured URL and account code |
| BrightpearlSource.CustomerSearchDomain | sources/brightpearl_source.php:131-136 | the customer search asks for "*@domain": the domain of its pattern is the school's domain |
| BrightpearlSource.OrderSearchIds | sources/brightpearl_source.php:154-159 | the order search parameter splits back on ',' into exactly the contact ids |
| BrightpearlSource.ContactIds | sources/brightpearl_source.php:84-87 | the ids are those of contacts that have one, and there are none exactly when no contact has an id |
| BrightpearlSource.SumAppend | sources/brightpearl_source.php:104-107 | the order total is additive over concatenation |
| BrightpearlSource.SumOfValueless | sources/brightpearl_source.php:106 | orders without a totalValue count as zero |
| BrightpearlSource.TotalOrderValue | sources/brightpearl_source.php:104-107 | the loop's running total is the sum of the orders' values, a missing value counting 0 |
| BrightpearlSource.GetSchoolData | sources/brightpearl_source.php:66-119 | unavailable gives "Brightpearl API is not configured" with no data and no request; otherwise the customer search comes first; a success has total_orders equal to the number of orders and total_value equal to their sum |
| BrightpearlSource.SearchFailurePassedOn | sources/brightpearl_source.php:78-82 | a failed customer search is the whole result, and no order search is made |
| BrightpearlSource.NoCustomersIsZero | sources/brightpearl_source.php:84-98 | no contact id gives success with empty customers and orders, zero totals and no order search |
| BrightpearlSource.CustomersFoundOrders | sources/brightpearl_source.php:100-118 | with contact ids found, the orders of exactly those ids are asked for and returned with the customers |
| KlaviyoSource.FiltersNameDomain | sources/klaviyo_source.php:103-105 | the profile filter is equals(email,"*@domain") and the metrics filter is contains(profile.email,"@domain") |
| KlaviyoSource.Summary | sources/klaviyo_source.php:78-86 | each figure is the decoded value when present and 0 otherwise; sent becomes the e-mail count and conversion_rate the order rate |
| KlaviyoSource.GetSchoolData | sources/klaviyo_source.php:52-88 | unavailable gives "Klaviyo API is not configured" with no data and no request; otherwise profiles are asked first, and a success has asked both |
| KlaviyoSource.ProfileFailureStops | sources/klaviyo_source.php:62-66 | a failed profile search is the whole result, and the metrics endpoint is never consulted |
| KlaviyoSource.MetricsFailurePassedOn | sources/klaviyo_source.php:68-73 | a failed metrics request is the whole result |
| KlaviyoSource.SuccessMapsFigures | sources/klaviyo_source.php:75-87 | both requests succeeding give the summary of the two decoded bodies |
| KlaviyoSource.SuccessIff | sources/klaviyo_source.php:52-88 | with credentials, the lookup succeeds exactly when both requests return 2xx |
| Auth.Public | includes/auth.php:55-65 | a login hands out id, e-mail, names and role, and nothing else: never the password hash |
| Auth.ValidateIff | includes/auth.php:174-177 | an address is accepted exactly when the text after its last '@' is the company domain |
| Auth.NoAtRejected | includes/auth.php:174-177 | an address without '@' is rejected |
| Auth.FindUserByEmail | includes/auth.php:179-184 | a user is found exactly when one has the address, and the one found has it |
| Auth.StampLogin | includes/auth.php:48-53 | last_login is set on the user's rows and no other row changes |
| Auth.Login | includes/auth.php:10-66 | a refused login changes nothing; a successful one adds exactly the new session, expiring one session lifetime later, and returns its token |
| Auth.LoginSucceedsIff | includes/auth.php:10-66 | a login succeeds exactly for a company address of an existing, active user whose password verifies, and returns that user's public fields |
| Auth.LoginDomainFirst | includes/auth.php:10-17 | a foreign address is refused with the domain message before any lookup: the answer does not depend on the tables |
| Auth.UnknownAndWrongAlike | includes/auth.php:19-35 | an unknown address and a wrong password give the same "Invalid email or password." |
| Auth.InactiveAfterPassword | includes/auth.php:29-43 | an inactive account is reported only to someone who knows its password |
| Auth.Register | includes/auth.php:68-110 | a refused registration changes nothing; a success needs a company address not yet registered, and appends exactly the new active user with the hashed password |
| Auth.RegisterKeepsEmailsUnique | includes/auth.php:77-96 | registration never creates a second user with the same address |
| Auth.RegisterThenLogin | includes/auth.php:68-110 | whoever registers can then log in with the same password and gets the registered fields |
| Auth.LiveSession | includes/auth.php:135-139 | a session is found exactly when one has the token and has not expired |
| Auth.ActiveUser | includes/auth.php:147-151 | a user is found exactly when one has the id and is active |
| Auth.DropToken | includes/auth.php:155 | the sessions left are exactly those with another token |
| Auth.GetCurrentUser | includes/auth.php:128-161 | a current user needs a cookie with a live session, and changes nothing |
| Auth.CurrentUserIff | includes/auth.php:128-161 | there is a current user exactly when the cookie names a live session whose user is active, and it is that user's public fields |
| Auth.CurrentUserCleanup | includes/auth.php:141-158 | the only change is deleting the cookie's sessions when their user is missing or inactive; users never change |
| Auth.LoginThenCurrent | includes/auth.php:186-210 | a fresh login's token names the logged-in user until the session lifetime has passed |
| Web.Field | includes/api/add_school.php:42 | a field is read trimmed, and as "" when absent |
| Web.RawField | includes/api/save_credentials.php:68 | the one untrimmed field is read as posted, and as "" when absent |
| Web.Gate | includes/api/delete_school.php:19-45 | a request gets through exactly for a logged-in caller, with the admin role where required, using POST; each refusal is 401, 403 or 405 and unsuccessful |
| Web.GateOrder | includes/api/delete_school.php:19-45 | a missing login is reported before a missing role, and a missing role before a wrong method |
| SchoolStore.NewRow | includes/api/add_school.php:84-88 | a new row has the derived name and the time, no CSD id, no JSON, and zero figures |
| SchoolStore.Update | includes/api/refresh_school.php:85-92 | an UPDATE … WHERE domain = ? changes no other row and adds no row |
| SchoolStore.Run | includes/api/refresh_school.php:76-150 | a run of such statements changes no other row and adds no row |
| SchoolStore.CsdColumns | includes/api/add_school.php:133-145 | the CSD result touches only staff_count and csd_school_id, and nothing when the source was not asked or failed |
| SchoolStore.BpColumns | includes/api/add_school.php:154-166 | the Brightpearl result touches only order_count and order_total, and nothing when not asked or failed |
| SchoolStore.KlColumns | includes/api/add_school.php:175-191 | the Klaviyo result touches only the e-mail count and the three rates, and nothing when not asked or failed |
| SchoolStore.Refreshed | includes/api/add_school.php:194-202 | after a refresh the row keeps its name and holds the new snapshot and time |
| SchoolStore.PartialRefreshKeeps | includes/api/refresh_school.php:76-139 | a source not asked, or that failed, keeps every one of its columns |
| SchoolStore.ColumnsIndependent | includes/api/refresh_school.php:106-113 | a group's columns depend only on its own source's result |
| SchoolStore.ZeroOverwrites | includes/api/refresh_school.php:102-114 | a successful zero result overwrites: zero is not read as missing |
| SchoolStore.CsdWrites | includes/api/refresh_school.php:80-93 | the CSD statement, defaults included, writes the reference's CSD columns |
| SchoolStore.BpWrites | includes/api/refresh_school.php:101-114 | the Brightpearl statement writes the reference's order columns |
| SchoolStore.KlWrites | includes/api/refresh_school.php:122-139 | the Klaviyo statement writes the reference's e-mail columns |
| SchoolStore.StampWrites | includes/api/refresh_school.php:142-150 | the final statement replaces data_json and stamps last_updated |
| SchoolStore.RowAfterRefresh | includes/api/refresh_school.php:73-150 | the four statements together give the reference refresh of the row |
| SchoolStore.RunRefresh | includes/api/refresh_school.php:73-150 | the refresh statements leave the domain's row as the reference says and every other row alone; a domain without a row stays without one |
| SchoolStore.RefreshIdempotent | includes/api/refresh_school.php:73-150 | writing the same results twice equals writing them once at the later time: they differ only in last_updated |
| SchoolStore.FetchAll | includes/api/add_school.php:127-192 | each source is in the snapshot exactly when it is available |
| SchoolStore.RefreshAt | includes/api/add_school.php:118-205 | a refresh adds no row and changes no other row |
| SchoolStore.RefreshAtRow | includes/api/add_school.php:118-205 | the refreshed row is the reference refresh with the fresh snapshot; it keeps its name and the columns of unavailable sources |
| SchoolStore.NoCustomersZeroesOrders | includes/api/add_school.php:149-166 | a Brightpearl search that finds no contact id still sets the order columns to zero |
| SchoolApi.StripAt | includes/api/add_school.php:52-55 | exactly one leading '@' is removed, and nothing else changes |
| SchoolApi.AddSchool | includes/api/add_school.php:24-110 | a refusal changes nothing; success exactly for a logged-in POST with a non-empty domain that passes the e-mail check, has no row yet, and is inserted; success adds exactly that row and keeps all others; each refusal is the guard's reply, then 400 "School domain is required", 400 "Invalid domain format", 400 for an existing row, or 500 when the insert returns no id |
| SchoolApi.InsertAndRefresh | includes/api/add_school.php:79-95 | inserting and refreshing a new domain adds exactly its row and keeps all others |
| SchoolApi.AddEmptyDomain | includes/api/add_school.php:41-50 | an empty domain gets 400 before the table is read: the answer does not depend on the table |
| SchoolApi.AddExisting | includes/api/add_school.php:65-77 | a domain that has a row gets 400 and the table is unchanged |
| SchoolApi.AddedRow | includes/api/add_school.php:79-102 | the new row has the name derived from the domain and is the refresh of a fresh row; the reply carries the snapshot |
| SchoolApi.AddThenDelete | includes/api/delete_school.php:74-86 | an admin adding a school and then deleting it gives back the table they started from |
| SchoolApi.RefreshSchool | includes/api/refresh_school.php:24-164 | a refusal changes nothing; success exactly for a logged-in POST naming an existing domain; no row is added and other rows never change; each refusal is the guard's reply, then 400 "School domain is required" or 404 for an unknown domain |
| SchoolApi.RefreshUnknown | includes/api/refresh_school.php:52-64 | an unknown domain gets 404 and nothing is written |
| SchoolApi.RefreshedRow | includes/api/refresh_school.php:66-156 | the refreshed row is the reference refresh of the old row, and the reply carries the snapshot |
| SchoolApi.RefreshTwice | includes/api/refresh_school.php:73-150 | refreshing twice with the same source answers leaves the table that one refresh at the later time leaves |
| SchoolApi.AddIsInsertThenRefresh | includes/api/add_school.php:118-205 | the two handlers' wrappers around the one shared refresh agree: adding a school leaves the same table and data as inserting its row and running refresh_school |
| SchoolApi.DeleteSchool | includes/api/delete_school.php:19-95 | a refusal changes nothing; success exactly for an admin's POST naming an existing domain whose DELETE succeeds; it removes exactly that row and reports its school name; each refusal is the guard's reply, then 400 "School domain is required", 404 for an unknown domain, or 500 "Failed to delete school" |
| SchoolApi.DeleteTwice | includes/api/delete_school.php:59-72 | deleting the same domain again gets 404 and changes nothing |
| SchoolApi.DeleteNeedsAdmin | includes/api/delete_school.php:29-36 | only delete checks the role: a non-admin gets 403 there, while add and refresh answer the same whatever the role |
| CredentialsApi.CsdForm | includes/api/save_credentials.php:63-153 | host, name and user are required (400 otherwise); the untrimmed password and the other fields go into additional_data, with every key column NULL and expires_at untouched |
| CredentialsApi.CsdPasswordOptional | includes/api/save_credentials.php:64-77 | an empty or missing password is accepted and saved as "" |
| CredentialsApi.BrightpearlForm | includes/api/save_credentials.php:155-182 | account code, app reference and staff token are required; the token is saved as api_key, and access_token and expires_at are cleared |
| CredentialsApi.KlaviyoForm | includes/api/save_credentials.php:184-220 | the API key is required; it is saved as api_key with a version in additional_data |
| CredentialsApi.KlaviyoVersionDefault | includes/api/save_credentials.php:186-187 | the version is the default exactly when the field is absent; a posted version is kept trimmed, even when empty |
| CredentialsApi.Upsert | includes/api/save_credentials.php:223-256 | a success can be looked up; a failure is the 500 reply; other services' rows never change |
| CredentialsApi.UpsertSaved | includes/api/save_credentials.php:229-250 | a reported success is a successful save of that service's row |
| CredentialsApi.SaveService | includes/api/save_credentials.php:58-221 | a missing required field is refused with the table unchanged; a test request saves nothing; otherwise the parsed columns are upserted |
| CredentialsApi.SaveCredentialsForm | includes/api/save_credentials.php:19-62 | a refused caller or method leaves the table unchanged; a listed service goes on to its own fields |
| CredentialsApi.UnknownServiceRefused | includes/api/save_credentials.php:44-53 | a service outside csd, brightpearl and klaviyo gets 400 and nothing is saved |
| CredentialsApi.KlaviyoTestSavesNothing | includes/api/save_credentials.php:197-207 | a Klaviyo test request answers success and saves nothing |
| CredentialsApi.SaveKeepsOneRowPerService | includes/api/save_credentials.php:223-244 | a save keeps one row per service and changes no other service's row |
| CredentialsApi.BrightpearlFormNeverAvailable | includes/api/save_credentials.php:169-180 | Brightpearl credentials saved through the form never make that source available, since the form clears the access token |
| CredentialsApi.KlaviyoFormAvailable | includes/api/save_credentials.php:209-218 | Klaviyo credentials saved through the form make that source available |

## Left out

- includes/db.php is not part of this model. Its `insert`, `update`, `delete` and `selectOne` appear only through their results:
  - the `inserted`, `deleted` and `newId` parameters;
  - `DbOutcome`;
  - map and sequence operations.
- Exceptions thrown by the database, and the 500 replies of the `catch` blocks, are not modelled. The failures that db.php reports through return values are modelled:
  - an insert that returns no id (`inserted` in add_school, `newId` in register);
  - a delete that reports no row (`deleted` false gives the 500 reply of delete_school);
  - a credentials update or insert that fails (`DbOutcome`).
- Database results that the code never reads are taken as successes. The next two lines say where.
- Auth.Login: the session insert of `createSession` (includes/auth.php:196-202) and the `last_login` update (includes/auth.php:49-53) are assumed to succeed. In PHP, a login whose session insert fails still answers success, with a token that names no session; the model, and `Auth.LoginThenCurrent` built on it, always stores the session.
- SchoolStore.RefreshAt: every UPDATE of the refresh (includes/api/add_school.php:137-200, and the same statements in refresh_school.php) is assumed to succeed. The handlers never read their results, so a failed UPDATE would leave the row as it was while the reply still reports success.
- Five PHP facilities become parameters, because they are foreign code or hidden state:
  - `filter_var(…, FILTER_VALIDATE_EMAIL)` becomes `validEmail`;
  - `password_hash`/`password_verify` become `Crypto`;
  - `random_bytes` becomes the session `token`;
  - `time()`/`date()`/`strtotime` become `now` and `Clock`;
  - the HTTP responses become `Transport`.
- `json_encode`/`json_decode` are not modelled as text. Decoded bodies are typed records, with `Option` for keys that may be missing. `data_json` holds the snapshot itself.
- Strings are sequences of Unicode characters, where PHP's string functions count and cut bytes. The names and domains that the lemmas speak about are ASCII, and for them the two readings agree.
- Names.FormatName: with `middle_initial_only`, the model keeps the first character of a middle name longer than one character. `substr($m, 0, 1)` keeps the first byte, and `strlen` counts bytes. For a middle name that starts with a multi-byte character the outputs differ. "Émile" gives "É." in the model and the lone byte 0xC3 and "." in PHP. "É" stays "É" in the model, but PHP abbreviates it to 0xC3 and ".".
- Floating point is not modelled. Totals and rates are exact `real`, so `floatval`, DECIMAL rounding and `number_format` are out of scope.
- `school_id` in the add reply is not modelled.
- `user_id` in the register reply is not modelled.
- The created_at/updated_at columns and the session's ip_address and user_agent are not modelled: nothing reads them.
- The case-insensitive column collation is modelled only where the code uses `LIKE`. `CsdSource.NameLike` reads `LIKE '%name%'` as containment after lower-casing ASCII letters on both sides; the collation's folding of non-ASCII letters and accents is not modelled, and neither are LIKE's wildcards (next line).
- CsdSource.NameLike: the derived name is bound as `"%name%"`, so a `_`, `%` or `\` inside it is a LIKE wildcard or escape in the database, where `Contains` reads it as a literal character. Domains that pass `FILTER_VALIDATE_EMAIL` hold none of these, but `validEmail` is a parameter and the CSD lookup is stated for every domain.
- Every `=` comparison on a text column is read as exact equality, where the collation would ignore case:
  - `WHERE email = ?` (see `Auth.FindUserByEmail` below);
  - the `school_data.domain` key: adding "Example.edu" when "example.edu" exists is refused with 400 by add_school.php, but `SchoolApi.AddSchool` adds a second key;
  - `csd_schools.school_domain = ?` in `CsdSource.Matches`.
- SchoolApi.AddSchool: the duplicate check compares domains exactly, not case-insensitively as the collation does (see above).
- Auth.FindUserByEmail: takes the first matching row, where `selectOne` leaves the row unspecified.
- CsdSource.FindSchool: likewise, it takes the first matching row.
- BrightpearlSource.GetSchoolData: requires that a successful customer search decodes to a list and that the order search, when made, succeeds. The code uses both results without checking them.
- SchoolStore.FetchAll, SchoolStore.RefreshAt, SchoolApi.AddSchool and SchoolApi.RefreshSchool carry that same requirement, through `SchoolStore.Usable`.
- CredentialsApi.IsTest: models `$_POST['test'] == 1` only for the text "1". PHP's loose comparison also accepts other numeric spellings of one, such as "01" or "1.0".
- CredentialsApi.SaveService: the CSD connection test opens a live database connection. It is the `csdProbe` reply parameter, and includes/api/test_connection.php is not part of this model.
- Cookies are not modelled. The session cookie is the `cookie` parameter; setting and clearing it are not modelled.
- `logout` and `checkAuthenticated` are not modelled: they are a cookie-driven delete and a redirect.
- `logMessage` file appends are not modelled. Only the level and message that `logApiRequest` chooses are.
- Page scripts, views, browser JavaScript and includes/api/check_sources.php are not modelled. They render and wire up the core above.
- Concurrent requests are not modelled. Each handler is one atomic transition; refreshes are last-write-wins with no locking.

=== FILE: auth.dfy ===
/** Login, registration and the current user (includes/auth.php), over the users and sessions
    tables. Password hashing, the random session token and the clock are parameters. */
module Auth {
  import opened Php
  import opened Helpers

  /** COMPANY_DOMAIN and SESSION_LIFETIME (seconds) of the configuration. */
  const CompanyDomain: string := "texontowel.com"
  const SessionLifetime: int := 86400

  datatype User = User(
    id: int,
    email: string,
    passwordHash: string,
    firstName: Option<string>,
    lastName: Option<string>,
    role: string,
    active: int,
    lastLogin: Option<int>)

  /** The fields handed out about a user: never the password hash. */
  datatype PublicUser = PublicUser(id: int, email: string, firstName: Option<string>, lastName: Option<string>, role: string)

  datatype Session = Session(userId: int, token: string, expiresAt: int)

  datatype AuthState = AuthState(users: seq<User>, sessions: seq<Session>)

  /** `password_verify` and `password_hash`. */
  datatype Crypto = Crypto(verify: (string, string) -> bool, hash: string -> string)

  function Public(u: User): (p: PublicUser)
    ensures p.id == u.id && p.email == u.email && p.role == u.role
    ensures p.firstName == u.firstName && p.lastName == u.lastName
  {
    PublicUser(u.id, u.email, u.firstName, u.lastName, u.role)
  }

  // ---------------------------------------------------------------------------------------
  // validateEmailDomain

  /** `substr(strrchr($email, "@"), 1)`: the text after the last '@'; without an '@' strrchr
      gives false, read as "". */
  function DomainAfterLastAt(email: string): (d: string)
    ensures '@' !in d
  {
    if '@' in email then ExtractEmailDomain(email) else ""
  }

  predicate ValidateEmailDomain(email: string) {
    DomainAfterLastAt(email) == CompanyDomain
  }

  /** An address is accepted exactly when the part after its last '@' is the company domain. */
  lemma ValidateIff(local: string, domain: string)
    requires '@' !in domain
    ensures ValidateEmailDomain(local + "@" + domain) <==> domain == CompanyDomain
  {
    DomainOfAddress(local, domain);
    assert (local + "@" + domain)[|local|] == '@';
  }

  /** An address without '@' is never accepted, even when it is the company domain itself. */
  lemma NoAtRejected(email: string)
    requires '@' !in email
    ensures !ValidateEmailDomain(email)
  {
  }

  // ---------------------------------------------------------------------------------------
  // Lookups

  /** `SELECT * FROM users WHERE email = ?`: the first row with the address. */
  function FindUserByEmail(users: seq<User>, email: string): (r: Option<User>)
    ensures r.Some? ==> r.value in users && r.value.email == email
    ensures r.None? <==> forall i :: 0 <= i < |users| ==> users[i].email != email
  {
    var k := FirstIndex(users, (u: User) => u.email == email, 0);
    FirstIndexSpec(users, (u: User) => u.email == email, 0);
    if k.Some? then Some(users[k.value]) else None
  }

  predicate UniqueEmails(users: seq<User>) {
    forall i, j :: 0 <= i < j < |users| ==> users[i].email != users[j].email
  }

  predicate UniqueIds(users: seq<User>) {
    forall i, j :: 0 <= i < j < |users| ==> users[i].id != users[j].id
  }

  // ---------------------------------------------------------------------------------------
  // login

  datatype LoginResult = LoginFailed(message: string) | LoggedIn(user: PublicUser, token: string)

  const BadCredentials: string := "Invalid email or password."
  const Inactive: string := "Your account is inactive. Please contact an administrator."

  function LoginDomainMessage(): string {
    "Only @" + CompanyDomain + " email addresses are allowed to login."
  }

  /** `UPDATE users SET last_login = now WHERE id = ?` */
  function StampLogin(users: seq<User>, id: int, now: int): (r: seq<User>)
    ensures |r| == |users|
    ensures forall i :: 0 <= i < |users| ==> r[i] == if users[i].id == id then users[i].(lastLogin := Some(now)) else users[i]
  {
    seq(|users|, i requires 0 <= i < |users| => if users[i].id == id then users[i].(lastLogin := Some(now)) else users[i])
  }

  /** login: company domain, then the user, then the password, then the active flag; only
      then a session is stored. `token` is the fresh random token. */
  function Login(st: AuthState, email: string, password: string, crypto: Crypto, token: string, now: int): (r: (LoginResult, AuthState))
    ensures r.0.LoginFailed? ==> r.1 == st
    ensures r.0.LoggedIn? ==> r.1.sessions == st.sessions + [Session(r.0.user.id, token, now + SessionLifetime)]
    ensures r.0.LoggedIn? ==> r.0.token == token
  {
    if !ValidateEmailDomain(email) then (LoginFailed(LoginDomainMessage()), st)
    else match FindUserByEmail(st.users, email)
      case None => (LoginFailed(BadCredentials), st)
      case Some(u) =>
        if !crypto.verify(password, u.passwordHash) then (LoginFailed(BadCredentials), st)
        else if u.active != 1 then (LoginFailed(Inactive), st)
        else
          var sessions := st.sessions + [Session(u.id, token, now + SessionLifetime)];
          (LoggedIn(Public(u), token), AuthState(StampLogin(st.users, u.id, now), sessions))
  }

  /** A login succeeds exactly when the domain is the company's, a user has the address, the
      password verifies and the user is active; it then hands out that user's public fields. */
  lemma LoginSucceedsIff(st: AuthState, email: string, password: string, crypto: Crypto, token: string, now: int)
    ensures var u := FindUserByEmail(st.users, email);
      Login(st, email, password, crypto, token, now).0.LoggedIn? <==>
        ValidateEmailDomain(email) && u.Some? && crypto.verify(password, u.value.passwordHash) && u.value.active == 1
    ensures var r := Login(st, email, password, crypto, token, now).0;
      r.LoggedIn? ==> r.user == Public(FindUserByEmail(st.users, email).value)
  {
  }

  /** An address outside the company domain is refused before the users are looked at: the
      answer is the same whatever the tables hold. */
  lemma LoginDomainFirst(st: AuthState, other: AuthState, email: string, password: string, crypto: Crypto, token: string, now: int)
    requires !ValidateEmailDomain(email)
    ensures Login(st, email, password, crypto, token, now).0 == LoginFailed(LoginDomainMessage())
    ensures Login(st, email, password, crypto, token, now).0 == Login(other, email, password, crypto, token, now).0
  {
  }

  /** An unknown address and a wrong password give the same answer. */
  lemma UnknownAndWrongAlike(st: AuthState, email: string, password: string, crypto: Crypto, token: string, now: int)
    requires ValidateEmailDomain(email)
    requires var u := FindUserByEmail(st.users, email);
      u.None? || !crypto.verify(password, u.value.passwordHash)
    ensures Login(st, email, password, crypto, token, now).0 == LoginFailed(BadCredentials)
  {
  }

  /** An inactive account is only reported to someone who knows its password. */
  lemma InactiveAfterPassword(st: AuthState, email: string, password: string, crypto: Crypto, token: string, now: int)
    requires ValidateEmailDomain(email)
    requires var u := FindUserByEmail(st.users, email);
      u.Some? && u.value.active != 1
    ensures var u := FindUserByEmail(st.users, email).value;
      Login(st, email, password, crypto, token, now).0 ==
        LoginFailed(if crypto.verify(password, u.passwordHash) then Inactive else BadCredentials)
  {
  }

  // ---------------------------------------------------------------------------------------
  // register

  datatype RegisterResult = RegisterFailed(message: string) | Registered(userId: int)

  function RegisterDomainMessage(): string {
    "Only @" + CompanyDomain + " email addresses are allowed to register."
  }

  /** register: company domain, then no existing user with the address, then the insert of a
      user with the hashed password (active by the column default). `newId` is the insert id,
      None when the insert returned false; an id of 0 is falsy too. */
  function Register(st: AuthState, email: string, password: string, firstName: Option<string>, lastName: Option<string>,
                    role: string, crypto: Crypto, newId: Option<int>): (r: (RegisterResult, AuthState))
    ensures r.0.RegisterFailed? ==> r.1 == st
    ensures r.0.Registered? ==> ValidateEmailDomain(email) && FindUserByEmail(st.users, email).None?
    ensures r.0.Registered? ==> r.1 == st.(users := st.users + [User(r.0.userId, email, crypto.hash(password), firstName, lastName, role, 1, None)])
  {
    if !ValidateEmailDomain(email) then (RegisterFailed(RegisterDomainMessage()), st)
    else if FindUserByEmail(st.users, email).Some? then (RegisterFailed("Email already registered."), st)
    else if newId.None? || newId.value == 0 then (RegisterFailed("Failed to create user. Please try again."), st)
    else
      var u := User(newId.value, email, crypto.hash(password), firstName, lastName, role, 1, None);
      (Registered(newId.value), st.(users := st.users + [u]))
  }

  /** Registration never creates a second user with the same address. */
  lemma RegisterKeepsEmailsUnique(st: AuthState, email: string, password: string, firstName: Option<string>,
                                  lastName: Option<string>, role: string, crypto: Crypto, newId: Option<int>)
    requires UniqueEmails(st.users)
    ensures UniqueEmails(Register(st, email, password, firstName, lastName, role, crypto, newId).1.users)
  {
  }

  /** Whoever registers can log in with the same password, when the hash verifies its
      password. */
  lemma RegisterThenLogin(st: AuthState, email: string, password: string, firstName: Option<string>,
                          lastName: Option<string>, role: string, crypto: Crypto, newId: Option<int>, token: string, now: int)
    requires crypto.verify(password, crypto.hash(password))
    requires Register(st, email, password, firstName, lastName, role, crypto, newId).0.Registered?
    ensures var st' := Register(st, email, password, firstName, lastName, role, crypto, newId).1;
      Login(st', email, password, crypto, token, now).0 ==
        LoggedIn(PublicUser(newId.value, email, firstName, lastName, role), token)
  {
    var st' := Register(st, email, password, firstName, lastName, role, crypto, newId).1;
    var u := User(newId.value, email, crypto.hash(password), firstName, lastName, role, 1, None);
    assert st'.users[|st.users|] == u;
    assert FindUserByEmail(st'.users, email) == Some(u) by {
      var k := FirstIndex(st'.users, (x: User) => x.email == email, 0);
      FirstIndexSpec(st'.users, (x: User) => x.email == email, 0);
      assert forall i :: 0 <= i < |st.users| ==> st'.users[i] == st.users[i];
    }
  }

  // ---------------------------------------------------------------------------------------
  // getCurrentUser

  /** `SELECT * FROM sessions WHERE session_token = ? AND expires_at > NOW()` */
  function LiveSession(sessions: seq<Session>, token: string, now: int): (r: Option<Session>)
    ensures r.Some? ==> r.value in sessions && r.value.token == token && r.value.expiresAt > now
    ensures r.None? <==> forall i :: 0 <= i < |sessions| ==> !(sessions[i].token == token && sessions[i].expiresAt > now)
  {
    var k := FirstIndex(sessions, (s: Session) => s.token == token && s.expiresAt > now, 0);
    FirstIndexSpec(sessions, (s: Session) => s.token == token && s.expiresAt > now, 0);
    if k.Some? then Some(sessions[k.value]) else None
  }

  /** `SELECT … FROM users WHERE id = ? AND active = 1` */
  function ActiveUser(users: seq<User>, id: int): (r: Option<User>)
    ensures r.Some? ==> r.value in users && r.value.id == id && r.value.active == 1
    ensures r.None? <==> forall i :: 0 <= i < |users| ==> !(users[i].id == id && users[i].active == 1)
  {
    var k := FirstIndex(users, (u: User) => u.id == id && u.active == 1, 0);
    FirstIndexSpec(users, (u: User) => u.id == id && u.active == 1, 0);
    if k.Some? then Some(users[k.value]) else None
  }

  /** `DELETE FROM sessions WHERE session_token = ?` */
  function DropToken(sessions: seq<Session>, token: string): (r: seq<Session>)
    ensures forall s :: s in r <==> s in sessions && s.token != token
  {
    if |sessions| == 0 then []
    else if sessions[0].token == token then DropToken(sessions[1..], token)
    else [sessions[0]] + DropToken(sessions[1..], token)
  }

  /** getCurrentUser: the session cookie's live session and its active user; a live session
      whose user is missing or inactive is deleted. */
  function GetCurrentUser(st: AuthState, cookie: Option<string>, now: int): (r: (Option<PublicUser>, AuthState))
    ensures r.0.Some? ==> r.1 == st
    ensures r.0.Some? ==> cookie.Some? && LiveSession(st.sessions, cookie.value, now).Some?
  {
    if cookie.None? then (None, st)
    else match LiveSession(st.sessions, cookie.value, now)
      case None => (None, st)
      case Some(s) =>
        match ActiveUser(st.users, s.userId)
        case None => (None, st.(sessions := DropToken(st.sessions, cookie.value)))
        case Some(u) => (Some(Public(u)), st)
  }

  /** There is a current user exactly when the cookie names a live session whose user is
      active; that user is the one handed out. */
  lemma CurrentUserIff(st: AuthState, cookie: Option<string>, now: int)
    ensures GetCurrentUser(st, cookie, now).0.Some? <==>
      cookie.Some? && LiveSession(st.sessions, cookie.value, now).Some?
      && ActiveUser(st.users, LiveSession(st.sessions, cookie.value, now).value.userId).Some?
    ensures GetCurrentUser(st, cookie, now).0.Some? ==>
      GetCurrentUser(st, cookie, now).0.value ==
        Public(ActiveUser(st.users, LiveSession(st.sessions, cookie.value, now).value.userId).value)
  {
  }

  /** The only change getCurrentUser makes: when the session's user is gone or inactive, every
      session with that token goes, and no other. */
  lemma CurrentUserCleanup(st: AuthState, cookie: Option<string>, now: int)
    ensures var st' := GetCurrentUser(st, cookie, now).1;
      st'.users == st.users
      && (st' != st ==> cookie.Some? && forall s :: s in st'.sessions <==> s in st.sessions && s.token != cookie.value)
  {
  }

  /** A fresh login is the current user for the token it hands out, until the session ends. */
  lemma LoginThenCurrent(st: AuthState, email: string, password: string, crypto: Crypto, token: string, now: int, later: int)
    requires UniqueIds(st.users)
    requires forall i :: 0 <= i < |st.sessions| ==> st.sessions[i].token != token
    requires now <= later < now + SessionLifetime
    requires Login(st, email, password, crypto, token, now).0.LoggedIn?
    ensures var r := Login(st, email, password, crypto, token, now);
      GetCurrentUser(r.1, Some(token), later).0 == Some(r.0.user)
  {
    var r := Login(st, email, password, crypto, token, now);
    var u := FindUserByEmail(st.users, email).value;
    var s := Session(u.id, token, now + SessionLifetime);
    LoginStores(st, email, password, crypto, token, now);
    FreshSessionLive(st.sessions, s, later);
    StampedUserActive(st.users, u, now);
    assert Public(u.(lastLogin := Some(now))) == Public(u);
  }

  /** What a successful login leaves: the user's last_login stamped and the new session
      appended. */
  lemma LoginStores(st: AuthState, email: string, password: string, crypto: Crypto, token: string, now: int)
    requires Login(st, email, password, crypto, token, now).0.LoggedIn?
    ensures var u := FindUserByEmail(st.users, email);
      var r := Login(st, email, password, crypto, token, now);
      && u.Some? && u.value.active == 1
      && r.0.user == Public(u.value)
      && r.1 == AuthState(StampLogin(st.users, u.value.id, now), st.sessions + [Session(u.value.id, token, now + SessionLifetime)])
  {
  }

  /** A session appended with a token no other session has is the live one for that token
      until it expires. */
  lemma FreshSessionLive(sessions: seq<Session>, s: Session, later: int)
    requires forall i :: 0 <= i < |sessions| ==> sessions[i].token != s.token
    requires s.expiresAt > later
    ensures LiveSession(sessions + [s], s.token, later) == Some(s)
  {
    var all := sessions + [s];
    assert all[|sessions|] == s;
    FirstIndexSpec(all, (x: Session) => x.token == s.token && x.expiresAt > later, 0);
  }

  /** Stamping an active user's last_login keeps that user the active one with its id. */
  lemma StampedUserActive(users: seq<User>, u: User, now: int)
    requires UniqueIds(users)
    requires u in users && u.active == 1
    ensures ActiveUser(StampLogin(users, u.id, now), u.id) == Some(u.(lastLogin := Some(now)))
  {
    var users' := StampLogin(users, u.id, now);
    var k :| 0 <= k < |users| && users[k] == u;
    assert users'[k] == u.(lastLogin := Some(now));
    assert forall i :: 0 <= i < |users'| && users'[i].id == u.id ==> i == k;
    FirstIndexSpec(users', (x: User) => x.id == u.id && x.active == 1, 0);
  }
}

=== FILE: brightpearl_source.dfy ===
/** The Brightpearl source (sources/brightpearl_source.php): availability from the saved
    credentials and the token's expiry, then a customer search by e-mail domain and an order
    search for the customers found. */
module BrightpearlSource {
  import opened Php
  import opened Helpers
  import opened DataSource

  /** getName */
  const Name: string := "brightpearl"

  /** BRIGHTPEARL_API_URL and BRIGHTPEARL_ACCOUNT_CODE of the configuration; the client uses
      these constants, not the account code saved with the credentials. */
  const ApiUrl: string := "https://ws-use.brightpearl.com/"
  const AccountCode: string := "texon"

  /** A contact row of the search result; `contactId` is absent in rows that lack the key. */
  datatype Contact = Contact(contactId: Option<string>, email: Option<string>)

  /** An order row; `totalValue` is its `floatval`, absent when the key is missing. */
  datatype Order = Order(orderId: Option<string>, totalValue: Option<real>)

  datatype BpData = BpData(customers: seq<Contact>, orders: seq<Order>, totalOrders: int, totalValue: real)

  /** The HTTP endpoints the client calls, as functions from request to response. */
  datatype Transport = Transport(
    contacts: Request -> HttpResponse<seq<Contact>>,
    orders: Request -> HttpResponse<seq<Order>>)

  /** `time()` and `strtotime`. */
  datatype Clock = Clock(now: int, toTime: string -> int)

  // ---------------------------------------------------------------------------------------
  // isAvailable

  /** refreshToken: not implemented, it always fails. */
  function RefreshToken(token: Option<string>): (e: Envelope<()>)
    ensures !e.success && e.data.None?
  {
    Failure("Token refresh not implemented")
  }

  predicate Expired(c: CredRow, clock: Clock) {
    !EmptyOpt(c.expiresAt) && clock.toTime(c.expiresAt.value) < clock.now
  }

  /** isAvailable: credentials with a non-empty api_key and access_token; an expired token is
      refreshed, and the source is available only when the refresh succeeds. */
  predicate IsAvailable(creds: Option<CredRow>, clock: Clock) {
    if creds.None? || EmptyOpt(creds.value.apiKey) || EmptyOpt(creds.value.accessToken) then false
    else if Expired(creds.value, clock) then RefreshToken(creds.value.refreshToken).success
    else true
  }

  /** Since the refresh always fails, the source is available exactly for saved credentials
      with both tokens set and no expiry in the past. */
  lemma AvailableIff(creds: Option<CredRow>, clock: Clock)
    ensures IsAvailable(creds, clock) <==>
      creds.Some? && !EmptyOpt(creds.value.apiKey) && !EmptyOpt(creds.value.accessToken)
      && !Expired(creds.value, clock)
  {
  }

  /** Credentials without an access token never make the source available. */
  lemma NoAccessTokenUnavailable(creds: Option<CredRow>, clock: Clock)
    requires creds.Some? && creds.value.accessToken.None?
    ensures !IsAvailable(creds, clock)
  {
  }

  // ---------------------------------------------------------------------------------------
  // Requests

  /** "{apiUrl}/{accountCode}/<path>"; with the configured URL's trailing '/', the endpoint
      holds "//" after the host. */
  function Endpoint(path: string): (r: string)
    ensures StartsWith(r, ApiUrl + "/" + AccountCode + "/")
  {
    var p := ApiUrl + "/" + AccountCode + "/";
    assert (p + path)[..|p|] == p;
    p + path
  }

  /** The headers makeApiRequest sends: JSON content type and the access token. */
  function Headers(c: CredRow): seq<string> {
    ["Content-Type: application/json", "brightpearl-auth: " + OrEmpty(c.accessToken)]
  }

  /** searchCustomersByEmailDomain: every contact whose e-mail matches "*@<domain>". */
  function CustomerSearch(domain: string, c: CredRow): Request {
    Request("GET", Endpoint("contact-service/contact-search"), [("email", "*@" + domain)], Headers(c))
  }

  /** getOrdersForCustomers: the contact ids joined by ','. */
  function OrderSearch(ids: seq<string>, c: CredRow): Request {
    Request("GET", Endpoint("order-service/order-search"), [("contactId", Implode(ids, ","))], Headers(c))
  }

  /** The domain the customer search asks for is the domain of its e-mail pattern. */
  lemma CustomerSearchDomain(domain: string, c: CredRow)
    requires '@' !in domain
    ensures ExtractEmailDomain(CustomerSearch(domain, c).params[0].1) == domain
  {
    DomainOfAddress("*", domain);
  }

  /** The order search carries exactly the contact ids, when no id holds a ','. */
  lemma OrderSearchIds(ids: seq<string>, c: CredRow)
    requires |ids| >= 1
    requires forall k :: 0 <= k < |ids| ==> ',' !in ids[k]
    ensures Explode(OrderSearch(ids, c).params[0].1, ',') == ids
  {
    ExplodeImplode(ids, ',');
  }

  // ---------------------------------------------------------------------------------------
  // getSchoolData

  /** `array_column($customers, 'contactId')`: the ids of the rows that have one, in order. */
  function ContactIds(cs: seq<Contact>): (ids: seq<string>)
    ensures |ids| <= |cs|
    ensures |ids| == 0 <==> forall i :: 0 <= i < |cs| ==> cs[i].contactId.None?
    ensures forall k :: 0 <= k < |ids| ==> exists i :: 0 <= i < |cs| && cs[i].contactId == Some(ids[k])
  {
    if |cs| == 0 then []
    else
      var rest := ContactIds(cs[1..]);
      assert forall k :: 0 <= k < |rest| ==> exists i :: 0 <= i < |cs| && cs[i].contactId == Some(rest[k]) by {
        forall k | 0 <= k < |rest|
          ensures exists i :: 0 <= i < |cs| && cs[i].contactId == Some(rest[k])
        {
          var i :| 0 <= i < |cs[1..]| && cs[1..][i].contactId == Some(rest[k]);
          assert cs[i + 1].contactId == Some(rest[k]);
        }
      }
      if cs[0].contactId.Some? then [cs[0].contactId.value] + rest else rest
  }

  /** `floatval($order['totalValue'] ?? 0)` */
  function ValueOf(o: Order): real {
    if o.totalValue.Some? then o.totalValue.value else 0.0
  }

  /** The order values added up from the first order on, a missing value counting 0. */
  function SumValues(orders: seq<Order>): real
    decreases |orders|
  {
    if |orders| == 0 then 0.0 else SumValues(orders[..|orders| - 1]) + ValueOf(orders[|orders| - 1])
  }

  /** The total of two lists of orders is the sum of their totals. */
  lemma {:induction false} SumAppend(a: seq<Order>, b: seq<Order>)
    ensures SumValues(a + b) == SumValues(a) + SumValues(b)
    decreases |b|
  {
    if |b| == 0 {
      assert a + b == a;
    } else {
      var b' := b[..|b| - 1];
      assert (a + b)[..|a + b| - 1] == a + b';
      assert (a + b)[|a + b| - 1] == b[|b| - 1];
      SumAppend(a, b');
    }
  }

  /** Orders without a value add nothing. */
  lemma {:induction false} SumOfValueless(orders: seq<Order>)
    requires forall i :: 0 <= i < |orders| ==> orders[i].totalValue.None?
    ensures SumValues(orders) == 0.0
    decreases |orders|
  {
    if |orders| > 0 {
      SumOfValueless(orders[..|orders| - 1]);
    }
  }

  /** The `foreach` that adds up the order values. */
  method TotalOrderValue(orders: seq<Order>) returns (total: real)
    ensures total == SumValues(orders)
  {
    total := 0.0;
    var i := 0;
    while i < |orders|
      invariant 0 <= i <= |orders|
      invariant total == SumValues(orders[..i])
    {
      assert orders[..i + 1][..i] == orders[..i];
      total := total + ValueOf(orders[i]);
      i := i + 1;
    }
    assert orders[..|orders|] == orders;
  }

  /** The replies the code relies on without checking: a successful customer search returns a
      list, and the order search, when made, succeeds with a list. */
  predicate RepliesUsable(creds: Option<CredRow>, tr: Transport, domain: string) {
    creds.Some? ==>
      var c := creds.value;
      var cust := tr.contacts(CustomerSearch(domain, c));
      Succeeded(cust.status) ==>
        && cust.decoded.Some?
        && (|ContactIds(cust.decoded.value)| > 0 ==>
              var ord := tr.orders(OrderSearch(ContactIds(cust.decoded.value), c));
              Succeeded(ord.status) && ord.decoded.Some?)
  }

  const NotConfigured: string := "Brightpearl API is not configured"

  /** getSchoolData */
  function GetSchoolData(creds: Option<CredRow>, clock: Clock, tr: Transport, domain: string): (f: Fetch<BpData>)
    requires RepliesUsable(creds, tr, domain)
    ensures !IsAvailable(creds, clock) ==> f == Fetch(Failure(NotConfigured), [])
    ensures IsAvailable(creds, clock) ==> 1 <= |f.requests| <= 2 && f.requests[0] == CustomerSearch(domain, creds.value)
    ensures f.result.success ==> f.result.data.Some?
    ensures f.result.success ==> f.result.data.value.totalOrders == |f.result.data.value.orders|
    ensures f.result.success ==> f.result.data.value.totalValue == SumValues(f.result.data.value.orders)
  {
    if !IsAvailable(creds, clock) then Fetch(Failure(NotConfigured), [])
    else
      var c := creds.value;
      var search := CustomerSearch(domain, c);
      var customers := MakeApiRequest(tr.contacts(search));
      if !customers.success then Fetch(PassOn(customers), [search])
      else
        var ids := ContactIds(customers.data.value);
        if |ids| == 0 then
          Fetch(Envelope(true, "No customers found with this email domain", None, Some(BpData([], [], 0, 0.0))), [search])
        else
          var orderSearch := OrderSearch(ids, c);
          var orders := MakeApiRequest(tr.orders(orderSearch)).data.value;
          Fetch(Envelope(true, "School data retrieved successfully", None,
                         Some(BpData(customers.data.value, orders, |orders|, SumValues(orders)))),
                [search, orderSearch])
  }

  /** A failed customer search is the whole result: same message and status code, and no order
      search is made. */
  lemma SearchFailurePassedOn(creds: Option<CredRow>, clock: Clock, tr: Transport, domain: string)
    requires RepliesUsable(creds, tr, domain)
    requires IsAvailable(creds, clock)
    requires !Succeeded(tr.contacts(CustomerSearch(domain, creds.value)).status)
    ensures var f := GetSchoolData(creds, clock, tr, domain);
      var resp := tr.contacts(CustomerSearch(domain, creds.value));
      && f.result == Envelope(false, "API request failed: " + resp.error, Some(resp.status), None)
      && f.requests == [CustomerSearch(domain, creds.value)]
  {
  }

  /** No contact id in the search result: success with nothing found, totals zero, and no
      order search. */
  lemma NoCustomersIsZero(creds: Option<CredRow>, clock: Clock, tr: Transport, domain: string)
    requires RepliesUsable(creds, tr, domain)
    requires IsAvailable(creds, clock)
    requires var resp := tr.contacts(CustomerSearch(domain, creds.value));
      Succeeded(resp.status) && forall i :: 0 <= i < |resp.decoded.value| ==> resp.decoded.value[i].contactId.None?
    ensures var f := GetSchoolData(creds, clock, tr, domain);
      && f.result.success
      && f.result.data == Some(BpData([], [], 0, 0.0))
      && |f.requests| == 1
  {
  }

  /** With contact ids found, the orders asked for are those of exactly these ids, and the
      result holds the search's contacts and the orders returned. */
  lemma CustomersFoundOrders(creds: Option<CredRow>, clock: Clock, tr: Transport, domain: string)
    requires RepliesUsable(creds, tr, domain)
    requires IsAvailable(creds, clock)
    requires var resp := tr.contacts(CustomerSearch(domain, creds.value));
      Succeeded(resp.status) && exists i :: 0 <= i < |resp.decoded.value| && resp.decoded.value[i].contactId.Some?
    ensures var f := GetSchoolData(creds, clock, tr, domain);
      var contacts := tr.contacts(CustomerSearch(domain, creds.value)).decoded.value;
      var search := OrderSearch(ContactIds(contacts), creds.value);
      && f.result.success
      && f.requests == [CustomerSearch(domain, creds.value), search]
      && f.result.data.value.customers == contacts
      && f.result.data.value.orders == tr.orders(search).decoded.value
  {
  }
}

=== FILE: credentials_api.dfy ===
/** The credentials endpoint (includes/api/save_credentials.php): an admin posts one service's
    settings, which are checked field by field and saved as that service's single row of
    api_credentials. */
module CredentialsApi {
  import opened Php
  import opened Web
  import opened DataSource
  import Auth
  import Bp = BrightpearlSource
  import Kl = KlaviyoSource

  /** The services the form accepts. */
  const Services: set<string> := {"csd", "brightpearl", "klaviyo"}

  const DefaultKlaviyoVersion: string := "2023-09-15"

  const InvalidService: Reply := Reply(400, false, "Invalid service specified")
  const SaveFailed: Reply := Reply(500, false, "Failed to save credentials")
  const KlaviyoTestPassed: Reply := Reply(200, true, "Connection to Klaviyo API successful")

  /** `isset($_POST['test']) && $_POST['test'] == 1`, for the spelling the settings page
      sends. */
  predicate IsTest(f: Form) {
    "test" in f.fields && f.fields["test"] == "1"
  }

  /** What a service's fields give: the 400 refusal when a required field is empty, else the
      columns to save. */
  datatype Parsed = Refused(reply: Reply) | Columns(update: CredUpdate)

  /** The CSD fields: host, name and user are required; the password is taken untrimmed and
      may be empty; everything goes into additional_data, every key column NULL. */
  function CsdForm(f: Form): (p: Parsed)
    ensures p.Refused? <==> Empty(Field(f, "db_host")) || Empty(Field(f, "db_name")) || Empty(Field(f, "db_user"))
    ensures p.Refused? ==> p.reply == Reply(400, false, "Database host, name, and user are required")
    ensures p.Columns? ==> p.update.apiKey.None? && p.update.accessToken.None? && p.update.expiresAt.Keep?
    ensures p.Columns? ==> p.update.additionalData == Some(CsdSettings(Field(f, "db_host"), Field(f, "db_name"), Field(f, "db_user"), RawField(f, "db_pass"), Field(f, "db_prefix")))
  {
    var host, name, user := Field(f, "db_host"), Field(f, "db_name"), Field(f, "db_user");
    if Empty(host) || Empty(name) || Empty(user) then
      Refused(Reply(400, false, "Database host, name, and user are required"))
    else
      Columns(CredUpdate(None, None, None, None, Keep,
                         Some(CsdSettings(host, name, user, RawField(f, "db_pass"), Field(f, "db_prefix")))))
  }

  /** The Brightpearl fields: account code, app reference and staff token are required; the
      token is saved as api_key, the access token and its expiry are cleared. */
  function BrightpearlForm(f: Form): (p: Parsed)
    ensures p.Refused? <==> Empty(Field(f, "account_code")) || Empty(Field(f, "app_ref")) || Empty(Field(f, "app_token"))
    ensures p.Refused? ==> p.reply == Reply(400, false, "Account code, App Reference, and Staff Token are required")
    ensures p.Columns? ==> p.update.apiKey == Some(Field(f, "app_token")) && p.update.accessToken.None?
    ensures p.Columns? ==> p.update.expiresAt == SetTo(None)
  {
    var account, appRef, token := Field(f, "account_code"), Field(f, "app_ref"), Field(f, "app_token");
    if Empty(account) || Empty(appRef) || Empty(token) then
      Refused(Reply(400, false, "Account code, App Reference, and Staff Token are required"))
    else
      Columns(CredUpdate(Some(token), None, None, None, SetTo(None), Some(BrightpearlSettings(account, appRef))))
  }

  /** The Klaviyo fields: the API key is required; the version is the posted one, or the
      default when the field is absent. */
  function KlaviyoForm(f: Form): (p: Parsed)
    ensures p.Refused? <==> Empty(Field(f, "api_key"))
    ensures p.Refused? ==> p.reply == Reply(400, false, "API key is required")
    ensures p.Columns? ==> p.update.apiKey == Some(Field(f, "api_key")) && p.update.accessToken.None?
    ensures p.Columns? ==> p.update.expiresAt.Keep? && p.update.additionalData.Some?
  {
    var key := Field(f, "api_key");
    var version := if "api_version" in f.fields then Field(f, "api_version") else DefaultKlaviyoVersion;
    if Empty(key) then Refused(Reply(400, false, "API key is required"))
    else Columns(CredUpdate(Some(key), None, None, None, Keep, Some(KlaviyoSettings(version))))
  }

  /** The fields of the named service. */
  function ParseService(service: string, f: Form): Parsed
    requires service in Services
  {
    if service == "csd" then CsdForm(f)
    else if service == "brightpearl" then BrightpearlForm(f)
    else KlaviyoForm(f)
  }

  /** What the handler answers and the table it leaves. */
  datatype Saving = Saving(reply: Reply, table: CredTable)

  /** The upsert: update the service's row when there is one, else insert a row tagged with the
      service. An update reports its own result; an insert counts when its id is truthy. */
  function Upsert(t: CredTable, service: string, u: CredUpdate, db: DbOutcome): (s: Saving)
    ensures s.reply.success ==> GetCredentials(s.table, service).Some?
    ensures !s.reply.success ==> s.reply == SaveFailed
    ensures forall other :: other != service ==> GetCredentials(s.table, other) == GetCredentials(t, other)
  {
    var saved := SaveCredentials(t, service, u, db);
    var ok := if service in t then db.updated else db.insertId.Some? && db.insertId.value != 0;
    Saving(if ok then Reply(200, true, UcFirst(service) + " credentials saved successfully") else SaveFailed, saved.table)
  }

  /** The requests answered by a connection test instead of a save. */
  predicate TestOnly(service: string, f: Form) {
    (service == "csd" || service == "klaviyo") && IsTest(f)
  }

  /** `!empty($service) && in_array($service, [...])` */
  predicate Listed(service: string) {
    !Empty(service) && service in Services
  }

  /** save_credentials: an admin, a POST, a listed service, then that service's fields. */
  function SaveCredentialsForm(caller: Option<Auth.PublicUser>, f: Form, t: CredTable, csdProbe: Reply, db: DbOutcome): (s: Saving)
    ensures Gate(caller, true, f).Some? ==> s == Saving(Gate(caller, true, f).value, t)
    ensures Gate(caller, true, f).None? && Listed(Field(f, "service")) ==>
      s == SaveService(Field(f, "service"), f, t, csdProbe, db)
  {
    var g := Gate(caller, true, f);
    if g.Some? then Saving(g.value, t)
    else
      var service := Field(f, "service");
      if !Listed(service) then Saving(InvalidService, t)
      else SaveService(service, f, t, csdProbe, db)
  }

  /** A listed service's fields: a refusal when a required one is empty, then either the test
      answer (the CSD live probe's reply `csdProbe`, or Klaviyo's fixed success), which saves
      nothing, or the upsert. */
  function SaveService(service: string, f: Form, t: CredTable, csdProbe: Reply, db: DbOutcome): (s: Saving)
    requires service in Services
    ensures ParseService(service, f).Refused? ==> s == Saving(ParseService(service, f).reply, t)
    ensures TestOnly(service, f) ==> s.table == t
    ensures ParseService(service, f).Columns? && !TestOnly(service, f) ==>
      s == Upsert(t, service, ParseService(service, f).update, db)
  {
    match ParseService(service, f)
    case Refused(r) => Saving(r, t)
    case Columns(u) =>
      if TestOnly(service, f) then Saving(if service == "csd" then csdProbe else KlaviyoTestPassed, t)
      else Upsert(t, service, u, db)
  }

  /** An upsert that reports success has saved: the row is the update's or the insert's. */
  lemma UpsertSaved(t: CredTable, service: string, u: CredUpdate, db: DbOutcome)
    requires Upsert(t, service, u, db).reply.success
    ensures SaveCredentials(t, service, u, db).ok
    ensures Upsert(t, service, u, db).table == SaveCredentials(t, service, u, db).table
  {
  }

  /** A service outside the list is refused with 400 and nothing is saved. */
  lemma UnknownServiceRefused(caller: Option<Auth.PublicUser>, f: Form, t: CredTable, csdProbe: Reply, db: DbOutcome)
    requires Gate(caller, true, f).None?
    requires Field(f, "service") !in Services
    ensures SaveCredentialsForm(caller, f, t, csdProbe, db) == Saving(InvalidService, t)
  {
  }

  /** The CSD password is optional: with host, name and user given, an empty or missing
      password is saved as "". */
  lemma CsdPasswordOptional(f: Form)
    requires !Empty(Field(f, "db_host")) && !Empty(Field(f, "db_name")) && !Empty(Field(f, "db_user"))
    requires "db_pass" !in f.fields || f.fields["db_pass"] == ""
    ensures CsdForm(f).Columns? && CsdForm(f).update.additionalData.value.dbPass == ""
  {
  }

  /** The Klaviyo version is the default exactly when the field is absent; a posted version is
      kept (trimmed) even when empty. */
  lemma KlaviyoVersionDefault(f: Form)
    requires !Empty(Field(f, "api_key"))
    ensures var v := KlaviyoForm(f).update.additionalData.value;
      v.KlaviyoSettings? && ("api_version" !in f.fields ==> v.apiVersion == DefaultKlaviyoVersion)
        && ("api_version" in f.fields ==> v.apiVersion == Field(f, "api_version"))
  {
  }

  /** A Klaviyo test request is answered with success and saves nothing; no request is made. */
  lemma KlaviyoTestSavesNothing(caller: Option<Auth.PublicUser>, f: Form, t: CredTable, csdProbe: Reply, db: DbOutcome)
    requires Gate(caller, true, f).None?
    requires Field(f, "service") == "klaviyo" && !Empty(Field(f, "api_key")) && IsTest(f)
    ensures SaveCredentialsForm(caller, f, t, csdProbe, db) == Saving(KlaviyoTestPassed, t)
  {
  }

  /** A save keeps one row per service, and changes no other service's row. */
  lemma SaveKeepsOneRowPerService(caller: Option<Auth.PublicUser>, f: Form, t: CredTable, csdProbe: Reply, db: DbOutcome)
    requires WellKeyed(t)
    ensures var s := SaveCredentialsForm(caller, f, t, csdProbe, db);
      WellKeyed(s.table) && forall other :: other != Field(f, "service") ==> GetCredentials(s.table, other) == GetCredentials(t, other)
  {
    var service := Field(f, "service");
    if Gate(caller, true, f).None? && service in Services {
      var p := ParseService(service, f);
      if p.Columns? && !TestOnly(service, f) {
        SaveKeepsKeys(t, service, p.update, db);
      }
    }
  }

  /** Brightpearl credentials saved through the form never make the source available: the form
      always clears the access token the source needs. */
  lemma BrightpearlFormNeverAvailable(caller: Option<Auth.PublicUser>, f: Form, t: CredTable, csdProbe: Reply,
                                      db: DbOutcome, clock: Bp.Clock)
    requires Field(f, "service") == "brightpearl"
    requires SaveCredentialsForm(caller, f, t, csdProbe, db).reply.success
    ensures !Bp.IsAvailable(GetCredentials(SaveCredentialsForm(caller, f, t, csdProbe, db).table, Bp.Name), clock)
  {
    var p := BrightpearlForm(f);
    assert Gate(caller, true, f).None?;
    assert ParseService("brightpearl", f) == p;
    assert p.Columns? && !TestOnly("brightpearl", f);
    var s := SaveCredentialsForm(caller, f, t, csdProbe, db);
    assert s == Upsert(t, "brightpearl", p.update, db);
    UpsertSaved(t, "brightpearl", p.update, db);
    SaveThenGet(t, "brightpearl", p.update, db);
    Bp.NoAccessTokenUnavailable(GetCredentials(s.table, Bp.Name), clock);
  }

  /** Klaviyo credentials saved through the form make the source available. */
  lemma KlaviyoFormAvailable(caller: Option<Auth.PublicUser>, f: Form, t: CredTable, csdProbe: Reply, db: DbOutcome)
    requires Field(f, "service") == "klaviyo"
    requires SaveCredentialsForm(caller, f, t, csdProbe, db).reply.success && !IsTest(f)
    ensures Kl.IsAvailable(GetCredentials(SaveCredentialsForm(caller, f, t, csdProbe, db).table, Kl.Name))
  {
    var p := KlaviyoForm(f);
    assert Gate(caller, true, f).None?;
    assert ParseService("klaviyo", f) == p;
    assert p.Columns? && !TestOnly("klaviyo", f);
    var s := SaveCredentialsForm(caller, f, t, csdProbe, db);
    assert s == Upsert(t, "klaviyo", p.update, db);
    UpsertSaved(t, "klaviyo", p.update, db);
    SaveThenGet(t, "klaviyo", p.update, db);
  }
}

=== FILE: csd_source.dfy ===
/** The College Sports Directory source (sources/csd_source.php): three tables in the
    dashboard's own database, one school lookup and a staff join. */
module CsdSource {
  import opened Php
  import opened Helpers
  import opened DataSource

  /** getName */
  const Name: string := "csd"

  /** The tables the source needs, by their fixed names. */
  const Tables: set<string> := {"csd_schools", "csd_staff", "csd_school_staff"}

  datatype School = School(schoolId: int, schoolDomain: Option<string>, schoolName: Option<string>)

  datatype Staff = Staff(staffId: int, firstName: Option<string>, lastName: Option<string>, email: Option<string>)

  /** A row of csd_school_staff. */
  datatype Link = Link(schoolId: int, staffId: int)

  /** The three tables' contents. */
  datatype Directory = Directory(schools: seq<School>, staff: seq<Staff>, links: seq<Link>)

  /** What a successful lookup returns. */
  datatype CsdData = CsdData(school: School, staff: seq<Staff>, totalStaff: int)

  /** isAvailable: the count of information_schema tables of the current schema named like the
      three tables is 3. `schema` is the set of table names of the current database. */
  predicate IsAvailable(schema: set<string>) {
    |schema * Tables| == 3
  }

  /** Available exactly when all three tables exist. */
  lemma AvailableIffAllTables(schema: set<string>)
    ensures IsAvailable(schema) <==> Tables <= schema
  {
    var c := schema * Tables;
    if Tables <= schema {
      assert c == Tables;
    } else {
      var missing :| missing in Tables && missing !in schema;
      assert c <= Tables - {missing};
      assert |Tables - {missing}| == 2;
      SubsetCard(c, Tables - {missing});
    }
  }

  lemma SubsetCard<T>(a: set<T>, b: set<T>)
    requires a <= b
    ensures |a| <= |b|
  {
    assert b == a + (b - a);
  }

  /** `school_name LIKE '%name%'` under the database's case-insensitive collation, read as
      "contains, ignoring ASCII case". */
  predicate NameLike(schoolName: Option<string>, name: string) {
    schoolName.Some? && Contains(Lower(schoolName.value), Lower(name))
  }

  /** The WHERE clause of the school lookup: the domain matches, or the name contains the name
      derived from the domain. */
  predicate Matches(s: School, domain: string) {
    s.schoolDomain == Some(domain) || NameLike(s.schoolName, GetSchoolNameFromDomain(domain))
  }

  /** `selectOne` of the lookup: the first matching row in table order. */
  function FindSchool(schools: seq<School>, domain: string): (r: Option<School>)
    ensures r.Some? ==> r.value in schools && Matches(r.value, domain)
    ensures r.None? <==> forall i :: 0 <= i < |schools| ==> !Matches(schools[i], domain)
  {
    var m := FirstIndex(schools, s => Matches(s, domain), 0);
    FirstIndexSpec(schools, s => Matches(s, domain), 0);
    if m.Some? then Some(schools[m.value]) else None
  }

  /** The staff join for one school: for each link of the school, in order, the staff rows with
      the linked id. */
  function StaffOf(d: Directory, schoolId: int): (r: seq<Staff>)
    ensures forall x :: x in r ==> Linked(d, schoolId, x)
  {
    JoinLinks(d.links, d.staff, schoolId)
  }

  /** A staff row is linked to the school through some link. */
  predicate Linked(d: Directory, schoolId: int, x: Staff) {
    x in d.staff && exists l :: l in d.links && l.schoolId == schoolId && l.staffId == x.staffId
  }

  function JoinLinks(links: seq<Link>, staff: seq<Staff>, schoolId: int): (r: seq<Staff>)
    ensures forall x :: x in r ==> x in staff && exists l :: l in links && l.schoolId == schoolId && l.staffId == x.staffId
  {
    if |links| == 0 then []
    else
      var l := links[0];
      var here := if l.schoolId == schoolId then StaffWithId(staff, l.staffId) else [];
      var rest := JoinLinks(links[1..], staff, schoolId);
      assert forall x :: x in rest ==> exists k :: k in links && k.schoolId == schoolId && k.staffId == x.staffId by {
        forall x | x in rest
          ensures exists k :: k in links && k.schoolId == schoolId && k.staffId == x.staffId
        {
          var k :| k in links[1..] && k.schoolId == schoolId && k.staffId == x.staffId;
          assert k in links;
        }
      }
      here + rest
  }

  function StaffWithId(staff: seq<Staff>, id: int): (r: seq<Staff>)
    ensures forall x :: x in r ==> x in staff && x.staffId == id
    ensures forall x :: x in staff && x.staffId == id ==> x in r
  {
    if |staff| == 0 then []
    else if staff[0].staffId == id then [staff[0]] + StaffWithId(staff[1..], id)
    else StaffWithId(staff[1..], id)
  }

  /** Every staff row linked to the school is in the join. */
  lemma {:induction false} JoinComplete(links: seq<Link>, staff: seq<Staff>, schoolId: int, l: Link, x: Staff)
    requires l in links && l.schoolId == schoolId
    requires x in staff && x.staffId == l.staffId
    ensures x in JoinLinks(links, staff, schoolId)
    decreases |links|
  {
    if links[0] != l {
      JoinComplete(links[1..], staff, schoolId, l, x);
    }
  }

  /** getSchoolData: look the school up; without a match, fail; otherwise return it with its
      staff and their count. */
  function GetSchoolData(d: Directory, domain: string): (e: Envelope<CsdData>)
    ensures e.success <==> exists i :: 0 <= i < |d.schools| && Matches(d.schools[i], domain)
    ensures !e.success ==> e == Failure("School not found in College Sports Directory")
    ensures e.success ==> e.data.Some? && e.data.value.totalStaff == |e.data.value.staff|
    ensures e.success ==> e.data.value.school in d.schools && Matches(e.data.value.school, domain)
  {
    match FindSchool(d.schools, domain)
    case None => Failure("School not found in College Sports Directory")
    case Some(school) =>
      var staff := StaffOf(d, school.schoolId);
      Envelope(true, "School data retrieved successfully", None, Some(CsdData(school, staff, |staff|)))
  }

  /** The staff of a successful lookup are exactly the staff linked to the found school. */
  lemma StaffExactlyLinked(d: Directory, domain: string, x: Staff)
    requires GetSchoolData(d, domain).success
    ensures var data := GetSchoolData(d, domain).data.value;
      x in data.staff <==> Linked(d, data.school.schoolId, x)
  {
    var data := GetSchoolData(d, domain).data.value;
    if Linked(d, data.school.schoolId, x) {
      var l :| l in d.links && l.schoolId == data.school.schoolId && l.staffId == x.staffId;
      JoinComplete(d.links, d.staff, data.school.schoolId, l, x);
    }
  }

  /** A school whose domain column is the domain is always found. */
  lemma DomainRowFound(d: Directory, domain: string, i: int)
    requires 0 <= i < |d.schools| && d.schools[i].schoolDomain == Some(domain)
    ensures GetSchoolData(d, domain).success
  {
    assert Matches(d.schools[i], domain);
  }
}

=== FILE: data_source.dfy ===
/** What the three source clients share (sources/data_source.php): the api_credentials table,
    keyed by the source's name, the `{success, message, data}` envelope of an HTTP request,
    and the log line written for each request. */
module DataSource {
  import opened Php

  // ---------------------------------------------------------------------------------------
  // The api_credentials table

  /** The JSON kept in additional_data, decoded: one shape per service. */
  datatype Settings =
    | CsdSettings(dbHost: string, dbName: string, dbUser: string, dbPass: string, dbPrefix: string)
    | BrightpearlSettings(accountCode: string, appRef: string)
    | KlaviyoSettings(apiVersion: string)

  /** A row of api_credentials; every column but `service` may be NULL. Timestamps are kept
      as the text the database returns. */
  datatype CredRow = CredRow(
    service: string,
    apiKey: Option<string>,
    apiSecret: Option<string>,
    accessToken: Option<string>,
    refreshToken: Option<string>,
    expiresAt: Option<string>,
    additionalData: Option<Settings>)

  /** `service` is UNIQUE, so the table is a map from service to its row. */
  type CredTable = map<string, CredRow>

  /** Every row sits under its own service name. */
  predicate WellKeyed(t: CredTable) {
    forall s :: s in t ==> t[s].service == s
  }

  /** A column an UPDATE either leaves alone or sets. */
  datatype Column<T> = Keep | SetTo(value: T)

  /** The columns a save names. expires_at is the only column some saves leave out. */
  datatype CredUpdate = CredUpdate(
    apiKey: Option<string>,
    apiSecret: Option<string>,
    accessToken: Option<string>,
    refreshToken: Option<string>,
    expiresAt: Column<Option<string>>,
    additionalData: Option<Settings>)

  function Assign<T>(prior: T, c: Column<T>): T {
    if c.SetTo? then c.value else prior
  }

  /** `UPDATE api_credentials SET <named columns>`: the columns not named keep their value. */
  function ApplyUpdate(row: CredRow, u: CredUpdate): (r: CredRow)
    ensures r.service == row.service
    ensures r.apiKey == u.apiKey && r.accessToken == u.accessToken
    ensures u.expiresAt.Keep? ==> r.expiresAt == row.expiresAt
    ensures u.expiresAt.SetTo? ==> r.expiresAt == u.expiresAt.value
  {
    CredRow(row.service, u.apiKey, u.apiSecret, u.accessToken, u.refreshToken,
            Assign(row.expiresAt, u.expiresAt), u.additionalData)
  }

  /** `INSERT INTO api_credentials`: the named columns with the service, NULL elsewhere. */
  function InsertRow(service: string, u: CredUpdate): (r: CredRow)
    ensures r.service == service
    ensures r.apiKey == u.apiKey && r.accessToken == u.accessToken
    ensures u.expiresAt.Keep? ==> r.expiresAt.None?
  {
    CredRow(service, u.apiKey, u.apiSecret, u.accessToken, u.refreshToken,
            Assign(None, u.expiresAt), u.additionalData)
  }

  /** getCredentials: the row whose service is the source's name, or NULL. */
  function GetCredentials(t: CredTable, name: string): (r: Option<CredRow>)
    ensures r.Some? <==> name in t
    ensures WellKeyed(t) && r.Some? ==> r.value.service == name
  {
    if name in t then Some(t[name]) else None
  }

  /** What `$db->insert` and `$db->update` report. The insert id is None when insert returned
      false; on a failed statement the table is unchanged. */
  datatype DbOutcome = DbOutcome(updated: bool, insertId: Option<nat>)

  datatype Saved = Saved(ok: bool, table: CredTable)

  /** saveCredentials: update the source's row when it has one, else insert a row tagged with
      the source's name. The insert reports success when the insert id is not false. */
  function SaveCredentials(t: CredTable, name: string, u: CredUpdate, db: DbOutcome): (s: Saved)
    ensures name in t ==> s.ok == db.updated
    ensures name !in t ==> s.ok == db.insertId.Some?
    ensures s.ok ==> GetCredentials(s.table, name).Some?
    ensures !s.ok ==> s.table == t
    ensures forall other :: other != name ==> GetCredentials(s.table, other) == GetCredentials(t, other)
  {
    match GetCredentials(t, name)
    case Some(row) =>
      if db.updated then Saved(true, t[name := ApplyUpdate(row, u)]) else Saved(false, t)
    case None =>
      if db.insertId.Some? then Saved(true, t[name := InsertRow(name, u)]) else Saved(false, t)
  }

  /** A save keeps the table keyed by service: there is never a second row for a service. */
  lemma SaveKeepsKeys(t: CredTable, name: string, u: CredUpdate, db: DbOutcome)
    requires WellKeyed(t)
    ensures WellKeyed(SaveCredentials(t, name, u, db).table)
  {
  }

  /** After a successful save, the source's row holds exactly the saved columns: an existing
      row is updated in place, a missing one is inserted. */
  lemma SaveThenGet(t: CredTable, name: string, u: CredUpdate, db: DbOutcome)
    requires SaveCredentials(t, name, u, db).ok
    ensures name in t ==> GetCredentials(SaveCredentials(t, name, u, db).table, name) == Some(ApplyUpdate(t[name], u))
    ensures name !in t ==> GetCredentials(SaveCredentials(t, name, u, db).table, name) == Some(InsertRow(name, u))
  {
  }

  // ---------------------------------------------------------------------------------------
  // Requests and their envelope

  /** The request the client hands to cURL: method, endpoint, query parameters (before
      `http_build_query`) and headers. */
  datatype Request = Request(verb: string, endpoint: string, params: seq<(string, string)>, headers: seq<string>)

  /** What cURL returns: the status code, `curl_error`, the raw body and its `json_decode`
      (None when the body is not JSON or is JSON null). */
  datatype HttpResponse<T> = HttpResponse(status: int, error: string, raw: string, decoded: Option<T>)

  /** The `{success, message, status_code?, data}` array every client returns. */
  datatype Envelope<T> = Envelope(success: bool, message: string, statusCode: Option<int>, data: Option<T>)

  /** A request succeeds exactly for a 2xx status. */
  predicate Succeeded(status: int) {
    200 <= status < 300
  }

  /** The status rule shared by makeApiRequest in both HTTP clients. */
  function MakeApiRequest<T>(resp: HttpResponse<T>): (e: Envelope<T>)
    ensures e.success <==> 200 <= resp.status < 300
    ensures !e.success ==> e.data.None? && e.statusCode == Some(resp.status)
    ensures !e.success ==> e.message == "API request failed: " + resp.error
    ensures e.success ==> e.data == resp.decoded && e.statusCode.None?
  {
    if Succeeded(resp.status) then Envelope(true, "API request successful", None, resp.decoded)
    else Envelope(false, "API request failed: " + resp.error, Some(resp.status), None)
  }

  /** A failed envelope passed on as the result of a larger operation: same outcome, message
      and status code; a failure carries no data. */
  function PassOn<T, U>(e: Envelope<T>): (r: Envelope<U>)
    requires !e.success
    ensures !r.success && r.message == e.message && r.statusCode == e.statusCode && r.data.None?
  {
    Envelope(false, e.message, e.statusCode, None)
  }

  /** What a client's getSchoolData produces: its envelope, and the requests it sent, in
      order. */
  datatype Fetch<T> = Fetch(result: Envelope<T>, requests: seq<Request>)

  /** A failure the client reports itself (no status code, no data). */
  function Failure<T>(message: string): (e: Envelope<T>)
    ensures !e.success && e.message == message && e.data.None? && e.statusCode.None?
  {
    Envelope(false, message, None, None)
  }

  // ---------------------------------------------------------------------------------------
  // logApiRequest

  datatype LogEntry = LogEntry(level: string, message: string)

  /** The outcome word of the log line. */
  function Outcome(success: bool): string {
    if success then "succeeded" else "failed"
  }

  /** logApiRequest: "[<source> API] Request to <endpoint> <outcome>. Params: …, Response: …"
      at level info or error. The JSON texts of the parameters and the response are given. */
  function LogApiRequest(name: string, endpoint: string, paramsJson: string, responseText: string, success: bool): (l: LogEntry)
    ensures l.level == "info" <==> success
    ensures l.level == "error" <==> !success
    ensures StartsWith(l.message, "[" + name + " API] Request to " + endpoint + " " + Outcome(success) + ".")
  {
    var head := "[" + name + " API] Request to " + endpoint + " " + Outcome(success) + ".";
    var msg := head + " Params: " + paramsJson + ", Response: " + responseText;
    assert msg[..|head|] == head;
    LogEntry(if success then "info" else "error", msg)
  }

  /** The log line of a request and the envelope it returns agree on the outcome. */
  lemma LogAgreesWithEnvelope<T>(name: string, endpoint: string, paramsJson: string, resp: HttpResponse<T>)
    ensures var l := LogApiRequest(name, endpoint, paramsJson, resp.raw, Succeeded(resp.status));
      (l.level == "info" <==> MakeApiRequest(resp).success)
  {
  }

  /** The outcome word can be read back from the line: the two words differ at the same
      place, so a line never reads as both. */
  lemma OutcomeWordsDiffer(name: string, endpoint: string)
    ensures var p := "[" + name + " API] Request to " + endpoint + " ";
      !StartsWith(p + "failed.", p + "succeeded.") && !StartsWith(p + "succeeded.", p + "failed.")
  {
    var p := "[" + name + " API] Request to " + endpoint + " ";
    assert (p + "failed.")[|p|] == 'f';
    assert (p + "succeeded.")[|p|] == 's';
  }
}

=== FILE: helpers.dfy ===
/** The e-mail, domain and slug helpers of includes/functions.php. */
module Helpers {
  import opened Php

  // ---------------------------------------------------------------------------------------
  // extractEmailDomain

  /** extractEmailDomain: the last '@'-separated piece of the address. */
  function ExtractEmailDomain(email: string): (d: string)
    ensures '@' !in d
    ensures EndsWith(email, d)
    ensures |d| < |email| ==> email[|email| - |d| - 1] == '@'
  {
    ExplodeLast(email, '@');
    var parts := Explode(email, '@');
    parts[|parts| - 1]
  }

  /** The domain of "local@domain" is the domain, whatever the local part holds. */
  lemma DomainOfAddress(local: string, domain: string)
    requires '@' !in domain
    ensures ExtractEmailDomain(local + "@" + domain) == domain
  {
    var email := local + "@" + domain;
    var d := ExtractEmailDomain(email);
    assert email[|local|] == '@';
    assert forall i :: 0 <= i < |domain| ==> email[|local| + 1 + i] == domain[i];
    assert forall i :: 0 <= i < |d| ==> email[|email| - |d| + i] == d[i];
    assert |d| == |domain|;
    assert d == email[|email| - |d|..];
  }

  /** An address without '@' is returned whole. */
  lemma DomainOfPlain(email: string)
    requires '@' !in email
    ensures ExtractEmailDomain(email) == email
  {
    var d := ExtractEmailDomain(email);
    assert |d| == |email|;
    assert d == email[|email| - |d|..];
  }

  // ---------------------------------------------------------------------------------------
  // getSchoolNameFromDomain

  /** getSchoolNameFromDomain: the second-to-last '.'-label with hyphens read as spaces and
      every word capitalised; a domain without '.' is only given a capital first letter. */
  function GetSchoolNameFromDomain(domain: string): (name: string)
    ensures '.' in domain ==> '.' !in name && '-' !in name
    ensures '.' !in domain ==> Lower(name) == Lower(domain)
    ensures '.' !in domain ==> |name| == |domain|
    ensures '.' !in domain && |domain| > 0 ==> name[0] == UpperChar(domain[0])
    ensures '.' !in domain ==> forall i :: 0 < i < |domain| ==> name[i] == domain[i]
  {
    var parts := Explode(domain, '.');
    ExplodeSplits(domain, '.');
    if |parts| >= 2 then
      LabelName(parts[|parts| - 2])
    else
      LowerUcFirst(domain);
      UcFirst(domain)
  }

  /** A domain label as a name: hyphens become spaces, then every word is capitalised. */
  function LabelName(seg: string): (name: string)
    requires '.' !in seg
    ensures |name| == |seg|
    ensures '.' !in name && '-' !in name
    ensures Lower(name) == Lower(ReplaceChar(seg, '-', ' '))
  {
    var spaced := ReplaceChar(seg, '-', ' ');
    UcWordsOnlyCapitalises(spaced);
    UcWords(spaced)
  }

  /** Each hyphen of the label is a space in the name, each lower-case letter that starts
      the label or follows a hyphen or a `ucwords` delimiter is capitalised, and every other
      character is kept as it is, case included ("MIT" stays "MIT"). */
  lemma LabelNameWords(seg: string)
    requires '.' !in seg
    ensures forall i :: 0 <= i < |seg| && seg[i] == '-' ==> LabelName(seg)[i] == ' '
    ensures 0 < |seg| && IsLowerAscii(seg[0]) ==> IsUpperAscii(LabelName(seg)[0])
    ensures forall i :: 0 < i < |seg| && seg[i - 1] == '-' && IsLowerAscii(seg[i]) ==>
      IsUpperAscii(LabelName(seg)[i])
    ensures forall i :: 0 < i < |seg| && IsWordDelimiter(seg[i - 1]) && IsLowerAscii(seg[i]) ==>
      IsUpperAscii(LabelName(seg)[i])
    ensures forall i :: 0 < i < |seg| && seg[i] != '-' && seg[i - 1] != '-' && !IsWordDelimiter(seg[i - 1]) ==>
      LabelName(seg)[i] == seg[i]
    ensures forall i :: 0 <= i < |seg| && seg[i] != '-' && !IsLowerAscii(seg[i]) ==> LabelName(seg)[i] == seg[i]
  {
    var spaced := ReplaceChar(seg, '-', ' ');
    var name := UcWords(spaced);
    assert LabelName(seg) == name;
    UcWordsOnlyCapitalises(spaced);
    forall i | 0 <= i < |seg| && seg[i] == '-'
      ensures name[i] == ' '
    {
      assert spaced[i] == ' ';
      assert LowerChar(name[i]) == Lower(name)[i];
    }
    if 0 < |seg| && IsLowerAscii(seg[0]) {
      assert spaced[0] == seg[0];
      assert WordStart(spaced, 0);
    }
    forall i | 0 < i < |seg| && seg[i - 1] == '-' && IsLowerAscii(seg[i])
      ensures IsUpperAscii(name[i])
    {
      assert spaced[i] == seg[i];
      assert spaced[i - 1] == ' ';
      assert WordStart(spaced, i);
    }
    forall i | 0 < i < |seg| && IsWordDelimiter(seg[i - 1]) && IsLowerAscii(seg[i])
      ensures IsUpperAscii(name[i])
    {
      assert spaced[i] == seg[i];
      assert spaced[i - 1] == seg[i - 1];
      assert WordStart(spaced, i);
    }
    forall i | 0 < i < |seg| && seg[i] != '-' && seg[i - 1] != '-' && !IsWordDelimiter(seg[i - 1])
      ensures name[i] == seg[i]
    {
      assert spaced[i - 1] == seg[i - 1];
      assert !WordStart(spaced, i);
    }
    forall i | 0 <= i < |seg| && seg[i] != '-' && !IsLowerAscii(seg[i])
      ensures name[i] == seg[i]
    {
      assert spaced[i] == seg[i];
    }
  }

  /** An upper-case label keeps every letter: "MIT" names "MIT". */
  lemma LabelNameUpper()
    ensures LabelName("MIT") == "MIT"
  {
    LabelNameWords("MIT");
  }

  lemma LowerUcFirst(s: string)
    ensures Lower(UcFirst(s)) == Lower(s)
  {
  }

  /** The name is read from the seg just before the last '.': for "host.seg.tld" (any
      number of host labels, possibly none) it is the seg's name, whatever the host holds. */
  lemma SchoolNameOfDomain(host: string, seg: string, tld: string)
    requires '.' !in seg && '.' !in tld
    ensures GetSchoolNameFromDomain(seg + "." + tld) == LabelName(seg)
    ensures GetSchoolNameFromDomain(host + "." + seg + "." + tld) == LabelName(seg)
  {
    ExplodeWithout(seg, '.');
    ExplodeWithout(tld, '.');
    ExplodeJoin(seg, '.', tld);
    assert seg + "." + tld == seg + ['.'] + tld;
    var tail := Explode(seg + "." + tld, '.');
    assert tail == [seg, tld];
    var d := host + "." + seg + "." + tld;
    assert d == host + ['.'] + (seg + "." + tld);
    ExplodeJoin(host, '.', seg + "." + tld);
    var parts := Explode(d, '.');
    assert parts == Explode(host, '.') + tail;
    assert parts[|parts| - 2] == seg;
  }

  // ---------------------------------------------------------------------------------------
  // createSlug

  /** The characters the first `preg_replace` keeps: `[a-zA-Z0-9\s]`. */
  predicate SlugKeeps(c: char) {
    IsAlnum(c) || IsSpace(c)
  }

  /** A character that is neither whitespace nor '-': the content of a slug. */
  predicate Plain(c: char) {
    !IsSpace(c) && c != '-'
  }

  /** A character a slug may hold. */
  predicate SlugChar(c: char) {
    IsLowerAscii(c) || IsDigit(c) || c == '-'
  }

  /** No two adjacent '-'. */
  predicate NoDoubleDash(s: string) {
    forall i :: 0 <= i < |s| - 1 ==> !(s[i] == '-' && s[i + 1] == '-')
  }

  /** The leading run of whitespace removed. */
  function DropSpaces(s: string): (r: string)
    ensures |r| <= |s| && r == s[|s| - |r|..]
    ensures forall k :: 0 <= k < |s| - |r| ==> IsSpace(s[k])
    ensures |r| > 0 ==> !IsSpace(r[0])
    decreases |s|
  {
    if |s| > 0 && IsSpace(s[0]) then DropSpaces(s[1..]) else s
  }

  /** No '-' anywhere. */
  predicate NoDash(s: string) {
    forall i :: 0 <= i < |s| ==> s[i] != '-'
  }

  /** `preg_replace('/\s+/', '-', $s)`: every maximal run of whitespace becomes one '-'. */
  function Collapse(s: string): (r: string)
    ensures |r| <= |s|
    ensures |r| == 0 <==> |s| == 0
    ensures |r| > 0 ==> (r[0] == '-' <==> IsSpace(s[0]) || s[0] == '-')
    ensures forall i :: 0 <= i < |r| ==> !IsSpace(r[i])
    ensures NoDash(s) ==> NoDoubleDash(r)
    decreases |s|
  {
    if |s| == 0 then ""
    else if IsSpace(s[0]) then
      var rest := DropSpaces(s);
      "-" + Collapse(rest)
    else
      [s[0]] + Collapse(s[1..])
  }

  /** Collapsing keeps a character property that whitespace-free characters and '-' have. */
  lemma {:induction false} CollapseKeeps(s: string, p: char -> bool)
    requires p('-')
    requires forall i :: 0 <= i < |s| ==> p(s[i]) || IsSpace(s[i])
    ensures forall i :: 0 <= i < |Collapse(s)| ==> p(Collapse(s)[i])
    decreases |s|
  {
    if |s| > 0 {
      if IsSpace(s[0]) {
        var rest := DropSpaces(s);
        CollapseKeeps(rest, p);
      } else {
        CollapseKeeps(s[1..], p);
      }
    }
  }

  /** After the first filter and lower-casing, every character is a slug character or
      whitespace, and none is '-'. */
  lemma LowerSlugKeeps(t: string)
    requires forall i :: 0 <= i < |t| ==> SlugKeeps(t[i])
    ensures forall i :: 0 <= i < |t| ==> SlugChar(Lower(t)[i]) || IsSpace(Lower(t)[i])
    ensures NoDash(Lower(t))
  {
  }

  /** `createSlug`: drop everything but ASCII letters, digits and whitespace, trim, lower-case,
      then turn each run of whitespace into one '-'. */
  function CreateSlug(s: string): (r: string)
    ensures |r| <= |s|
    ensures forall i :: 0 <= i < |r| ==> SlugChar(r[i])
    ensures NoDoubleDash(r)
  {
    var f := Filter(s, SlugKeeps);
    var t := Trim(f);
    TrimKeeps(f, SlugKeeps);
    var l := Lower(t);
    LowerSlugKeeps(t);
    CollapseKeeps(l, SlugChar);
    Collapse(l)
  }

  /** Collapsing whitespace keeps every other character, in order. */
  lemma {:induction false} CollapseContent(s: string)
    ensures Filter(Collapse(s), Plain) == Filter(s, Plain)
    decreases |s|
  {
    if |s| > 0 {
      if IsSpace(s[0]) {
        var rest := DropSpaces(s);
        CollapseContent(rest);
        var dropped := s[..|s| - |rest|];
        assert s == dropped + rest;
        FilterAppend(dropped, rest, Plain);
        FilterDropsAll(dropped, Plain);
        assert ("-" + Collapse(rest))[1..] == Collapse(rest);
      } else {
        CollapseContent(s[1..]);
      }
    }
  }

  /** A string without whitespace is not changed by collapsing. */
  lemma {:induction false} CollapseNoSpace(s: string)
    requires forall i :: 0 <= i < |s| ==> !IsSpace(s[i])
    ensures Collapse(s) == s
    decreases |s|
  {
    if |s| > 0 {
      CollapseNoSpace(s[1..]);
    }
  }

  /** Filtering to letters, digits and whitespace, then dropping whitespace, keeps the
      letters and digits. */
  lemma SlugFilterContent(s: string)
    ensures Filter(Filter(s, SlugKeeps), Plain) == Filter(s, IsAlnum)
  {
    FilterFilter(s, SlugKeeps, Plain, IsAlnum);
  }

  /** Trimming a filtered string only removes whitespace. */
  lemma SlugTrimContent(f: string)
    requires forall i :: 0 <= i < |f| ==> SlugKeeps(f[i])
    ensures Filter(Trim(f), Plain) == Filter(f, Plain)
  {
    FilterTrim(f, Plain);
  }

  /** Collapsing the whitespace of the trimmed, lower-cased text keeps its content. */
  lemma SlugCollapseContent(s: string)
    ensures Filter(CreateSlug(s), Plain) == Filter(Lower(Trim(Filter(s, SlugKeeps))), Plain)
  {
    var l := Lower(Trim(Filter(s, SlugKeeps)));
    assert CreateSlug(s) == Collapse(l);
    CollapseContent(l);
  }

  /** Lower-casing does not change which characters are content. */
  lemma SlugLowerContent(t: string)
    ensures Filter(Lower(t), Plain) == Lower(Filter(t, Plain))
  {
    FilterLower(t, Plain);
  }

  /** What a slug says: the ASCII letters and digits of the input, lower-cased, in order;
      everything else in it is a '-'. */
  lemma SlugContent(s: string)
    ensures Filter(CreateSlug(s), Plain) == Lower(Filter(s, IsAlnum))
  {
    var f := Filter(s, SlugKeeps);
    var t := Trim(f);
    SlugCollapseContent(s);
    SlugLowerContent(t);
    SlugTrimContent(f);
    SlugFilterContent(s);
  }

  /** Text of lower-case letters and digits alone passes through every stage unchanged. */
  lemma SlugStagesKeep(x: string)
    requires forall i :: 0 <= i < |x| ==> IsLowerAscii(x[i]) || IsDigit(x[i])
    ensures Filter(x, SlugKeeps) == x
    ensures Trim(x) == x
    ensures Lower(x) == x
    ensures Collapse(x) == x
  {
    FilterStageKeeps(x);
    PlainTextTrimmed(x);
    LowerStageKeeps(x);
    CollapseStageKeeps(x);
  }

  lemma FilterStageKeeps(x: string)
    requires forall i :: 0 <= i < |x| ==> IsLowerAscii(x[i]) || IsDigit(x[i])
    ensures Filter(x, SlugKeeps) == x
  {
    FilterKeepsAll(x, SlugKeeps);
  }

  lemma LowerStageKeeps(x: string)
    requires forall i :: 0 <= i < |x| ==> IsLowerAscii(x[i]) || IsDigit(x[i])
    ensures Lower(x) == x
  {
    LowerOfLower(x);
  }

  lemma CollapseStageKeeps(x: string)
    requires forall i :: 0 <= i < |x| ==> IsLowerAscii(x[i]) || IsDigit(x[i])
    ensures Collapse(x) == x
  {
    assert forall i :: 0 <= i < |x| ==> !IsSpace(x[i]);
    CollapseNoSpace(x);
  }

  lemma PlainTextTrimmed(x: string)
    requires forall i :: 0 <= i < |x| ==> IsLowerAscii(x[i]) || IsDigit(x[i])
    ensures Trim(x) == x
  {
    if |x| > 0 {
      assert !IsTrimChar(x[0]) && !IsTrimChar(x[|x| - 1]);
    }
    TrimOfTrimmed(x);
  }

  /** Making a slug of a slug drops its dashes and keeps the rest. */
  lemma SlugOfSlug(r: string)
    requires forall i :: 0 <= i < |r| ==> SlugChar(r[i])
    ensures CreateSlug(r) == Filter(r, Plain)
  {
    SlugKeepsIsPlain(r);
    var x := Filter(r, Plain);
    SlugContentChars(r);
    SlugStagesKeep(x);
    assert CreateSlug(r) == Collapse(Lower(Trim(Filter(r, SlugKeeps))));
  }

  /** The content of a slug is lower-case letters and digits. */
  lemma SlugContentChars(r: string)
    requires forall i :: 0 <= i < |r| ==> SlugChar(r[i])
    ensures forall i :: 0 <= i < |Filter(r, Plain)| ==> IsLowerAscii(Filter(r, Plain)[i]) || IsDigit(Filter(r, Plain)[i])
  {
    FilterPreserves(r, Plain, SlugChar);
  }

  /** On slug characters, the first filter of `createSlug` drops exactly the dashes. */
  lemma SlugKeepsIsPlain(r: string)
    requires forall i :: 0 <= i < |r| ==> SlugChar(r[i])
    ensures Filter(r, SlugKeeps) == Filter(r, Plain)
  {
    FilterSame(r, SlugKeeps, Plain);
  }

  /** A slug made again loses its dashes: `createSlug` is not idempotent, and the second slug
      is the first one's letters and digits alone. */
  lemma SlugTwice(s: string)
    ensures CreateSlug(CreateSlug(s)) == Lower(Filter(s, IsAlnum))
  {
    SlugContent(s);
    SlugOfSlug(CreateSlug(s));
  }
}

=== FILE: klaviyo_source.dfy ===
/** The Klaviyo source (sources/klaviyo_source.php): a profile search by e-mail domain, then
    the e-mail metrics of that domain, mapped onto the dashboard's figures. */
module KlaviyoSource {
  import opened Php
  import opened Helpers
  import opened DataSource

  /** getName */
  const Name: string := "klaviyo"

  /** KLAVIYO_API_URL and KLAVIYO_API_VERSION of the configuration; the client sends this
      version, not the one saved with the credentials. */
  const ApiUrl: string := "https://a.klaviyo.com/api"
  const ApiVersion: string := "2023-09-15"

  /** The decoded profile search; `total` is absent when the key is missing. */
  datatype Profiles = Profiles(total: Option<int>)

  /** The decoded metrics; each figure is absent when its key is missing. */
  datatype Metrics = Metrics(sent: Option<int>, openRate: Option<real>, clickRate: Option<real>, conversionRate: Option<real>)

  datatype KlaviyoData = KlaviyoData(
    profiles: Option<Profiles>,
    totalProfiles: int,
    metrics: Option<Metrics>,
    emailCount: int,
    openRate: real,
    clickRate: real,
    orderRate: real)

  datatype Transport = Transport(
    profiles: Request -> HttpResponse<Profiles>,
    metrics: Request -> HttpResponse<Metrics>)

  /** isAvailable: saved credentials with a non-empty api_key. */
  predicate IsAvailable(creds: Option<CredRow>) {
    creds.Some? && !EmptyOpt(creds.value.apiKey)
  }

  /** The headers makeApiRequest sends: JSON both ways, the API revision and the key. */
  function Headers(c: CredRow): seq<string> {
    ["Content-Type: application/json", "Accept: application/json",
     "Revision: " + ApiVersion, "Authorization: Klaviyo-API-Key " + OrEmpty(c.apiKey)]
  }

  /** The filter of searchProfilesByEmailDomain. */
  function ProfileFilter(domain: string): string {
    "equals(email,\"*@" + domain + "\")"
  }

  /** The filter of getMetricsForProfiles. */
  function MetricsFilter(domain: string): string {
    "contains(profile.email,\"@" + domain + "\")"
  }

  function ProfileSearch(domain: string, c: CredRow): Request {
    Request("GET", ApiUrl + "/profiles", [("filter", ProfileFilter(domain))], Headers(c))
  }

  function MetricsRequest(domain: string, c: CredRow): Request {
    Request("GET", ApiUrl + "/metrics/email", [("filter", MetricsFilter(domain))], Headers(c))
  }

  /** Both filters carry the domain: the profile filter ends with the quoted domain, and the
      metrics filter holds "@<domain>" as its quoted argument. */
  lemma FiltersNameDomain(domain: string)
    ensures EndsWith(ProfileFilter(domain), "@" + domain + "\")")
    ensures StartsWith(ProfileFilter(domain), "equals(email,\"*")
    ensures EndsWith(MetricsFilter(domain), "\"@" + domain + "\")")
    ensures StartsWith(MetricsFilter(domain), "contains(profile.email,")
  {
    var p := ProfileFilter(domain);
    assert p == "equals(email,\"*" + ("@" + domain + "\")");
    assert p[|p| - |"@" + domain + "\")"|..] == "@" + domain + "\")";
    assert p[..|"equals(email,\"*"|] == "equals(email,\"*";
    var m := MetricsFilter(domain);
    assert m == "contains(profile.email," + ("\"@" + domain + "\")");
    assert m[|m| - |"\"@" + domain + "\")"|..] == "\"@" + domain + "\")";
    assert m[..|"contains(profile.email,"|] == "contains(profile.email,";
  }

  function IntOr0(o: Option<int>): int {
    if o.Some? then o.value else 0
  }

  function RealOr0(o: Option<real>): real {
    if o.Some? then o.value else 0.0
  }

  /** The figures of a successful lookup, each missing value taken as 0. */
  function Summary(p: Option<Profiles>, m: Option<Metrics>): (d: KlaviyoData)
    ensures d.profiles == p && d.metrics == m
    ensures d.totalProfiles == (if p.Some? && p.value.total.Some? then p.value.total.value else 0)
    ensures d.emailCount == (if m.Some? && m.value.sent.Some? then m.value.sent.value else 0)
    ensures d.openRate == (if m.Some? && m.value.openRate.Some? then m.value.openRate.value else 0.0)
    ensures d.clickRate == (if m.Some? && m.value.clickRate.Some? then m.value.clickRate.value else 0.0)
    ensures d.orderRate == (if m.Some? && m.value.conversionRate.Some? then m.value.conversionRate.value else 0.0)
  {
    KlaviyoData(
      p,
      if p.Some? then IntOr0(p.value.total) else 0,
      m,
      if m.Some? then IntOr0(m.value.sent) else 0,
      if m.Some? then RealOr0(m.value.openRate) else 0.0,
      if m.Some? then RealOr0(m.value.clickRate) else 0.0,
      if m.Some? then RealOr0(m.value.conversionRate) else 0.0)
  }

  const NotConfigured: string := "Klaviyo API is not configured"

  /** getSchoolData: profiles first; a failure there ends the lookup, otherwise the metrics;
      a failure there ends it too. */
  function GetSchoolData(creds: Option<CredRow>, tr: Transport, domain: string): (f: Fetch<KlaviyoData>)
    ensures !IsAvailable(creds) ==> f == Fetch(Failure(NotConfigured), [])
    ensures IsAvailable(creds) ==> 1 <= |f.requests| <= 2 && f.requests[0] == ProfileSearch(domain, creds.value)
    ensures f.result.success ==> f.result.data.Some? && |f.requests| == 2
  {
    if !IsAvailable(creds) then Fetch(Failure(NotConfigured), [])
    else
      var c := creds.value;
      var search := ProfileSearch(domain, c);
      var profiles := MakeApiRequest(tr.profiles(search));
      if !profiles.success then Fetch(PassOn(profiles), [search])
      else
        var ask := MetricsRequest(domain, c);
        var metrics := MakeApiRequest(tr.metrics(ask));
        if !metrics.success then Fetch(PassOn(metrics), [search, ask])
        else
          Fetch(Envelope(true, "School data retrieved successfully", None, Some(Summary(profiles.data, metrics.data))),
                [search, ask])
  }

  /** A failed profile search is the whole result, and the metrics are never asked for: the
      result does not depend on the metrics endpoint at all. */
  lemma ProfileFailureStops(creds: Option<CredRow>, tr: Transport, other: Request -> HttpResponse<Metrics>, domain: string)
    requires IsAvailable(creds)
    requires !Succeeded(tr.profiles(ProfileSearch(domain, creds.value)).status)
    ensures var f := GetSchoolData(creds, tr, domain);
      var resp := tr.profiles(ProfileSearch(domain, creds.value));
      && f.result == Envelope(false, "API request failed: " + resp.error, Some(resp.status), None)
      && f.requests == [ProfileSearch(domain, creds.value)]
      && f == GetSchoolData(creds, Transport(tr.profiles, other), domain)
  {
  }

  /** A failed metrics request is the whole result. */
  lemma MetricsFailurePassedOn(creds: Option<CredRow>, tr: Transport, domain: string)
    requires IsAvailable(creds)
    requires Succeeded(tr.profiles(ProfileSearch(domain, creds.value)).status)
    requires !Succeeded(tr.metrics(MetricsRequest(domain, creds.value)).status)
    ensures var f := GetSchoolData(creds, tr, domain);
      var resp := tr.metrics(MetricsRequest(domain, creds.value));
      f.result == Envelope(false, "API request failed: " + resp.error, Some(resp.status), None)
  {
  }

  /** Both requests succeeding: the figures are mapped from the decoded bodies, the metrics'
      `sent` becoming the e-mail count and `conversion_rate` the order rate. */
  lemma SuccessMapsFigures(creds: Option<CredRow>, tr: Transport, domain: string)
    requires IsAvailable(creds)
    requires Succeeded(tr.profiles(ProfileSearch(domain, creds.value)).status)
    requires Succeeded(tr.metrics(MetricsRequest(domain, creds.value)).status)
    ensures var f := GetSchoolData(creds, tr, domain);
      var p := tr.profiles(ProfileSearch(domain, creds.value)).decoded;
      var m := tr.metrics(MetricsRequest(domain, creds.value)).decoded;
      f.result.success && f.result.data == Some(Summary(p, m))
  {
  }

  /** The lookup succeeds exactly when both requests return a 2xx status. */
  lemma SuccessIff(creds: Option<CredRow>, tr: Transport, domain: string)
    requires IsAvailable(creds)
    ensures GetSchoolData(creds, tr, domain).result.success <==>
      Succeeded(tr.profiles(ProfileSearch(domain, creds.value)).status)
      && Succeeded(tr.metrics(MetricsRequest(domain, creds.value)).status)
  {
  }
}

=== FILE: names.dfy ===
/** Full-name parsing and display formatting (includes/functions.php, parseFullName and
    formatNameForDisplay). */
module Names {
  import opened Php

  datatype ParsedName = ParsedName(title: string, firstName: string, middleName: string, lastName: string, suffix: string)

  const Blank := ParsedName("", "", "", "", "")

  /** The worked example of the source, and the fields it parses to (`GatesParse`). */
  const GatesText := "Prof. William H. Gates III"
  const Gates := ParsedName("Prof.", "William", "H.", "Gates", "III")

  /** Known titles, in the order they are tried. */
  const Titles: seq<string> := [
    "Dr.", "Dr",
    "Professor", "Prof.", "Prof",
    "Mr.", "Mr",
    "Mrs.", "Mrs",
    "Ms.", "Ms",
    "Miss",
    "Rev.", "Rev",
    "Hon.", "Hon",
    "Sir",
    "Lady",
    "Capt.", "Capt", "Captain",
    "Lt.", "Lt", "Lieutenant",
    "Sgt.", "Sgt", "Sergeant",
    "Col.", "Col", "Colonel",
    "Dean", "Coach", "Director"
  ]

  /** Known suffixes, in the order they are tried. */
  const Suffixes: seq<string> := [
    "Jr.", "Jr",
    "Sr.", "Sr",
    "I", "II", "III", "IV", "V",
    "Ph.D.", "PhD", "Ph.D",
    "M.D.", "MD", "M.D",
    "J.D.", "JD", "J.D",
    "DDS", "D.D.S.", "D.D.S",
    "MBA", "M.B.A.", "M.B.A",
    "CPA", "C.P.A.", "C.P.A",
    "Esq.", "Esq",
    "R.N.", "RN",
    "B.A.", "BA",
    "B.S.", "BS",
    "M.A.", "MA",
    "M.S.", "MS"
  ]

  /** Surname particles that join a lone middle token to the last name. */
  const CompoundPrefixes: seq<string> := [
    "van", "von", "de", "del", "della", "der", "den", "da", "las", "los", "la", "le", "el", "st", "o", "mc", "mac"
  ]

  /** The name starts with the title followed by a space. */
  predicate TitleAt(s: string, t: string) {
    StartsWith(s, t + " ")
  }

  /** The name ends with a space and the suffix. */
  predicate SuffixAtEnd(s: string, x: string) {
    EndsWith(s, " " + x)
  }

  /** The name contains a comma, a space and the suffix, anywhere. */
  predicate SuffixWithComma(s: string, x: string) {
    Contains(s, ", " + x)
  }

  predicate SuffixIn(s: string, x: string) {
    SuffixAtEnd(s, x) || SuffixWithComma(s, x)
  }

  /** The title phase: the first listed title the name starts with (plus a space) is cut off,
      and the rest is trimmed. Returns (title, rest). */
  function StripTitle(s: string): (string, string) {
    match FirstIndex(Titles, t => TitleAt(s, t), 0)
    case None => ("", s)
    case Some(i) => (Titles[i], Trim(s[|Titles[i]| + 1..]))
  }

  /** The suffix phase: the first listed suffix found either at the end (after a space) or
      after a comma anywhere. A trailing one is cut off; otherwise every ", suffix" is deleted.
      Returns (suffix, rest). */
  function StripSuffix(s: string): (string, string) {
    match FirstIndex(Suffixes, x => SuffixIn(s, x), 0)
    case None => ("", s)
    case Some(i) => RemoveSuffix(s, Suffixes[i])
  }

  /** Removing a found suffix x: cut off when trailing, otherwise every ", x" is deleted; the
      rest is trimmed. Returns (x, rest). */
  function RemoveSuffix(s: string, x: string): (string, string) {
    if SuffixAtEnd(s, x) then (x, Trim(s[..|s| - |x| - 1]))
    else (x, Trim(RemoveAll(s, ", " + x)))
  }

  /** The middle part looks like an initial: one character, or at most two ending in '.'. */
  predicate LooksLikeInitial(m: string) {
    (1 <= |m| <= 2 && m[|m| - 1] == '.') || |m| == 1
  }

  /** The middle part equals a listed particle, compared in lower case. */
  predicate IsCompoundPrefix(m: string) {
    FirstIndex(CompoundPrefixes, p => Lower(m) == Lower(p), 0).Some?
  }

  /** When the middle part is merged into the last name. */
  predicate CompoundFires(m: string) {
    !LooksLikeInitial(m) && ' ' !in m && IsCompoundPrefix(m)
  }

  /** What is left of a non-empty full name once the title and suffix are removed. */
  function Remainder(full: string): string {
    StripSuffix(StripTitle(Trim(full)).1).1
  }

  /** The middle part: the inner pieces joined by single spaces. */
  function MiddleOf(parts: seq<string>): string
    requires |parts| >= 2
  {
    Implode(parts[1..|parts| - 1], " ")
  }

  /** The split phase: pieces on single spaces; one piece is a last name, two are first and
      last, more give first, middle (the inner pieces) and last, subject to the compound rule. */
  function SplitName(title: string, suffix: string, rest: string): ParsedName {
    var parts := Explode(rest, ' ');
    var n := |parts|;
    if n == 1 then ParsedName(title, "", "", parts[0], suffix)
    else if n == 2 then ParsedName(title, parts[0], "", parts[1], suffix)
    else
      var middle := MiddleOf(parts);
      if CompoundFires(middle) then ParsedName(title, parts[0], "", middle + " " + parts[n - 1], suffix)
      else ParsedName(title, parts[0], middle, parts[n - 1], suffix)
  }

  /** parseFullName */
  function ParseFullName(full: string): ParsedName {
    if Empty(full) then Blank
    else
      var afterTitle := StripTitle(Trim(full));
      var afterSuffix := StripSuffix(afterTitle.1);
      SplitName(afterTitle.0, afterSuffix.0, afterSuffix.1)
  }

  // ---------------------------------------------------------------------------------------
  // Properties of parseFullName

  lemma TitlesNonEmpty()
    ensures forall j :: 0 <= j < |Titles| ==> |Titles[j]| > 0 && ' ' !in Titles[j]
  {
  }

  lemma SuffixesNonEmpty()
    ensures forall j :: 0 <= j < |Suffixes| ==> |Suffixes[j]| > 0 && ' ' !in Suffixes[j]
  {
  }

  /** The split phase keeps the title and suffix it is given. */
  lemma SplitKeeps(t: string, x: string, rest: string)
    ensures SplitName(t, x, rest).title == t && SplitName(t, x, rest).suffix == x
  {
  }

  /** A non-empty name goes through the three phases in order. */
  lemma ParsePhases(full: string)
    requires !Empty(full)
    ensures var a := StripTitle(Trim(full));
      var b := StripSuffix(a.1);
      && Remainder(full) == b.1
      && ParseFullName(full) == SplitName(a.0, b.0, b.1)
      && ParseFullName(full).title == a.0
      && ParseFullName(full).suffix == b.0
  {
    var a := StripTitle(Trim(full));
    var b := StripSuffix(a.1);
    SplitKeeps(a.0, b.0, b.1);
    assert ParseFullName(full) == SplitName(a.0, b.0, b.1);
  }

  /** An empty or blank name parses to five empty fields. */
  lemma ParseBlank(full: string)
    requires Empty(full) || Trim(full) == ""
    ensures ParseFullName(full) == Blank
  {
    if !Empty(full) {
      ParsePhases(full);
      TitlesNonEmpty();
      SuffixesNonEmpty();
      assert forall j :: 0 <= j < |Titles| ==> !TitleAt("", Titles[j]);
      assert StripTitle("") == ("", "");
      assert forall j :: 0 <= j < |Suffixes| ==> !SuffixIn("", Suffixes[j]);
      assert StripSuffix("") == ("", "");
      assert Explode("", ' ') == [""];
    }
  }

  /** The title phase takes the first listed title the name starts with, or none. */
  lemma StripTitleFirst(s: string)
    ensures var (t, _) := StripTitle(s);
      && (t == "" <==> forall j :: 0 <= j < |Titles| ==> !TitleAt(s, Titles[j]))
      && (t != "" ==> exists i :: 0 <= i < |Titles| && t == Titles[i] && TitleAt(s, Titles[i])
                        && forall j :: 0 <= j < i ==> !TitleAt(s, Titles[j]))
  {
    TitlesNonEmpty();
    var r := FirstIndex(Titles, t => TitleAt(s, t), 0);
    FirstIndexSpec(Titles, t => TitleAt(s, t), 0);
    if r.Some? {
      assert StripTitle(s).0 == Titles[r.value];
    }
  }

  /** The title phase when the i-th listed title is the first to match. */
  lemma StripTitleAt(s: string, i: nat)
    requires i < |Titles| && TitleAt(s, Titles[i])
    requires forall j :: 0 <= j < i ==> !TitleAt(s, Titles[j])
    ensures StripTitle(s) == (Titles[i], Trim(s[|Titles[i]| + 1..]))
  {
    var p := t => TitleAt(s, t);
    FirstIndexSpec(Titles, p, 0);
    var r := FirstIndex(Titles, p, 0);
    assert p(Titles[i]);
    assert r.Some?;
    assert r.value == i;
  }

  /** The title phase when no listed title matches. */
  lemma StripTitleNone(s: string)
    requires forall j :: 0 <= j < |Titles| ==> !TitleAt(s, Titles[j])
    ensures StripTitle(s) == ("", s)
  {
    FirstIndexSpec(Titles, t => TitleAt(s, t), 0);
  }

  /** At most one title is taken, and it is the first listed title the trimmed name starts
      with (followed by a space); no title is taken exactly when none matches. */
  lemma ParseTitle(full: string)
    requires !Empty(full)
    ensures var r := ParseFullName(full);
      && (r.title == "" <==> forall j :: 0 <= j < |Titles| ==> !TitleAt(Trim(full), Titles[j]))
      && (r.title != "" ==> exists i :: 0 <= i < |Titles| && r.title == Titles[i] && TitleAt(Trim(full), Titles[i])
                              && forall j :: 0 <= j < i ==> !TitleAt(Trim(full), Titles[j]))
  {
    ParsePhases(full);
    StripTitleFirst(Trim(full));
  }

  /** The suffix phase finds a suffix exactly when some listed suffix is trailing or follows a
      comma, and takes the first such in list order. */
  lemma StripSuffixChoice(s: string)
    ensures var x := StripSuffix(s).0;
      && (x == "" <==> forall j :: 0 <= j < |Suffixes| ==> !SuffixIn(s, Suffixes[j]))
      && (x != "" ==> exists i :: 0 <= i < |Suffixes| && x == Suffixes[i] && SuffixIn(s, Suffixes[i])
                        && forall j :: 0 <= j < i ==> !SuffixIn(s, Suffixes[j]))
  {
    SuffixesNonEmpty();
    FirstIndexSpec(Suffixes, x => SuffixIn(s, x), 0);
  }

  /** What the suffix phase leaves: the name unchanged when no suffix was found; otherwise the
      name with a trailing suffix cut off, or with every ", suffix" deleted, then trimmed. */
  lemma StripSuffixRest(s: string)
    ensures var (x, rest) := StripSuffix(s); x == "" ==> rest == s
    ensures var (x, rest) := StripSuffix(s); x != "" && SuffixAtEnd(s, x) ==> rest == Trim(s[..|s| - |x| - 1])
    ensures var (x, rest) := StripSuffix(s); x != "" && !SuffixAtEnd(s, x) ==> rest == Trim(RemoveAll(s, ", " + x))
  {
    var x := StripSuffix(s).0;
    StripSuffixKept(s);
    if x != "" {
      StripSuffixFound(s);
    }
  }

  /** No suffix found: the name is left as it is. */
  lemma StripSuffixKept(s: string)
    ensures StripSuffix(s).0 == "" ==> StripSuffix(s).1 == s
  {
    match FirstIndex(Suffixes, x => SuffixIn(s, x), 0)
    case None =>
    case Some(i) =>
      assert |Suffixes[i]| > 0 by {
        SuffixesNonEmpty();
      }
  }

  /** A suffix found is removed as RemoveSuffix says. */
  lemma StripSuffixFound(s: string)
    requires StripSuffix(s).0 != ""
    ensures StripSuffix(s) == RemoveSuffix(s, StripSuffix(s).0)
  {
  }

  /** The suffix phase picks the i-th listed suffix when it is the first one found. */
  lemma StripSuffixPick(s: string, i: nat)
    requires i < |Suffixes| && SuffixIn(s, Suffixes[i])
    requires forall j :: 0 <= j < i ==> !SuffixIn(s, Suffixes[j])
    ensures StripSuffix(s).0 == Suffixes[i]
  {
    StripSuffixChoice(s);
    SuffixesNonEmpty();
    var x := StripSuffix(s).0;
    assert x != "";
    var k :| 0 <= k < |Suffixes| && x == Suffixes[k] && SuffixIn(s, Suffixes[k])
               && forall j :: 0 <= j < k ==> !SuffixIn(s, Suffixes[j]);
    assert k == i;
  }

  /** The suffix phase when the i-th listed suffix is the first one found, and it is trailing. */
  lemma StripSuffixAt(s: string, i: nat)
    requires i < |Suffixes| && SuffixAtEnd(s, Suffixes[i])
    requires forall j :: 0 <= j < i ==> !SuffixIn(s, Suffixes[j])
    ensures StripSuffix(s).0 == Suffixes[i]
    ensures StripSuffix(s).1 == Trim(s[..|s| - |Suffixes[i]| - 1])
  {
    StripSuffixPick(s, i);
    StripSuffixCut(s, i);
  }

  /** A trailing suffix, once picked, is cut off and the rest trimmed. */
  lemma StripSuffixCut(s: string, i: nat)
    requires i < |Suffixes| && SuffixAtEnd(s, Suffixes[i])
    requires StripSuffix(s).0 == Suffixes[i]
    ensures StripSuffix(s).1 == Trim(s[..|s| - |Suffixes[i]| - 1])
  {
    StripSuffixRest(s);
    SuffixesNonEmpty();
  }

  /** The suffix phase when no listed suffix is found. */
  lemma StripSuffixNone(s: string)
    requires forall j :: 0 <= j < |Suffixes| ==> !SuffixIn(s, Suffixes[j])
    ensures StripSuffix(s) == ("", s)
  {
    FirstIndexSpec(Suffixes, x => SuffixIn(s, x), 0);
  }

  /** At most one suffix is taken, and it is the first listed suffix found in the name left
      after the title phase, either trailing (after a space) or after a comma; none is taken
      exactly when no listed suffix is found. */
  lemma ParseSuffix(full: string)
    requires !Empty(full)
    ensures var s := StripTitle(Trim(full)).1;
      var r := ParseFullName(full);
      && (r.suffix == "" <==> forall j :: 0 <= j < |Suffixes| ==> !SuffixIn(s, Suffixes[j]))
      && (r.suffix != "" ==> exists i :: 0 <= i < |Suffixes| && r.suffix == Suffixes[i] && SuffixIn(s, Suffixes[i])
                              && forall j :: 0 <= j < i ==> !SuffixIn(s, Suffixes[j]))
  {
    ParsePhases(full);
    StripSuffixChoice(StripTitle(Trim(full)).1);
  }

  /** The name handed to the split: unchanged by the suffix phase when no suffix was taken; a
      trailing suffix is cut off, otherwise every ", suffix" is deleted; then it is trimmed. */
  lemma ParseSuffixRest(full: string)
    requires !Empty(full)
    ensures var s := StripTitle(Trim(full)).1;
      var x := ParseFullName(full).suffix;
      && (x == "" ==> Remainder(full) == s)
      && (x != "" ==> Remainder(full) == (if SuffixAtEnd(s, x) then Trim(s[..|s| - |x| - 1]) else Trim(RemoveAll(s, ", " + x))))
  {
    ParsePhases(full);
    StripSuffixRest(StripTitle(Trim(full)).1);
  }

  /** The compound rule on the split phase: when the middle part fires, it moves in front of
      the last piece and there were exactly three pieces; otherwise it is the middle name. */
  lemma {:induction false} SplitCompound(t: string, x: string, rest: string)
    requires |Explode(rest, ' ')| >= 3
    ensures var parts := Explode(rest, ' ');
      var n := |parts|;
      var m := MiddleOf(parts);
      var r := SplitName(t, x, rest);
      && (CompoundFires(m) ==> n == 3 && r.middleName == "" && r.lastName == m + " " + parts[n - 1])
      && (!CompoundFires(m) ==> r.middleName == m && r.lastName == parts[n - 1])
  {
    var parts := Explode(rest, ' ');
    var n := |parts|;
    if n > 3 {
      ImplodeHasSeparator(parts[1..n - 1], " ");
    }
  }

  /** The compound rule fires only on a single-token middle part that is not initial-shaped
      and equals a listed particle up to case; it then joins the last name, and otherwise the
      middle part is the middle name. */
  lemma ParseCompound(full: string)
    requires !Empty(full)
    requires |Explode(Remainder(full), ' ')| >= 3
    ensures var parts := Explode(Remainder(full), ' ');
      var n := |parts|;
      var m := MiddleOf(parts);
      var r := ParseFullName(full);
      && (CompoundFires(m) ==> n == 3 && r.middleName == "" && r.lastName == m + " " + parts[n - 1])
      && (!CompoundFires(m) ==> r.middleName == m && r.lastName == parts[n - 1])
  {
    ParsePhases(full);
    var a := StripTitle(Trim(full));
    var b := StripSuffix(a.1);
    SplitCompound(a.0, b.0, b.1);
  }

  /** The particle "o" can never fire: a one-letter middle part always looks like an initial. */
  lemma PrefixONeverFires(m: string)
    requires Lower(m) == "o"
    ensures !CompoundFires(m)
  {
  }

  /** Three or more pieces joined by single spaces: the first, the middle part, the last. */
  lemma {:induction false} ImplodeMiddle(parts: seq<string>)
    requires |parts| >= 3
    ensures Implode(parts, " ") == parts[0] + " " + MiddleOf(parts) + " " + parts[|parts| - 1]
  {
    var n := |parts|;
    assert Implode(parts, " ") == parts[0] + " " + Implode(parts[1..], " ");
    ImplodeSplitLast(parts[1..], " ");
    assert parts[1..][..|parts[1..]| - 1] == parts[1..n - 1];
  }

  /** The split phase on three or more pieces, field by field. */
  lemma SplitFieldsLong(t: string, x: string, rest: string)
    requires |Explode(rest, ' ')| >= 3
    ensures var parts := Explode(rest, ' ');
      var m := MiddleOf(parts);
      var r := SplitName(t, x, rest);
      && r.firstName == parts[0]
      && r.middleName == (if CompoundFires(m) then "" else m)
      && r.lastName == (if CompoundFires(m) then m + " " + parts[|parts| - 1] else parts[|parts| - 1])
  {
  }

  /** The first piece, the middle part and the last piece, rejoined, give back the input. */
  lemma RejoinMiddle(parts: seq<string>, rest: string)
    requires |parts| >= 3 && parts == Explode(rest, ' ')
    ensures parts[0] + " " + MiddleOf(parts) + " " + parts[|parts| - 1] == rest
    ensures parts[0] + " " + (MiddleOf(parts) + " " + parts[|parts| - 1]) == rest
  {
    ImplodeExplode(rest, ' ');
    ImplodeMiddle(parts);
    var a, m, z := parts[0], MiddleOf(parts), parts[|parts| - 1];
    assert a + " " + (m + " " + z) == a + " " + m + " " + z;
  }

  /** The middle part splits back into exactly the inner pieces. */
  lemma ExplodeMiddle(parts: seq<string>)
    requires |parts| >= 3
    requires forall k :: 0 <= k < |parts| ==> ' ' !in parts[k]
    ensures [parts[0]] + Explode(MiddleOf(parts), ' ') + [parts[|parts| - 1]] == parts
  {
    var inner := parts[1..|parts| - 1];
    ExplodeImplode(inner, ' ');
    assert [parts[0]] + inner + [parts[|parts| - 1]] == parts;
  }

  /** The split phase on three or more pieces loses nothing. */
  lemma SplitRejoinsLong(t: string, x: string, rest: string)
    requires |Explode(rest, ' ')| >= 3
    ensures var parts := Explode(rest, ' ');
      var r := SplitName(t, x, rest);
      && (CompoundFires(MiddleOf(parts)) ==> r.middleName == "" && r.firstName + " " + r.lastName == rest)
      && (!CompoundFires(MiddleOf(parts)) ==>
            r.firstName + " " + r.middleName + " " + r.lastName == rest
            && [r.firstName] + Explode(r.middleName, ' ') + [r.lastName] == parts)
  {
    var parts := Explode(rest, ' ');
    var m := MiddleOf(parts);
    var last := parts[|parts| - 1];
    var r := SplitName(t, x, rest);
    SplitFieldsLong(t, x, rest);
    RejoinMiddle(parts, rest);
    if !CompoundFires(m) {
      ExplodeMiddle(parts);
    }
  }

  /** The split phase loses nothing: its fields rejoined with single spaces give back its input. */
  lemma {:induction false} SplitRejoins(t: string, x: string, rest: string)
    ensures var parts := Explode(rest, ' ');
      var r := SplitName(t, x, rest);
      && (|parts| == 1 ==> r.firstName == "" && r.middleName == "" && r.lastName == rest)
      && (|parts| == 2 ==> r.middleName == "" && r.firstName + " " + r.lastName == rest)
      && (|parts| >= 3 && CompoundFires(MiddleOf(parts)) ==> r.middleName == "" && r.firstName + " " + r.lastName == rest)
      && (|parts| >= 3 && !CompoundFires(MiddleOf(parts)) ==>
            r.firstName + " " + r.middleName + " " + r.lastName == rest
            && [r.firstName] + Explode(r.middleName, ' ') + [r.lastName] == parts)
  {
    var parts := Explode(rest, ' ');
    var n := |parts|;
    if n <= 2 {
      ImplodeExplode(rest, ' ');
      if n == 2 {
        assert parts[1..] == [parts[1]];
      }
    } else {
      SplitRejoinsLong(t, x, rest);
    }
  }

  /** Nothing is lost by the split: the first, middle and last fields, rejoined with single
      spaces, give back the name left after the title and suffix phases, and the middle field
      holds exactly the inner pieces. */
  lemma ParseRejoins(full: string)
    requires !Empty(full)
    ensures var parts := Explode(Remainder(full), ' ');
      var r := ParseFullName(full);
      && (|parts| == 1 ==> r.firstName == "" && r.middleName == "" && r.lastName == Remainder(full))
      && (|parts| == 2 ==> r.middleName == "" && r.firstName + " " + r.lastName == Remainder(full))
      && (|parts| >= 3 && CompoundFires(MiddleOf(parts)) ==> r.middleName == "" && r.firstName + " " + r.lastName == Remainder(full))
      && (|parts| >= 3 && !CompoundFires(MiddleOf(parts)) ==>
            r.firstName + " " + r.middleName + " " + r.lastName == Remainder(full)
            && [r.firstName] + Explode(r.middleName, ' ') + [r.lastName] == parts)
  {
    ParsePhases(full);
    var a := StripTitle(Trim(full));
    var b := StripSuffix(a.1);
    SplitRejoins(a.0, b.0, b.1);
  }

  // ---------------------------------------------------------------------------------------
  // formatNameForDisplay

  datatype DisplayOptions = DisplayOptions(
    showTitle: bool, showMiddle: bool, showSuffix: bool,
    firstNameFirst: bool, lastNameUppercase: bool, middleInitialOnly: bool)

  /** The defaults that caller options are merged over. */
  const DefaultOptions := DisplayOptions(true, true, true, true, false, false)

  /** formatNameForDisplay accepts a parsed name or a raw string, which it parses first. */
  datatype NameInput = Raw(full: string) | Parsed(name: ParsedName)

  /** " " + part when the part is non-empty in PHP's sense, else nothing. */
  function SpaceThen(part: string): string {
    if Empty(part) then "" else " " + part
  }

  /** The middle name as shown: hidden, reduced to its first character and a dot, or whole. */
  function ShownMiddle(n: ParsedName, o: DisplayOptions): string {
    if o.showMiddle && !Empty(n.middleName) then
      (if o.middleInitialOnly && |n.middleName| > 1 then [n.middleName[0]] + "." else n.middleName)
    else ""
  }

  /** The last name as shown: upper-cased on request. */
  function ShownLast(n: ParsedName, o: DisplayOptions): string {
    if o.lastNameUppercase then Upper(n.lastName) else n.lastName
  }

  /** The title as shown, with its following space. */
  function ShownTitle(n: ParsedName, o: DisplayOptions): string {
    if o.showTitle && !Empty(n.title) then n.title + " " else ""
  }

  /** The suffix as shown, after a comma. */
  function ShownSuffix(n: ParsedName, o: DisplayOptions): string {
    if o.showSuffix && !Empty(n.suffix) then ", " + n.suffix else ""
  }

  /** The first, middle and last names in display order: "first middle last", or
      "last, first middle"; a missing last (first) name leaves the other alone. */
  function ShownBody(first: string, middle: string, last: string, firstNameFirst: bool): string {
    if firstNameFirst then
      if !Empty(first) then first + SpaceThen(middle) + SpaceThen(last)
      else if !Empty(last) then last
      else ""
    else
      if !Empty(last) then
        last + (if !Empty(first) || !Empty(middle) then "," + SpaceThen(first) + SpaceThen(middle) else "")
      else if !Empty(first) then first + SpaceThen(middle)
      else ""
  }

  /** formatNameForDisplay on a parsed name. */
  function FormatName(n: ParsedName, o: DisplayOptions): (r: string)
    ensures Trimmed(r)
  {
    Trim(ShownTitle(n, o) + ShownBody(n.firstName, ShownMiddle(n, o), ShownLast(n, o), o.firstNameFirst) + ShownSuffix(n, o))
  }

  /** formatNameForDisplay: a raw string is parsed first. */
  function FormatNameForDisplay(input: NameInput, o: DisplayOptions): string {
    match input
    case Raw(full) => FormatName(ParseFullName(full), o)
    case Parsed(n) => FormatName(n, o)
  }

  // ---------------------------------------------------------------------------------------
  // Worked examples and the format/parse round trip

  /** A single-token name part: non-empty, no space, comma or trim character. */
  predicate PlainToken(t: string) {
    !Empty(t) && forall i :: 0 <= i < |t| ==> t[i] != ' ' && t[i] != ',' && !IsTrimChar(t[i])
  }

  /** A title (without spaces) starts "a b" only when it is the first token a. */
  lemma TitleIsFirstToken(a: string, b: string, t: string)
    requires ' ' !in a && ' ' !in t
    requires TitleAt(a + " " + b, t)
    ensures t == a
  {
    var s := a + " " + b;
    assert s[..|t| + 1] == t + " ";
    assert s[|t|] == ' ';
    assert forall i :: 0 <= i < |a| ==> s[i] == a[i];
    assert forall i :: 0 <= i < |t| ==> s[i] == t[i];
    assert s[|a|] == ' ';
    assert t == s[..|t|];
  }

  /** A trailing suffix (without spaces) of "a b" is exactly the last token b. */
  lemma SuffixIsLastToken(a: string, b: string, x: string)
    requires ' ' !in b && ' ' !in x
    requires SuffixAtEnd(a + " " + b, x)
    ensures x == b
  {
    var s := a + " " + b;
    var k := |s| - |x| - 1;
    assert s[k..] == " " + x;
    assert s[k] == ' ';
    assert forall i :: 0 <= i < |b| ==> s[|a| + 1 + i] == b[i];
    assert forall i :: 0 <= i < |x| ==> s[k + 1 + i] == x[i];
    assert s[|a|] == ' ';
    assert x == s[k + 1..];
  }

  /** A name of two plain tokens has no title when its first token is not a listed title. */
  lemma PlainNoTitle(first: string, last: string)
    requires ' ' !in first && first !in Titles
    ensures StripTitle(first + " " + last) == ("", first + " " + last)
  {
    var s := first + " " + last;
    TitlesNonEmpty();
    forall j | 0 <= j < |Titles|
      ensures !TitleAt(s, Titles[j])
    {
      if TitleAt(s, Titles[j]) {
        TitleIsFirstToken(first, last, Titles[j]);
      }
    }
    StripTitleNone(s);
  }

  /** A name of two plain tokens has no suffix when it has no comma and its last token is not a
      listed suffix. */
  lemma PlainNoSuffix(first: string, last: string)
    requires ' ' !in last && ',' !in first && ',' !in last && last !in Suffixes
    ensures StripSuffix(first + " " + last) == ("", first + " " + last)
  {
    var s := first + " " + last;
    SuffixesNonEmpty();
    assert ',' !in s;
    forall j | 0 <= j < |Suffixes|
      ensures !SuffixIn(s, Suffixes[j])
    {
      if SuffixAtEnd(s, Suffixes[j]) {
        SuffixIsLastToken(first, last, Suffixes[j]);
      }
      NotContainsWithoutFirst(s, ", " + Suffixes[j]);
    }
    StripSuffixNone(s);
  }

  /** "first last" with plain tokens parses to exactly those two fields. */
  lemma ParsePlain(first: string, last: string)
    requires PlainToken(first) && PlainToken(last)
    requires first !in Titles && last !in Suffixes
    ensures ParseFullName(first + " " + last) == ParsedName("", first, "", last, "")
  {
    var s := first + " " + last;
    assert ' ' !in first && ' ' !in last && ',' !in first && ',' !in last;
    assert Trimmed(s);
    TrimOfTrimmed(s);
    ParsePhases(s);
    PlainNoTitle(first, last);
    PlainNoSuffix(first, last);
    SplitTwo("", "", first, last);
  }

  /** Two space-free pieces split into a first and a last name. */
  lemma SplitTwo(t: string, x: string, first: string, last: string)
    requires ' ' !in first && ' ' !in last
    ensures SplitName(t, x, first + " " + last) == ParsedName(t, first, "", last, x)
  {
    ExplodeCons(first, ' ', last);
    ExplodeWithout(last, ' ');
    assert Explode(first + " " + last, ' ') == [first, last];
  }

  /** With the defaults, plain first and last names are shown as "first last". */
  lemma FormatPlain(first: string, last: string)
    requires PlainToken(first) && PlainToken(last)
    ensures FormatName(ParsedName("", first, "", last, ""), DefaultOptions) == first + " " + last
  {
    var p := ParsedName("", first, "", last, "");
    var o := DefaultOptions;
    assert ShownTitle(p, o) == "" && ShownMiddle(p, o) == "" && ShownSuffix(p, o) == "";
    assert ShownBody(first, "", last, true) == first + " " + last;
    assert "" + (first + " " + last) + "" == first + " " + last;
    FormatNameIs(p, o, first + " " + last);
  }

  /** Format then parse: with the defaults, a plain first and last name that are neither a
      title nor a suffix are rendered as "first last", which parses back to the same fields. */
  lemma FormatThenParse(first: string, last: string)
    requires PlainToken(first) && PlainToken(last)
    requires first !in Titles && last !in Suffixes
    ensures var p := ParsedName("", first, "", last, "");
      ParseFullName(FormatName(p, DefaultOptions)) == p
  {
    FormatPlain(first, last);
    ParsePlain(first, last);
  }

  /** Parse then format: a raw "first last" of plain tokens that are neither a title nor a
      suffix is displayed with the defaults exactly as given. */
  lemma RawPlainDisplay(first: string, last: string)
    requires PlainToken(first) && PlainToken(last)
    requires first !in Titles && last !in Suffixes
    ensures FormatNameForDisplay(Raw(first + " " + last), DefaultOptions) == first + " " + last
  {
    ParsePlain(first, last);
    FormatPlain(first, last);
  }

  /** The display text is the trimmed join of title, body and suffix; once that join is known
      and has no surrounding blanks, it is the result. */
  lemma FormatNameIs(n: ParsedName, o: DisplayOptions, text: string)
    requires ShownTitle(n, o) + ShownBody(n.firstName, ShownMiddle(n, o), ShownLast(n, o), o.firstNameFirst) + ShownSuffix(n, o) == text
    requires Trimmed(text)
    ensures FormatName(n, o) == text
  {
    TrimOfTrimmed(text);
  }

  /** The first four listed titles. */
  lemma TitleHeads()
    ensures Titles[0] == "Dr." && Titles[1] == "Dr" && Titles[2] == "Professor" && Titles[3] == "Prof."
  {
  }

  /** The first seven listed suffixes. */
  lemma SuffixHeads()
    ensures Suffixes[0] == "Jr." && Suffixes[1] == "Jr" && Suffixes[2] == "Sr." && Suffixes[3] == "Sr"
    ensures Suffixes[4] == "I" && Suffixes[5] == "II" && Suffixes[6] == "III"
  {
  }

  /** Of the first four listed titles, the worked example starts only with "Prof. ". */
  lemma GatesTitleMatch()
    ensures !StartsWith("Prof. William H. Gates III", "Dr. ")
    ensures !StartsWith("Prof. William H. Gates III", "Dr ")
    ensures !StartsWith("Prof. William H. Gates III", "Professor ")
    ensures StartsWith("Prof. William H. Gates III", "Prof. ")
  {
    NotStartsWith("Prof. William H. Gates III", "Dr. ", 0);
    NotStartsWith("Prof. William H. Gates III", "Dr ", 0);
    NotStartsWith("Prof. William H. Gates III", "Professor ", 4);
  }

  /** What follows the title "Prof." and its space, trimmed. */
  lemma GatesTitleRest()
    ensures Trim("Prof. William H. Gates III"[6..]) == "William H. Gates III"
  {
    assert "Prof. William H. Gates III"[6..] == "William H. Gates III";
    TrimOfTrimmed("William H. Gates III");
  }

  /** The title phase of the worked example: "Dr. ", "Dr " and "Professor " do not match,
      so "Prof." is taken and the rest is trimmed. */
  lemma GatesTitle()
    ensures StripTitle(GatesText) == ("Prof.", "William H. Gates III")
  {
    TitleHeads();
    GatesTitleMatch();
    StripTitleAt(GatesText, 3);
    GatesTitleRest();
  }

  /** Of the first seven listed suffixes, the rest of the worked example ends, after a space,
      only with "III", and it holds no comma. */
  lemma GatesSuffixMatch()
    ensures ',' !in "William H. Gates III"
    ensures !EndsWith("William H. Gates III", " Jr.") && !EndsWith("William H. Gates III", " Jr")
    ensures !EndsWith("William H. Gates III", " Sr.") && !EndsWith("William H. Gates III", " Sr")
    ensures !EndsWith("William H. Gates III", " I") && !EndsWith("William H. Gates III", " II")
    ensures EndsWith("William H. Gates III", " III")
  {
    NotEndsWith("William H. Gates III", " Jr.", 1);
    NotEndsWith("William H. Gates III", " Jr", 0);
    NotEndsWith("William H. Gates III", " Sr.", 1);
    NotEndsWith("William H. Gates III", " Sr", 0);
    NotEndsWith("William H. Gates III", " I", 0);
    NotEndsWith("William H. Gates III", " II", 0);
  }

  /** What precedes the trailing " III", trimmed. */
  lemma GatesSuffixRest()
    ensures Trim("William H. Gates III"[..16]) == "William H. Gates"
  {
    assert "William H. Gates III"[..16] == "William H. Gates";
    TrimOfTrimmed("William H. Gates");
  }

  /** The suffix phase of the worked example: no comma, and "Jr.", "Jr", "Sr.", "Sr", "I"
      and "II" do not end the name after a space, so the trailing "III" is cut off. */
  lemma GatesSuffix()
    ensures StripSuffix("William H. Gates III") == ("III", "William H. Gates")
  {
    var s := "William H. Gates III";
    SuffixHeads();
    GatesSuffixMatch();
    forall j | 0 <= j < 6
      ensures !SuffixIn(s, Suffixes[j])
    {
      NotContainsWithoutFirst(s, ", " + Suffixes[j]);
    }
    StripSuffixAt(s, 6);
    GatesSuffixRest();
  }

  /** The last two pieces of the worked example's rest. */
  lemma GatesExplodeTail()
    ensures Explode("H. Gates", ' ') == ["H.", "Gates"]
  {
    ExplodeWithout("Gates", ' ');
    ExplodeCons("H.", ' ', "Gates");
    assert "H." + [' '] + "Gates" == "H. Gates";
  }

  /** The worked example's rest is its first name, a space and the other two pieces. */
  lemma GatesRestJoin()
    ensures "William" + [' '] + "H. Gates" == "William H. Gates"
  {
  }

  /** The worked example's rest splits on spaces into three pieces. */
  lemma GatesExplode()
    ensures Explode("William H. Gates", ' ') == ["William", "H.", "Gates"]
  {
    GatesExplodeTail();
    ExplodeCons("William", ' ', "H. Gates");
    GatesRestJoin();
  }

  /** The split phase of the worked example: three pieces, and "H." looks like an initial,
      so it stays the middle name. */
  lemma GatesSplit()
    ensures SplitName("Prof.", "III", "William H. Gates") == Gates
  {
    GatesExplode();
    GatesMiddle();
  }

  /** The inner piece of the worked example is its middle name, and "H." looks like an initial. */
  lemma GatesMiddle()
    ensures MiddleOf(["William", "H.", "Gates"]) == "H." && !CompoundFires("H.")
  {
    assert ["William", "H.", "Gates"][1..2] == ["H."];
  }

  /** A trimmed non-empty name parses to the split of what its title and suffix phases leave. */
  lemma ParseTrimmed(full: string)
    requires !Empty(full) && Trimmed(full)
    ensures var a := StripTitle(full);
      var b := StripSuffix(a.1);
      ParseFullName(full) == SplitName(a.0, b.0, b.1)
  {
    TrimOfTrimmed(full);
    ParsePhases(full);
  }

  /** The worked example is a trimmed non-empty name. */
  lemma GatesTextTrimmed()
    ensures !Empty(GatesText) && Trimmed(GatesText)
  {
  }

  /** The worked example of the source parses to its documented fields. */
  lemma GatesParse()
    ensures ParseFullName(GatesText) == Gates
  {
    GatesTextTrimmed();
    ParseTrimmed(GatesText);
    GatesTitle();
    GatesSuffix();
    GatesSplit();
  }

  /** The option sets the worked examples use. */
  const Casual := DefaultOptions.(showTitle := false, showSuffix := false)
  const Directory := DefaultOptions.(firstNameFirst := false)
  const InitialOnly := DefaultOptions.(showTitle := false, middleInitialOnly := true, showSuffix := false)
  const InitialUpper := DefaultOptions.(showTitle := false, middleInitialOnly := true, lastNameUppercase := true)

  /** The shown parts of the Gates example under each option set. */
  lemma GatesParts()
    ensures ShownTitle(Gates, DefaultOptions) == "Prof. " && ShownSuffix(Gates, DefaultOptions) == ", III"
    ensures ShownMiddle(Gates, DefaultOptions) == "H." && ShownLast(Gates, DefaultOptions) == "Gates"
    ensures ShownTitle(Gates, Casual) == "" && ShownSuffix(Gates, Casual) == ""
    ensures ShownMiddle(Gates, Casual) == "H." && ShownLast(Gates, Casual) == "Gates"
    ensures ShownTitle(Gates, Directory) == "Prof. " && ShownSuffix(Gates, Directory) == ", III"
    ensures ShownMiddle(Gates, Directory) == "H." && ShownLast(Gates, Directory) == "Gates"
  {
  }

  /** The bodies of the Gates example in both orders. */
  lemma GatesBodies()
    ensures ShownBody("William", "H.", "Gates", true) == "William H. Gates"
    ensures ShownBody("William", "H.", "Gates", false) == "Gates, William H."
    ensures ShownBody("William", "H.", "GATES", true) == "William H. GATES"
  {
  }

  /** The joins of the shown parts of the Gates example. */
  lemma GatesJoins()
    ensures "Prof. " + "William H. Gates" + ", III" == "Prof. William H. Gates, III"
    ensures "" + "William H. Gates" + "" == "William H. Gates"
    ensures "Prof. " + "Gates, William H." + ", III" == "Prof. Gates, William H., III"
    ensures "" + "William H. GATES" + ", III" == "William H. GATES, III"
  {
  }

  /** The Gates example rendered with the defaults. */
  lemma GatesFormal()
    ensures FormatName(Gates, DefaultOptions) == "Prof. William H. Gates, III"
  {
    GatesParts();
    GatesBodies();
    GatesJoins();
    FormatNameIs(Gates, DefaultOptions, "Prof. William H. Gates, III");
  }

  /** The Gates example rendered without title and suffix. */
  lemma GatesCasual()
    ensures FormatName(Gates, Casual) == "William H. Gates"
  {
    GatesParts();
    GatesBodies();
    GatesJoins();
    FormatNameIs(Gates, Casual, "William H. Gates");
  }

  /** The Gates example rendered surname first: the title and suffix are still shown. */
  lemma GatesDirectory()
    ensures FormatName(Gates, Directory) == "Prof. Gates, William H., III"
  {
    GatesParts();
    GatesBodies();
    GatesJoins();
    FormatNameIs(Gates, Directory, "Prof. Gates, William H., III");
  }

  /** The raw worked example, parsed and then rendered with the defaults. */
  lemma GatesRawFormal()
    ensures FormatNameForDisplay(Raw(GatesText), DefaultOptions) == "Prof. William H. Gates, III"
  {
    GatesParse();
    GatesFormal();
  }

  /** The Gates example with middle initial only and no title or suffix: "H." is cut to its
      first character and a dot, which is "H." again. */
  lemma GatesInitialOnly()
    ensures FormatName(Gates, InitialOnly) == "William H. Gates"
  {
    assert ShownTitle(Gates, InitialOnly) == "" && ShownSuffix(Gates, InitialOnly) == "";
    assert ShownMiddle(Gates, InitialOnly) == "H.";
    assert ShownLast(Gates, InitialOnly) == "Gates";
    GatesBodies();
    GatesJoins();
    FormatNameIs(Gates, InitialOnly, "William H. Gates");
  }

  /** With a full middle name: shown as an initial, and the surname in capitals. */
  lemma GatesInitialUpper()
    ensures FormatName(Gates.(middleName := "Henry"), InitialUpper) == "William H. GATES, III"
  {
    var n := Gates.(middleName := "Henry");
    assert ShownTitle(n, InitialUpper) == "" && ShownSuffix(n, InitialUpper) == ", III";
    assert ShownMiddle(n, InitialUpper) == "H.";
    assert Upper("Gates") == "GATES";
    GatesBodies();
    GatesJoins();
    FormatNameIs(n, InitialUpper, "William H. GATES, III");
  }
}

=== FILE: php.dfy ===
/** The PHP string primitives the dashboard's helpers are built from.
    PHP strings are byte strings; here they are `string`, and only the ASCII
    (C locale) behaviour of the case-mapping and whitespace functions is modelled. */
module Php {

  datatype Option<T> = None | Some(value: T)

  /** PHP `empty()` on a string: both "" and "0" count as empty. */
  predicate Empty(s: string) {
    s == "" || s == "0"
  }

  /** PHP `empty()` on a nullable value (a NULL column or a missing array entry is empty). */
  predicate EmptyOpt(o: Option<string>) {
    o.None? || Empty(o.value)
  }

  /** String interpolation of a nullable value: NULL renders as "". */
  function OrEmpty(o: Option<string>): string {
    if o.Some? then o.value else ""
  }

  /** The characters `trim()` strips by default: " \t\n\r\0\x0B". */
  predicate IsTrimChar(c: char) {
    c == ' ' || c == '\t' || c == '\n' || c == '\r' || c == '\0' || c == '\U{000B}'
  }

  /** The characters the PCRE class `\s` matches: space, \t, \n, \x0B, \f, \r. */
  predicate IsSpace(c: char) {
    c == ' ' || c == '\t' || c == '\n' || c == '\U{000B}' || c == '\U{000C}' || c == '\r'
  }

  predicate IsLowerAscii(c: char) { 'a' <= c <= 'z' }
  predicate IsUpperAscii(c: char) { 'A' <= c <= 'Z' }
  predicate IsDigit(c: char) { '0' <= c <= '9' }
  predicate IsAlnum(c: char) { IsLowerAscii(c) || IsUpperAscii(c) || IsDigit(c) }

  /** A string with no trim character at either end. */
  predicate Trimmed(s: string) {
    |s| == 0 || (!IsTrimChar(s[0]) && !IsTrimChar(s[|s| - 1]))
  }

  function TrimLeft(s: string): (r: string)
    ensures |r| <= |s| && r == s[|s| - |r|..]
    ensures forall k :: 0 <= k < |s| - |r| ==> IsTrimChar(s[k])
    ensures |r| > 0 ==> !IsTrimChar(r[0])
    decreases |s|
  {
    if |s| > 0 && IsTrimChar(s[0]) then TrimLeft(s[1..]) else s
  }

  function TrimRight(s: string): (r: string)
    ensures |r| <= |s| && r == s[..|r|]
    ensures forall k :: |r| <= k < |s| ==> IsTrimChar(s[k])
    ensures |r| > 0 ==> !IsTrimChar(r[|r| - 1])
    decreases |s|
  {
    if |s| > 0 && IsTrimChar(s[|s| - 1]) then TrimRight(s[..|s| - 1]) else s
  }

  /** PHP `trim()`: the longest infix of `s` without a trim character at either end. */
  function Trim(s: string): (r: string)
    ensures Trimmed(r)
    ensures |r| <= |s|
  {
    TrimRight(TrimLeft(s))
  }

  /** Trimming a string with no trim character at its ends changes nothing. */
  lemma TrimOfTrimmed(s: string)
    requires Trimmed(s)
    ensures Trim(s) == s
  {
  }

  /** `trim()` is idempotent. */
  lemma TrimIdempotent(s: string)
    ensures Trim(Trim(s)) == Trim(s)
  {
    TrimOfTrimmed(Trim(s));
  }

  function LowerChar(c: char): char {
    if IsUpperAscii(c) then (c as int + 32) as char else c
  }

  function UpperChar(c: char): char {
    if IsLowerAscii(c) then (c as int - 32) as char else c
  }

  /** `strtolower`: maps each ASCII upper-case letter to lower case. */
  function Lower(s: string): (r: string)
    ensures |r| == |s|
    ensures forall i :: 0 <= i < |s| ==> r[i] == LowerChar(s[i])
  {
    seq(|s|, i requires 0 <= i < |s| => LowerChar(s[i]))
  }

  /** `strtoupper`: maps each ASCII lower-case letter to upper case. */
  function Upper(s: string): (r: string)
    ensures |r| == |s|
    ensures forall i :: 0 <= i < |s| ==> r[i] == UpperChar(s[i])
  {
    seq(|s|, i requires 0 <= i < |s| => UpperChar(s[i]))
  }

  /** `strpos($s, $p) === 0` */
  predicate StartsWith(s: string, p: string) {
    |p| <= |s| && s[..|p|] == p
  }

  /** `substr($s, -strlen($p)) === $p`; when `$p` is longer than `$s`, substr returns all of
      `$s`, which cannot equal the longer `$p`. */
  predicate EndsWith(s: string, p: string) {
    |p| <= |s| && s[|s| - |p|..] == p
  }

  predicate OccursAt(s: string, p: string, i: int) {
    0 <= i && i + |p| <= |s| && s[i..i + |p|] == p
  }

  /** `strpos($s, $p) !== false` */
  predicate Contains(s: string, p: string) {
    exists i | 0 <= i <= |s| - |p| :: OccursAt(s, p, i)
  }

  /** `explode($c, $s)` with a one-character delimiter: the pieces between delimiters,
      always at least one (the empty string gives `[""]`). */
  function Explode(s: string, c: char): (parts: seq<string>)
    ensures |parts| >= 1
    ensures forall k :: 0 <= k < |parts| ==> c !in parts[k]
    decreases |s|
  {
    if |s| == 0 then [""]
    else
      var rest := Explode(s[1..], c);
      if s[0] == c then [""] + rest
      else [[s[0]] + rest[0]] + rest[1..]
  }

  /** `implode($sep, $parts)` */
  function Implode(parts: seq<string>, sep: string): string
  {
    if |parts| == 0 then ""
    else if |parts| == 1 then parts[0]
    else parts[0] + sep + Implode(parts[1..], sep)
  }

  /** Joining the pieces of `explode` with the delimiter gives back the original string. */
  lemma {:induction false} ImplodeExplode(s: string, c: char)
    ensures Implode(Explode(s, c), [c]) == s
    decreases |s|
  {
    if |s| > 0 {
      var rest := Explode(s[1..], c);
      ImplodeExplode(s[1..], c);
      if s[0] == c {
        assert Explode(s, c) == [""] + rest;
        assert ([""] + rest)[1..] == rest;
      } else {
        var parts := [[s[0]] + rest[0]] + rest[1..];
        assert Explode(s, c) == parts;
        if |rest| == 1 {
          assert Implode(rest, [c]) == rest[0];
        } else {
          assert parts[1..] == rest[1..];
          assert Implode(rest, [c]) == rest[0] + [c] + Implode(rest[1..], [c]);
        }
      }
    }
  }

  /** A string without the delimiter explodes to itself alone. */
  lemma {:induction false} ExplodeWithout(a: string, c: char)
    requires c !in a
    ensures Explode(a, c) == [a]
    decreases |a|
  {
    if |a| > 0 {
      ExplodeWithout(a[1..], c);
      assert [a[0]] + a[1..] == a;
    }
  }

  /** A delimiter-free prefix followed by the delimiter becomes the first piece. */
  lemma {:induction false} ExplodeCons(a: string, c: char, b: string)
    requires c !in a
    ensures Explode(a + [c] + b, c) == [a] + Explode(b, c)
    decreases |a|
  {
    var s := a + [c] + b;
    if |a| == 0 {
      assert s[1..] == b;
    } else {
      assert s[1..] == a[1..] + [c] + b;
      ExplodeCons(a[1..], c, b);
      assert [a[0]] + a[1..] == a;
    }
  }

  /** Exploding a join of delimiter-free pieces gives the pieces back. */
  lemma {:induction false} ExplodeImplode(parts: seq<string>, c: char)
    requires |parts| >= 1
    requires forall k :: 0 <= k < |parts| ==> c !in parts[k]
    ensures Explode(Implode(parts, [c]), c) == parts
    decreases |parts|
  {
    if |parts| == 1 {
      ExplodeWithout(parts[0], c);
    } else {
      ExplodeImplode(parts[1..], c);
      ExplodeCons(parts[0], c, Implode(parts[1..], [c]));
      assert [parts[0]] + parts[1..] == parts;
    }
  }

  /** Joining two or more pieces puts the separator right after the first piece. */
  lemma ImplodeHasSeparator(parts: seq<string>, sep: string)
    requires |parts| >= 2
    ensures OccursAt(Implode(parts, sep), sep, |parts[0]|)
  {
    var j := Implode(parts, sep);
    assert j == parts[0] + sep + Implode(parts[1..], sep);
    assert j[|parts[0]|..|parts[0]| + |sep|] == sep;
  }

  /** `str_replace($p, '', $s)`: deletes the occurrences of `$p` found scanning left to right. */
  function RemoveAll(s: string, p: string): (r: string)
    ensures |r| <= |s|
    ensures |p| > 0 ==> (r == s <==> !Contains(s, p))
    decreases |s|
  {
    if |p| == 0 || |s| < |p| then s
    else if s[..|p|] == p then
      assert OccursAt(s, p, 0);
      RemoveAll(s[|p|..], p)
    else
      var rest := RemoveAll(s[1..], p);
      ContainsTail(s, p);
      assert s == [s[0]] + s[1..];
      [s[0]] + rest
  }

  /** Without a match at the front, `p` occurs in `s` exactly when it occurs in its tail. */
  lemma ContainsTail(s: string, p: string)
    requires |p| > 0 && |s| >= |p| && s[..|p|] != p
    ensures Contains(s, p) <==> Contains(s[1..], p)
  {
    if Contains(s, p) {
      var i :| 0 <= i <= |s| - |p| && OccursAt(s, p, i);
      assert i != 0;
      TailSlice(s, i - 1, |p|);
      assert OccursAt(s[1..], p, i - 1);
    }
    if Contains(s[1..], p) {
      var i :| 0 <= i <= |s| - 1 - |p| && OccursAt(s[1..], p, i);
      TailSlice(s, i, |p|);
      assert OccursAt(s, p, i + 1);
    }
  }

  lemma TailSlice(s: string, i: nat, n: nat)
    requires i + n < |s|
    ensures s[1..][i..i + n] == s[i + 1..i + 1 + n]
  {
  }

  /** `str_replace($a, $b, $s)` for single characters. */
  function ReplaceChar(s: string, a: char, b: char): (r: string)
    ensures |r| == |s|
    ensures forall i :: 0 <= i < |s| ==> r[i] == (if s[i] == a then b else s[i])
  {
    seq(|s|, i requires 0 <= i < |s| => if s[i] == a then b else s[i])
  }

  /** `ucfirst`: upper-cases the first character. */
  function UcFirst(s: string): (r: string)
    ensures |r| == |s|
    ensures |s| > 0 ==> r[0] == UpperChar(s[0])
    ensures forall i :: 0 < i < |s| ==> r[i] == s[i]
  {
    if |s| == 0 then s else [UpperChar(s[0])] + s[1..]
  }

  /** The default word delimiters of `ucwords`: space, \t, \r, \n, \f, \v. */
  predicate IsWordDelimiter(c: char) {
    c == ' ' || c == '\t' || c == '\r' || c == '\n' || c == '\U{000C}' || c == '\U{000B}'
  }

  /** A position where `ucwords` starts a word: the first character, or one after a delimiter. */
  predicate WordStart(s: string, i: int)
    requires 0 <= i < |s|
  {
    i == 0 || IsWordDelimiter(s[i - 1])
  }

  /** `ucwords`: upper-cases the first character of every word. */
  function UcWords(s: string): (r: string)
    ensures |r| == |s|
  {
    seq(|s|, i requires 0 <= i < |s| => if WordStart(s, i) then UpperChar(s[i]) else s[i])
  }

  /** `ucwords` only changes case: it agrees with its input up to lower-casing, every word
      start that is a lower-case letter becomes upper case, and every other character, and
      every character that is not a lower-case letter, is kept. */
  lemma UcWordsOnlyCapitalises(s: string)
    ensures Lower(UcWords(s)) == Lower(s)
    ensures forall i :: 0 <= i < |s| && WordStart(s, i) && IsLowerAscii(s[i]) ==> IsUpperAscii(UcWords(s)[i])
    ensures forall i :: 0 <= i < |s| && !WordStart(s, i) ==> UcWords(s)[i] == s[i]
    ensures forall i :: 0 <= i < |s| && !IsLowerAscii(s[i]) ==> UcWords(s)[i] == s[i]
  {
    var r := UcWords(s);
    forall i | 0 <= i < |s|
      ensures LowerChar(r[i]) == LowerChar(s[i])
    {
      LowerOfUpper(s[i]);
    }
    assert Lower(r) == Lower(s);
  }

  lemma LowerOfUpper(c: char)
    ensures LowerChar(UpperChar(c)) == LowerChar(c)
  {
  }

  /** The `foreach (…) { if (…) { …; break; } }` scan: the index of the first element at or
      after `k` that satisfies `p`, or None when no element does. */
  function FirstIndex<T>(xs: seq<T>, p: T -> bool, k: nat): (r: Option<nat>)
    requires k <= |xs|
    ensures r.Some? ==> k <= r.value < |xs| && p(xs[r.value])
    decreases |xs| - k
  {
    if k == |xs| then None
    else if p(xs[k]) then Some(k)
    else FirstIndex(xs, p, k + 1)
  }

  /** The scan from k finds the first element from k on that satisfies p, and finds nothing
      exactly when no element from k on does. */
  lemma {:induction false} FirstIndexSpec<T>(xs: seq<T>, p: T -> bool, k: nat)
    requires k <= |xs|
    ensures var r := FirstIndex(xs, p, k);
      && (r.Some? ==> k <= r.value < |xs| && p(xs[r.value]))
      && (r.Some? ==> forall j :: k <= j < r.value ==> !p(xs[j]))
      && (r.None? <==> forall j :: k <= j < |xs| ==> !p(xs[j]))
    decreases |xs| - k
  {
    if k < |xs| && !p(xs[k]) {
      FirstIndexSpec(xs, p, k + 1);
    }
  }

  /** A string without some character contains no pattern that starts with that character. */
  lemma NotContainsWithoutFirst(s: string, p: string)
    requires |p| > 0 && p[0] !in s
    ensures !Contains(s, p)
  {
  }

  /** A string does not start with a pattern it differs from at some position. */
  lemma NotStartsWith(s: string, p: string, k: nat)
    requires k < |p| && (k < |s| ==> s[k] != p[k])
    ensures !StartsWith(s, p)
  {
  }

  /** A string does not end with a pattern it differs from at some position. */
  lemma NotEndsWith(s: string, p: string, k: nat)
    requires k < |p| && (|p| <= |s| ==> s[|s| - |p| + k] != p[k])
    ensures !EndsWith(s, p)
  {
  }

  /** The characters of `s` that satisfy `keep`, in order (a character-class `preg_replace`
      with an empty replacement). */
  function Filter(s: string, keep: char -> bool): (r: string)
    ensures |r| <= |s|
    ensures forall i :: 0 <= i < |r| ==> keep(r[i])
  {
    if |s| == 0 then ""
    else if keep(s[0]) then [s[0]] + Filter(s[1..], keep)
    else Filter(s[1..], keep)
  }

  /** Filtering distributes over concatenation. */
  lemma {:induction false} FilterAppend(a: string, b: string, keep: char -> bool)
    ensures Filter(a + b, keep) == Filter(a, keep) + Filter(b, keep)
    decreases |a|
  {
    if |a| == 0 {
      assert a + b == b;
    } else {
      assert (a + b)[1..] == a[1..] + b;
      FilterAppend(a[1..], b, keep);
    }
  }

  /** Filtering keeps a string whose every character is kept. */
  lemma {:induction false} FilterKeepsAll(s: string, keep: char -> bool)
    requires forall i :: 0 <= i < |s| ==> keep(s[i])
    ensures Filter(s, keep) == s
    decreases |s|
  {
    if |s| > 0 {
      FilterKeepsAll(s[1..], keep);
    }
  }

  /** Filtering empties a string none of whose characters is kept. */
  lemma {:induction false} FilterDropsAll(s: string, keep: char -> bool)
    requires forall i :: 0 <= i < |s| ==> !keep(s[i])
    ensures Filter(s, keep) == ""
    decreases |s|
  {
    if |s| > 0 {
      FilterDropsAll(s[1..], keep);
    }
  }

  /** Filtering with two tests that agree on every character of `s` gives the same result. */
  lemma {:induction false} FilterSame(s: string, p: char -> bool, q: char -> bool)
    requires forall i :: 0 <= i < |s| ==> p(s[i]) == q(s[i])
    ensures Filter(s, p) == Filter(s, q)
    decreases |s|
  {
    if |s| > 0 {
      FilterSame(s[1..], p, q);
    }
  }

  /** Filtering keeps every property its input's characters all have. */
  lemma {:induction false} FilterPreserves(s: string, keep: char -> bool, p: char -> bool)
    requires forall i :: 0 <= i < |s| ==> p(s[i])
    ensures forall i :: 0 <= i < |Filter(s, keep)| ==> p(Filter(s, keep)[i])
    decreases |s|
  {
    if |s| > 0 {
      FilterPreserves(s[1..], keep, p);
    }
  }

  /** Filtering twice is filtering once with both tests. */
  lemma {:induction false} FilterFilter(s: string, p: char -> bool, q: char -> bool, both: char -> bool)
    requires forall i :: 0 <= i < |s| ==> both(s[i]) == (p(s[i]) && q(s[i]))
    ensures Filter(Filter(s, p), q) == Filter(s, both)
    decreases |s|
  {
    if |s| > 0 {
      FilterFilter(s[1..], p, q, both);
    }
  }

  /** Lower-casing commutes with a filter that does not look at case. */
  lemma {:induction false} FilterLower(s: string, keep: char -> bool)
    requires forall i :: 0 <= i < |s| ==> keep(LowerChar(s[i])) == keep(s[i])
    ensures Filter(Lower(s), keep) == Lower(Filter(s, keep))
    decreases |s|
  {
    if |s| > 0 {
      FilterLower(s[1..], keep);
      assert Lower(s)[1..] == Lower(s[1..]);
      var rest := Filter(s[1..], keep);
      assert Lower([s[0]] + rest) == [LowerChar(s[0])] + Lower(rest);
    }
  }

  /** Lower-casing a string without ASCII upper-case letters changes nothing. */
  lemma LowerOfLower(s: string)
    requires forall i :: 0 <= i < |s| ==> !IsUpperAscii(s[i])
    ensures Lower(s) == s
  {
  }

  /** Trimming keeps every property its input's characters all have. */
  lemma TrimKeeps(s: string, p: char -> bool)
    requires forall i :: 0 <= i < |s| ==> p(s[i])
    ensures forall i :: 0 <= i < |Trim(s)| ==> p(Trim(s)[i])
  {
    var l := TrimLeft(s);
    assert forall i :: 0 <= i < |l| ==> l[i] == s[|s| - |l| + i];
    var t := TrimRight(l);
    assert forall i :: 0 <= i < |t| ==> t[i] == l[i];
  }

  /** Filtering after `ltrim` loses nothing when no trim character is kept. */
  lemma {:induction false} FilterTrimLeft(s: string, keep: char -> bool)
    requires forall i :: 0 <= i < |s| && IsTrimChar(s[i]) ==> !keep(s[i])
    ensures Filter(TrimLeft(s), keep) == Filter(s, keep)
    decreases |s|
  {
    if |s| > 0 && IsTrimChar(s[0]) {
      FilterTrimLeft(s[1..], keep);
    }
  }

  /** Filtering after `rtrim` loses nothing when no trim character is kept. */
  lemma {:induction false} FilterTrimRight(s: string, keep: char -> bool)
    requires forall i :: 0 <= i < |s| && IsTrimChar(s[i]) ==> !keep(s[i])
    ensures Filter(TrimRight(s), keep) == Filter(s, keep)
    decreases |s|
  {
    if |s| > 0 && IsTrimChar(s[|s| - 1]) {
      var u := s[..|s| - 1];
      FilterTrimRight(u, keep);
      assert s == u + [s[|s| - 1]];
      FilterAppend(u, [s[|s| - 1]], keep);
    }
  }

  /** Filtering after `trim` loses nothing when no trim character is kept. */
  lemma FilterTrim(s: string, keep: char -> bool)
    requires forall i :: 0 <= i < |s| && IsTrimChar(s[i]) ==> !keep(s[i])
    ensures Filter(Trim(s), keep) == Filter(s, keep)
  {
    FilterTrimLeft(s, keep);
    var l := TrimLeft(s);
    assert forall i :: 0 <= i < |l| ==> l[i] == s[|s| - |l| + i];
    FilterTrimRight(l, keep);
  }

  /** A string splits into two or more pieces exactly when it contains the delimiter. */
  lemma ExplodeSplits(s: string, c: char)
    ensures c in s <==> |Explode(s, c)| >= 2
  {
    if c in s {
      ImplodeExplode(s, c);
    } else {
      ExplodeWithout(s, c);
    }
  }

  /** Splitting "a c b" on c: the pieces of a, then the pieces of b. */
  lemma {:induction false} ExplodeJoin(a: string, c: char, b: string)
    ensures Explode(a + [c] + b, c) == Explode(a, c) + Explode(b, c)
    decreases |a|
  {
    var s := a + [c] + b;
    if |a| == 0 {
      assert s == [c] + b;
      assert s[1..] == b;
    } else {
      assert s[1..] == a[1..] + [c] + b;
      ExplodeJoin(a[1..], c, b);
    }
  }

  /** Joining two or more pieces: the join of all but the last, a separator, then the last. */
  lemma {:induction false} ImplodeSplitLast(parts: seq<string>, sep: string)
    requires |parts| >= 2
    ensures Implode(parts, sep) == Implode(parts[..|parts| - 1], sep) + sep + parts[|parts| - 1]
    decreases |parts|
  {
    if |parts| > 2 {
      ImplodeSplitLast(parts[1..], sep);
      assert parts[1..][..|parts| - 2] == parts[1..|parts| - 1];
      assert parts[..|parts| - 1][1..] == parts[1..|parts| - 1];
    }
  }

  /** The last piece of `explode` is a suffix, preceded by the delimiter when it is not all. */
  lemma ExplodeLast(s: string, c: char)
    ensures var parts := Explode(s, c);
      var l := parts[|parts| - 1];
      && EndsWith(s, l)
      && (|l| < |s| ==> s[|s| - |l| - 1] == c)
  {
    var parts := Explode(s, c);
    var l := parts[|parts| - 1];
    ImplodeExplode(s, c);
    if |parts| >= 2 {
      ImplodeSplitLast(parts, [c]);
      var front := Implode(parts[..|parts| - 1], [c]);
      assert s == front + [c] + l;
      assert s[|s| - |l|..] == l;
    }
  }
}

=== FILE: school_api.dfy ===
/** The three school endpoints (includes/api/add_school.php, refresh_school.php and
    delete_school.php) as guarded transitions of the school_data table. */
module SchoolApi {
  import opened Php
  import opened Helpers
  import opened Web
  import Auth
  import opened SchoolStore

  /** What a handler answers, and the table it leaves. `data` is the refresh's `$data`;
      `schoolName` is the deleted row's name. */
  datatype Handled = Handled(reply: Reply, data: Option<Snapshot>, schoolName: Option<string>, store: Store)

  /** A refusal: the reply alone, the table untouched. */
  function Refuse(reply: Reply, store: Store): (h: Handled)
    ensures h.reply == reply && h.store == store && h.data.None? && h.schoolName.None?
  {
    Handled(reply, None, None, store)
  }

  const DomainRequired: Reply := Reply(400, false, "School domain is required")
  const BadDomain: Reply := Reply(400, false, "Invalid domain format")
  const AlreadyExists: Reply := Reply(400, false, "School with this domain already exists")
  const NoSuchSchool: Reply := Reply(404, false, "School with this domain does not exist")
  const InsertFailed: Reply := Reply(500, false, "Failed to add school: Failed to insert school record")
  const DeleteFailed: Reply := Reply(500, false, "Failed to delete school")

  /** `strpos($domain, '@') === 0`, then `substr($domain, 1)`: one leading '@' goes. */
  function StripAt(d: string): (r: string)
    ensures |d| > 0 && d[0] == '@' ==> d == "@" + r
    ensures !(|d| > 0 && d[0] == '@') ==> r == d
  {
    if |d| > 0 && d[0] == '@' then d[1..] else d
  }

  /** The domain add_school works with: the trimmed field, less one leading '@'. */
  function AddDomain(form: Form): string {
    StripAt(Field(form, "domain"))
  }

  // ---------------------------------------------------------------------------------------
  // add_school

  /** add_school: any logged-in user, a POST, a non-empty domain that makes `test@<domain>` a
      valid address (`validEmail` is FILTER_VALIDATE_EMAIL) and has no row yet; then the row
      is inserted with the name derived from the domain and refreshed. `inserted` is whether
      the insert returned an id. */
  function AddSchool(caller: Option<Auth.PublicUser>, form: Form, validEmail: string -> bool, store: Store,
                     inserted: bool, env: Sources, now: int): (h: Handled)
    requires Usable(env, AddDomain(form))
    ensures !h.reply.success ==> h.store == store
    ensures h.reply.success <==>
      Gate(caller, false, form).None? && !Empty(Field(form, "domain")) && validEmail("test@" + AddDomain(form))
      && AddDomain(form) !in store && inserted
    ensures h.reply.success ==> h.store.Keys == store.Keys + {AddDomain(form)}
    ensures h.reply.success ==> forall d :: d in store ==> h.store[d] == store[d]
    ensures Gate(caller, false, form).Some? ==> h == Refuse(Gate(caller, false, form).value, store)
    ensures Gate(caller, false, form).None? && Empty(Field(form, "domain")) ==> h == Refuse(DomainRequired, store)
    ensures Gate(caller, false, form).None? && !Empty(Field(form, "domain")) && !validEmail("test@" + AddDomain(form)) ==>
      h == Refuse(BadDomain, store)
    ensures (Gate(caller, false, form).None? && !Empty(Field(form, "domain")) && validEmail("test@" + AddDomain(form))
             && AddDomain(form) in store) ==> h == Refuse(AlreadyExists, store)
    ensures (Gate(caller, false, form).None? && !Empty(Field(form, "domain")) && validEmail("test@" + AddDomain(form))
             && AddDomain(form) !in store && !inserted) ==> h == Refuse(InsertFailed, store)
  {
    match Gate(caller, false, form)
    case Some(r) => Refuse(r, store)
    case None =>
      if Empty(Field(form, "domain")) then Refuse(DomainRequired, store)
      else
        var domain := AddDomain(form);
        if !validEmail("test@" + domain) then Refuse(BadDomain, store)
        else if domain in store then Refuse(AlreadyExists, store)
        else if !inserted then Refuse(InsertFailed, store)
        else
          var r := InsertAndRefresh(store, domain, env, now);
          Handled(Reply(200, true, "School added successfully"), Some(r.0), None, r.1)
  }

  /** The insert of a new school's row, named from its domain, and its refresh. */
  function InsertAndRefresh(store: Store, domain: string, env: Sources, now: int): (r: (Snapshot, Store))
    requires Usable(env, domain)
    requires domain !in store
    ensures r.1.Keys == store.Keys + {domain}
    ensures forall d :: d in store ==> r.1[d] == store[d]
  {
    RefreshAt(store[domain := NewRow(GetSchoolNameFromDomain(domain), now)], domain, env, now)
  }

  /** An empty domain is refused before the table is looked at: the answer does not depend on
      the table, and nothing is written. */
  lemma AddEmptyDomain(caller: Option<Auth.PublicUser>, form: Form, validEmail: string -> bool, store: Store,
                       other: Store, inserted: bool, env: Sources, now: int)
    requires Usable(env, AddDomain(form))
    requires Gate(caller, false, form).None? && Empty(Field(form, "domain"))
    ensures AddSchool(caller, form, validEmail, store, inserted, env, now) == Refuse(DomainRequired, store)
    ensures AddSchool(caller, form, validEmail, store, inserted, env, now).reply
         == AddSchool(caller, form, validEmail, other, inserted, env, now).reply
  {
  }

  /** A domain that already has a row is refused with 400 and the table is unchanged. */
  lemma AddExisting(caller: Option<Auth.PublicUser>, form: Form, validEmail: string -> bool, store: Store,
                    inserted: bool, env: Sources, now: int)
    requires Usable(env, AddDomain(form))
    requires Gate(caller, false, form).None? && !Empty(Field(form, "domain")) && validEmail("test@" + AddDomain(form))
    requires AddDomain(form) in store
    ensures AddSchool(caller, form, validEmail, store, inserted, env, now) == Refuse(AlreadyExists, store)
  {
  }

  /** A new school's row carries the name derived from its domain, and is the refresh of a
      freshly inserted row. */
  lemma AddedRow(caller: Option<Auth.PublicUser>, form: Form, validEmail: string -> bool, store: Store,
                 inserted: bool, env: Sources, now: int)
    requires Usable(env, AddDomain(form))
    requires AddSchool(caller, form, validEmail, store, inserted, env, now).reply.success
    ensures var h := AddSchool(caller, form, validEmail, store, inserted, env, now);
      var domain := AddDomain(form);
      && h.data == Some(FetchAll(env, domain))
      && h.store[domain] == Refreshed(NewRow(GetSchoolNameFromDomain(domain), now), FetchAll(env, domain), now)
      && h.store[domain].schoolName == GetSchoolNameFromDomain(domain)
  {
    var domain := AddDomain(form);
    var withRow := store[domain := NewRow(GetSchoolNameFromDomain(domain), now)];
    RefreshAtRow(withRow, domain, env, now);
  }

  /** Adding a school and then deleting it, as an admin, gives back the table it started
      from. */
  lemma AddThenDelete(admin: Auth.PublicUser, form: Form, validEmail: string -> bool, store: Store,
                      inserted: bool, deleted: bool, env: Sources, now: int)
    requires admin.role == "admin"
    requires Usable(env, AddDomain(form))
    requires AddSchool(Some(admin), form, validEmail, store, inserted, env, now).reply.success
    requires Trimmed(AddDomain(form)) && !Empty(AddDomain(form)) && deleted
    ensures var added := AddSchool(Some(admin), form, validEmail, store, inserted, env, now).store;
      DeleteSchool(Some(admin), Form("POST", map["domain" := AddDomain(form)]), added, deleted).store == store
  {
    var added := AddSchool(Some(admin), form, validEmail, store, inserted, env, now).store;
    var domain := AddDomain(form);
    var f := Form("POST", map["domain" := domain]);
    assert Field(f, "domain") == domain;
    RemoveAdded(store, added, domain);
  }

  /** Removing the one key a table gained gives the table back. */
  lemma RemoveAdded(store: Store, added: Store, domain: string)
    requires domain !in store
    requires added.Keys == store.Keys + {domain}
    requires forall d :: d in store ==> added[d] == store[d]
    ensures added - {domain} == store
  {
  }

  // ---------------------------------------------------------------------------------------
  // refresh_school

  /** refresh_school: any logged-in user, a POST, a non-empty domain that has a row; then the
      refresh. */
  function RefreshSchool(caller: Option<Auth.PublicUser>, form: Form, store: Store, env: Sources, now: int): (h: Handled)
    requires Usable(env, Field(form, "domain"))
    ensures !h.reply.success ==> h.store == store
    ensures h.reply.success <==>
      Gate(caller, false, form).None? && !Empty(Field(form, "domain")) && Field(form, "domain") in store
    ensures h.store.Keys == store.Keys
    ensures forall d :: d in store && d != Field(form, "domain") ==> h.store[d] == store[d]
    ensures Gate(caller, false, form).Some? ==> h == Refuse(Gate(caller, false, form).value, store)
    ensures Gate(caller, false, form).None? && Empty(Field(form, "domain")) ==> h == Refuse(DomainRequired, store)
    ensures Gate(caller, false, form).None? && !Empty(Field(form, "domain")) && Field(form, "domain") !in store ==>
      h == Refuse(NoSuchSchool, store)
  {
    match Gate(caller, false, form)
    case Some(r) => Refuse(r, store)
    case None =>
      var domain := Field(form, "domain");
      if Empty(domain) then Refuse(DomainRequired, store)
      else if domain !in store then Refuse(NoSuchSchool, store)
      else
        var r := RefreshAt(store, domain, env, now);
        Handled(Reply(200, true, "School data refreshed successfully"), Some(r.0), None, r.1)
  }

  /** An unknown domain is answered 404 and nothing is written. */
  lemma RefreshUnknown(caller: Option<Auth.PublicUser>, form: Form, store: Store, env: Sources, now: int)
    requires Usable(env, Field(form, "domain"))
    requires Gate(caller, false, form).None? && !Empty(Field(form, "domain")) && Field(form, "domain") !in store
    ensures RefreshSchool(caller, form, store, env, now) == Refuse(NoSuchSchool, store)
  {
  }

  /** The refreshed row is the reference refresh of the old row with the sources' answers. */
  lemma RefreshedRow(caller: Option<Auth.PublicUser>, form: Form, store: Store, env: Sources, now: int)
    requires Usable(env, Field(form, "domain"))
    requires RefreshSchool(caller, form, store, env, now).reply.success
    ensures var domain := Field(form, "domain");
      var h := RefreshSchool(caller, form, store, env, now);
      h.data == Some(FetchAll(env, domain)) && h.store[domain] == Refreshed(store[domain], FetchAll(env, domain), now)
  {
    RefreshAtRow(store, Field(form, "domain"), env, now);
  }

  /** Refreshing twice with the same answers from the sources leaves the table as refreshing
      once at the later time. */
  lemma RefreshTwice(caller: Option<Auth.PublicUser>, form: Form, store: Store, env: Sources, t1: int, t2: int)
    requires Usable(env, Field(form, "domain"))
    ensures var once := RefreshSchool(caller, form, store, env, t1).store;
      RefreshSchool(caller, form, once, env, t2).store == RefreshSchool(caller, form, store, env, t2).store
  {
    var domain := Field(form, "domain");
    if Gate(caller, false, form).None? && !Empty(domain) && domain in store {
      RefreshIdempotent(store, domain, FetchAll(env, domain), t1, t2);
    }
  }

  /** The refresh inside add_school and the refresh handler write the same: adding a school
      leaves the table that inserting its row and then refreshing it through refresh_school
      leaves. */
  lemma AddIsInsertThenRefresh(caller: Option<Auth.PublicUser>, form: Form, validEmail: string -> bool, store: Store,
                               inserted: bool, env: Sources, now: int)
    requires Usable(env, AddDomain(form))
    requires AddSchool(caller, form, validEmail, store, inserted, env, now).reply.success
    requires Trimmed(AddDomain(form)) && !Empty(AddDomain(form))
    ensures var domain := AddDomain(form);
      var withRow := store[domain := NewRow(GetSchoolNameFromDomain(domain), now)];
      var h := RefreshSchool(caller, Form("POST", map["domain" := domain]), withRow, env, now);
      h.reply.success && h.store == AddSchool(caller, form, validEmail, store, inserted, env, now).store
        && h.data == AddSchool(caller, form, validEmail, store, inserted, env, now).data
  {
    var domain := AddDomain(form);
    assert Field(Form("POST", map["domain" := domain]), "domain") == domain;
  }

  // ---------------------------------------------------------------------------------------
  // delete_school

  /** delete_school: a logged-in admin, a POST, a non-empty domain that has a row; `deleted`
      is what the DELETE reported. */
  function DeleteSchool(caller: Option<Auth.PublicUser>, form: Form, store: Store, deleted: bool): (h: Handled)
    ensures !h.reply.success ==> h.store == store
    ensures h.reply.success <==>
      Gate(caller, true, form).None? && !Empty(Field(form, "domain")) && Field(form, "domain") in store && deleted
    ensures h.reply.success ==> h.store == store - {Field(form, "domain")}
    ensures h.reply.success ==> h.schoolName == Some(store[Field(form, "domain")].schoolName)
    ensures Gate(caller, true, form).Some? ==> h == Refuse(Gate(caller, true, form).value, store)
    ensures Gate(caller, true, form).None? && Empty(Field(form, "domain")) ==> h == Refuse(DomainRequired, store)
    ensures Gate(caller, true, form).None? && !Empty(Field(form, "domain")) && Field(form, "domain") !in store ==>
      h == Refuse(NoSuchSchool, store)
    ensures Gate(caller, true, form).None? && !Empty(Field(form, "domain")) && Field(form, "domain") in store && !deleted ==>
      h == Refuse(DeleteFailed, store)
  {
    match Gate(caller, true, form)
    case Some(r) => Refuse(r, store)
    case None =>
      var domain := Field(form, "domain");
      if Empty(domain) then Refuse(DomainRequired, store)
      else if domain !in store then Refuse(NoSuchSchool, store)
      else if !deleted then Refuse(DeleteFailed, store)
      else Handled(Reply(200, true, "School deleted successfully"), None, Some(store[domain].schoolName), store - {domain})
  }

  /** Deleting the same domain a second time is answered 404 and changes nothing. */
  lemma DeleteTwice(caller: Option<Auth.PublicUser>, form: Form, store: Store, deleted: bool, again: bool)
    requires DeleteSchool(caller, form, store, deleted).reply.success
    ensures var once := DeleteSchool(caller, form, store, deleted).store;
      DeleteSchool(caller, form, once, again) == Refuse(NoSuchSchool, once)
  {
  }

  /** Only deleting needs the admin role: a logged-in non-admin is refused with 403, while
      adding and refreshing answer the same whatever the role. */
  lemma DeleteNeedsAdmin(user: Auth.PublicUser, role: string, form: Form, store: Store, deleted: bool,
                         validEmail: string -> bool, inserted: bool, env: Sources, now: int)
    requires user.role != "admin"
    requires Usable(env, AddDomain(form)) && Usable(env, Field(form, "domain"))
    ensures DeleteSchool(Some(user), form, store, deleted) == Refuse(Forbidden, store)
    ensures AddSchool(Some(user), form, validEmail, store, inserted, env, now)
         == AddSchool(Some(user.(role := role)), form, validEmail, store, inserted, env, now)
    ensures RefreshSchool(Some(user), form, store, env, now) == RefreshSchool(Some(user.(role := role)), form, store, env, now)
  {
  }
}

=== FILE: school_store.dfy ===
/** The school_data table and the refresh that add_school.php (refreshSchoolData) and
    refresh_school.php both perform: ask each available source, write each successful source's
    own columns with one UPDATE, then store every answer as data_json and stamp last_updated. */
module SchoolStore {
  import opened Php
  import opened DataSource
  import Csd = CsdSource
  import Bp = BrightpearlSource
  import Kl = KlaviyoSource

  /** The `$data` array of a refresh, kept in data_json: one entry per source that was
      available, holding that source's envelope. */
  datatype Snapshot = Snapshot(
    csd: Option<Envelope<Csd.CsdData>>,
    brightpearl: Option<Envelope<Bp.BpData>>,
    klaviyo: Option<Envelope<Kl.KlaviyoData>>)

  /** A row of school_data, without its auto-increment id and its `domain` key. */
  datatype SchoolRow = SchoolRow(
    schoolName: string,
    csdSchoolId: Option<int>,
    lastUpdated: int,
    staffCount: int,
    orderCount: int,
    orderTotal: real,
    emailCount: int,
    openRate: real,
    clickRate: real,
    orderRate: real,
    dataJson: Option<Snapshot>)

  /** `domain` is UNIQUE, so the table is a map from domain to row. */
  type Store = map<string, SchoolRow>

  /** The row add_school inserts: the name, the timestamp, and the column defaults of the
      table (zero counts and rates, NULL school id and data_json). */
  function NewRow(name: string, now: int): (r: SchoolRow)
    ensures r.schoolName == name && r.lastUpdated == now
    ensures r.csdSchoolId.None? && r.dataJson.None?
    ensures r.staffCount == 0 && r.orderCount == 0 && r.emailCount == 0 && r.orderTotal == 0.0
  {
    SchoolRow(name, None, now, 0, 0, 0.0, 0, 0.0, 0.0, 0.0, None)
  }

  // ---------------------------------------------------------------------------------------
  // UPDATE statements, as the handlers issue them

  /** One `column => value` pair of an UPDATE. */
  datatype Assignment =
    | StaffCount(count: int)
    | CsdSchoolId(id: Option<int>)
    | OrderCount(count: int)
    | OrderTotal(amount: real)
    | EmailCount(count: int)
    | OpenRate(rate: real)
    | ClickRate(rate: real)
    | OrderRate(rate: real)
    | DataJson(snapshot: Snapshot)
    | LastUpdated(time: int)

  function Set(row: SchoolRow, a: Assignment): SchoolRow {
    match a
    case StaffCount(n) => row.(staffCount := n)
    case CsdSchoolId(id) => row.(csdSchoolId := id)
    case OrderCount(n) => row.(orderCount := n)
    case OrderTotal(v) => row.(orderTotal := v)
    case EmailCount(n) => row.(emailCount := n)
    case OpenRate(v) => row.(openRate := v)
    case ClickRate(v) => row.(clickRate := v)
    case OrderRate(v) => row.(orderRate := v)
    case DataJson(s) => row.(dataJson := Some(s))
    case LastUpdated(t) => row.(lastUpdated := t)
  }

  function SetAll(row: SchoolRow, assigns: seq<Assignment>): SchoolRow
    decreases |assigns|
  {
    if |assigns| == 0 then row else SetAll(Set(row, assigns[0]), assigns[1..])
  }

  /** `UPDATE school_data SET … WHERE domain = ?`: only the domain's row changes, and nothing
      when it has none. */
  function Update(store: Store, domain: string, assigns: seq<Assignment>): (s: Store)
    ensures s.Keys == store.Keys
    ensures forall d :: d in store && d != domain ==> s[d] == store[d]
  {
    if domain in store then store[domain := SetAll(store[domain], assigns)] else store
  }

  /** A run of UPDATE statements on the same domain, in order. */
  function Run(store: Store, domain: string, stmts: seq<seq<Assignment>>): (s: Store)
    ensures s.Keys == store.Keys
    ensures forall d :: d in store && d != domain ==> s[d] == store[d]
    decreases |stmts|
  {
    if |stmts| == 0 then store else Run(Update(store, domain, stmts[0]), domain, stmts[1..])
  }

  /** A source's result counts for the columns when the source was asked and succeeded. */
  predicate Ran<T>(e: Option<Envelope<T>>) {
    e.Some? && e.value.success
  }

  /** The CSD update: `total_staff ?? 0` and `school.school_id ?? null`. */
  function CsdStatements(e: Option<Envelope<Csd.CsdData>>): seq<seq<Assignment>> {
    if Ran(e) then
      var d := e.value.data;
      [[StaffCount(if d.Some? then d.value.totalStaff else 0),
        CsdSchoolId(if d.Some? then Some(d.value.school.schoolId) else None)]]
    else []
  }

  /** The Brightpearl update: `total_orders ?? 0` and `total_value ?? 0`. */
  function BpStatements(e: Option<Envelope<Bp.BpData>>): seq<seq<Assignment>> {
    if Ran(e) then
      var d := e.value.data;
      [[OrderCount(if d.Some? then d.value.totalOrders else 0),
        OrderTotal(if d.Some? then d.value.totalValue else 0.0)]]
    else []
  }

  /** The Klaviyo update: e-mail count and the three rates, each `?? 0`. */
  function KlStatements(e: Option<Envelope<Kl.KlaviyoData>>): seq<seq<Assignment>> {
    if Ran(e) then
      var d := e.value.data;
      [[EmailCount(if d.Some? then d.value.emailCount else 0),
        OpenRate(if d.Some? then d.value.openRate else 0.0),
        ClickRate(if d.Some? then d.value.clickRate else 0.0),
        OrderRate(if d.Some? then d.value.orderRate else 0.0)]]
    else []
  }

  /** The statements of one refresh, in the order both handlers issue them; the last one is
      unconditional. */
  function RefreshStatements(snap: Snapshot, now: int): seq<seq<Assignment>> {
    CsdStatements(snap.csd) + BpStatements(snap.brightpearl) + KlStatements(snap.klaviyo)
    + [[DataJson(snap), LastUpdated(now)]]
  }

  // ---------------------------------------------------------------------------------------
  // The refreshed row, column group by column group

  function CsdColumns(row: SchoolRow, e: Option<Envelope<Csd.CsdData>>): (r: SchoolRow)
    ensures r == row.(staffCount := r.staffCount, csdSchoolId := r.csdSchoolId)
    ensures !Ran(e) ==> r == row
  {
    if !Ran(e) then row
    else match e.value.data
      case None => row.(staffCount := 0, csdSchoolId := None)
      case Some(d) => row.(staffCount := d.totalStaff, csdSchoolId := Some(d.school.schoolId))
  }

  function BpColumns(row: SchoolRow, e: Option<Envelope<Bp.BpData>>): (r: SchoolRow)
    ensures r == row.(orderCount := r.orderCount, orderTotal := r.orderTotal)
    ensures !Ran(e) ==> r == row
  {
    if !Ran(e) then row
    else match e.value.data
      case None => row.(orderCount := 0, orderTotal := 0.0)
      case Some(d) => row.(orderCount := d.totalOrders, orderTotal := d.totalValue)
  }

  function KlColumns(row: SchoolRow, e: Option<Envelope<Kl.KlaviyoData>>): (r: SchoolRow)
    ensures r == row.(emailCount := r.emailCount, openRate := r.openRate, clickRate := r.clickRate, orderRate := r.orderRate)
    ensures !Ran(e) ==> r == row
  {
    if !Ran(e) then row
    else match e.value.data
      case None => row.(emailCount := 0, openRate := 0.0, clickRate := 0.0, orderRate := 0.0)
      case Some(d) => row.(emailCount := d.emailCount, openRate := d.openRate, clickRate := d.clickRate, orderRate := d.orderRate)
  }

  /** What a refresh makes of a row: each source's columns from its own result when it ran,
      and the snapshot and time always. */
  function Refreshed(row: SchoolRow, snap: Snapshot, now: int): (r: SchoolRow)
    ensures r.schoolName == row.schoolName
    ensures r.dataJson == Some(snap) && r.lastUpdated == now
  {
    KlColumns(BpColumns(CsdColumns(row, snap.csd), snap.brightpearl), snap.klaviyo)
      .(dataJson := Some(snap), lastUpdated := now)
  }

  /** A partial refresh never destroys another source's columns: a source that was not asked,
      or that failed, keeps every one of its columns. */
  lemma PartialRefreshKeeps(row: SchoolRow, snap: Snapshot, now: int)
    ensures var r := Refreshed(row, snap, now);
      !Ran(snap.csd) ==> r.staffCount == row.staffCount && r.csdSchoolId == row.csdSchoolId
    ensures var r := Refreshed(row, snap, now);
      !Ran(snap.brightpearl) ==> r.orderCount == row.orderCount && r.orderTotal == row.orderTotal
    ensures var r := Refreshed(row, snap, now);
      !Ran(snap.klaviyo) ==>
        (r.emailCount == row.emailCount && r.openRate == row.openRate
         && r.clickRate == row.clickRate && r.orderRate == row.orderRate)
  {
  }

  /** Each group's columns after a refresh depend only on that group's prior values and its
      own source's result: changing another source's result changes nothing in them. */
  lemma ColumnsIndependent(row: SchoolRow, snap: Snapshot, other: Snapshot, now: int)
    requires snap.brightpearl == other.brightpearl
    ensures Refreshed(row, snap, now).orderCount == Refreshed(row, other, now).orderCount
    ensures Refreshed(row, snap, now).orderTotal == Refreshed(row, other, now).orderTotal
  {
  }

  /** A successful result overwrites even with zero: zero is not read as missing. */
  lemma ZeroOverwrites(row: SchoolRow, snap: Snapshot, now: int)
    requires Ran(snap.brightpearl) && snap.brightpearl.value.data.Some?
    requires snap.brightpearl.value.data.value.totalOrders == 0
    requires snap.brightpearl.value.data.value.totalValue == 0.0
    ensures Refreshed(row, snap, now).orderCount == 0 && Refreshed(row, snap, now).orderTotal == 0.0
  {
  }

  // ---------------------------------------------------------------------------------------
  // The statements meet the reference

  /** The row a run of statements leaves, when the domain has a row. */
  function RowAfter(row: SchoolRow, stmts: seq<seq<Assignment>>): SchoolRow
    decreases |stmts|
  {
    if |stmts| == 0 then row else RowAfter(SetAll(row, stmts[0]), stmts[1..])
  }

  /** A run of statements changes the domain's row and nothing else. */
  lemma {:induction false} RunIsRowAfter(store: Store, domain: string, stmts: seq<seq<Assignment>>)
    requires domain in store
    ensures Run(store, domain, stmts) == store[domain := RowAfter(store[domain], stmts)]
    decreases |stmts|
  {
    if |stmts| == 0 {
      assert store[domain := store[domain]] == store;
    } else {
      var next := Update(store, domain, stmts[0]);
      RunIsRowAfter(next, domain, stmts[1..]);
      assert next[domain := RowAfter(next[domain], stmts[1..])] == store[domain := RowAfter(next[domain], stmts[1..])];
    }
  }

  /** A domain without a row is left without one. */
  lemma {:induction false} NoRowUntouched(store: Store, domain: string, stmts: seq<seq<Assignment>>)
    requires domain !in store
    ensures Run(store, domain, stmts) == store
    decreases |stmts|
  {
    if |stmts| > 0 {
      NoRowUntouched(Update(store, domain, stmts[0]), domain, stmts[1..]);
    }
  }

  lemma {:induction false} RowAfterAppend(row: SchoolRow, a: seq<seq<Assignment>>, b: seq<seq<Assignment>>)
    ensures RowAfter(row, a + b) == RowAfter(RowAfter(row, a), b)
    decreases |a|
  {
    if |a| == 0 {
      assert a + b == b;
    } else {
      assert (a + b)[0] == a[0];
      assert (a + b)[1..] == a[1..] + b;
      RowAfterAppend(SetAll(row, a[0]), a[1..], b);
    }
  }

  lemma RowAfterOne(row: SchoolRow, s: seq<Assignment>)
    ensures RowAfter(row, [s]) == SetAll(row, s)
  {
    assert [s][1..] == [];
  }

  lemma SetAllOne(row: SchoolRow, a: Assignment)
    ensures SetAll(row, [a]) == Set(row, a)
  {
    assert [a][1..] == [];
  }

  lemma SetAllTwo(row: SchoolRow, a: Assignment, b: Assignment)
    ensures SetAll(row, [a, b]) == Set(Set(row, a), b)
  {
    assert [a, b][1..] == [b];
    SetAllOne(Set(row, a), b);
  }

  lemma SetAllFour(row: SchoolRow, a: Assignment, b: Assignment, c: Assignment, d: Assignment)
    ensures SetAll(row, [a, b, c, d]) == Set(Set(Set(Set(row, a), b), c), d)
  {
    assert [a, b, c, d][1..] == [b, c, d];
    assert [b, c, d][1..] == [c, d];
    SetAllTwo(Set(Set(row, a), b), c, d);
  }

  lemma CsdWrites(row: SchoolRow, e: Option<Envelope<Csd.CsdData>>)
    ensures RowAfter(row, CsdStatements(e)) == CsdColumns(row, e)
  {
    if Ran(e) {
      var s := CsdStatements(e)[0];
      RowAfterOne(row, s);
      SetAllTwo(row, s[0], s[1]);
      assert s == [s[0], s[1]];
    }
  }

  lemma BpWrites(row: SchoolRow, e: Option<Envelope<Bp.BpData>>)
    ensures RowAfter(row, BpStatements(e)) == BpColumns(row, e)
  {
    if Ran(e) {
      var s := BpStatements(e)[0];
      RowAfterOne(row, s);
      SetAllTwo(row, s[0], s[1]);
      assert s == [s[0], s[1]];
    }
  }

  lemma KlWrites(row: SchoolRow, e: Option<Envelope<Kl.KlaviyoData>>)
    ensures RowAfter(row, KlStatements(e)) == KlColumns(row, e)
  {
    if Ran(e) {
      var s := KlStatements(e)[0];
      RowAfterOne(row, s);
      SetAllFour(row, s[0], s[1], s[2], s[3]);
      assert s == [s[0], s[1], s[2], s[3]];
    }
  }

  lemma StampWrites(row: SchoolRow, snap: Snapshot, now: int)
    ensures RowAfter(row, [[DataJson(snap), LastUpdated(now)]]) == row.(dataJson := Some(snap), lastUpdated := now)
  {
    RowAfterOne(row, [DataJson(snap), LastUpdated(now)]);
    SetAllTwo(row, DataJson(snap), LastUpdated(now));
  }

  /** The statements of a refresh make of the row exactly what the reference says. */
  lemma RowAfterRefresh(row: SchoolRow, snap: Snapshot, now: int)
    ensures RowAfter(row, RefreshStatements(snap, now)) == Refreshed(row, snap, now)
  {
    var c, b, k := CsdStatements(snap.csd), BpStatements(snap.brightpearl), KlStatements(snap.klaviyo);
    var last := [[DataJson(snap), LastUpdated(now)]];
    assert RefreshStatements(snap, now) == c + b + k + last;
    RowAfterAppend(row, c + b + k, last);
    RowAfterAppend(row, c + b, k);
    RowAfterAppend(row, c, b);
    CsdWrites(row, snap.csd);
    var r1 := CsdColumns(row, snap.csd);
    BpWrites(r1, snap.brightpearl);
    var r2 := BpColumns(r1, snap.brightpearl);
    KlWrites(r2, snap.klaviyo);
    StampWrites(KlColumns(r2, snap.klaviyo), snap, now);
  }

  /** The statements of a refresh leave the domain's row exactly as the reference says, and
      every other row as it was; a domain without a row is left without one. */
  lemma RunRefresh(store: Store, domain: string, snap: Snapshot, now: int)
    ensures domain in store ==>
      Run(store, domain, RefreshStatements(snap, now)) == store[domain := Refreshed(store[domain], snap, now)]
    ensures domain !in store ==> Run(store, domain, RefreshStatements(snap, now)) == store
  {
    if domain in store {
      RunIsRowAfter(store, domain, RefreshStatements(snap, now));
      RowAfterRefresh(store[domain], snap, now);
    } else {
      NoRowUntouched(store, domain, RefreshStatements(snap, now));
    }
  }

  /** The same results written twice leave the row as writing them once would, apart from
      last_updated. */
  lemma RefreshIdempotent(store: Store, domain: string, snap: Snapshot, t1: int, t2: int)
    ensures var once := Run(store, domain, RefreshStatements(snap, t1));
      Run(once, domain, RefreshStatements(snap, t2)) == Run(store, domain, RefreshStatements(snap, t2))
  {
    var once := Run(store, domain, RefreshStatements(snap, t1));
    RunRefresh(store, domain, snap, t1);
    RunRefresh(once, domain, snap, t2);
    RunRefresh(store, domain, snap, t2);
  }

  // ---------------------------------------------------------------------------------------
  // Asking the sources

  /** Everything the three sources read: the credentials table, the schema and tables of the
      directory, the clock, and the two HTTP services. */
  datatype Sources = Sources(
    creds: CredTable,
    schema: set<string>,
    directory: Csd.Directory,
    clock: Bp.Clock,
    brightpearl: Bp.Transport,
    klaviyo: Kl.Transport)

  /** The Brightpearl replies the client relies on without checking. */
  predicate Usable(env: Sources, domain: string) {
    Bp.RepliesUsable(GetCredentials(env.creds, Bp.Name), env.brightpearl, domain)
  }

  /** The fetch half of a refresh: each source that is available is asked, the others are
      left out of the snapshot. */
  function FetchAll(env: Sources, domain: string): (snap: Snapshot)
    requires Usable(env, domain)
    ensures snap.csd.Some? <==> Csd.IsAvailable(env.schema)
    ensures snap.brightpearl.Some? <==> Bp.IsAvailable(GetCredentials(env.creds, Bp.Name), env.clock)
    ensures snap.klaviyo.Some? <==> Kl.IsAvailable(GetCredentials(env.creds, Kl.Name))
  {
    var bpCreds := GetCredentials(env.creds, Bp.Name);
    var klCreds := GetCredentials(env.creds, Kl.Name);
    Snapshot(
      if Csd.IsAvailable(env.schema) then Some(Csd.GetSchoolData(env.directory, domain)) else None,
      if Bp.IsAvailable(bpCreds, env.clock) then Some(Bp.GetSchoolData(bpCreds, env.clock, env.brightpearl, domain).result) else None,
      if Kl.IsAvailable(klCreds) then Some(Kl.GetSchoolData(klCreds, env.klaviyo, domain).result) else None)
  }

  /** A whole refresh of one domain: ask the sources, then issue the statements. */
  function RefreshAt(store: Store, domain: string, env: Sources, now: int): (r: (Snapshot, Store))
    requires Usable(env, domain)
    ensures r.1.Keys == store.Keys
    ensures forall d :: d in store && d != domain ==> r.1[d] == store[d]
  {
    var snap := FetchAll(env, domain);
    (snap, Run(store, domain, RefreshStatements(snap, now)))
  }

  /** After a refresh the row holds the fresh snapshot and time, keeps its name, and keeps the
      columns of every source that was not available. */
  lemma RefreshAtRow(store: Store, domain: string, env: Sources, now: int)
    requires Usable(env, domain)
    requires domain in store
    ensures var (snap, s) := RefreshAt(store, domain, env, now);
      s[domain] == Refreshed(store[domain], snap, now)
    ensures var (snap, s) := RefreshAt(store, domain, env, now);
      s[domain].dataJson == Some(snap) && s[domain].lastUpdated == now && s[domain].schoolName == store[domain].schoolName
    ensures var s := RefreshAt(store, domain, env, now).1;
      !Kl.IsAvailable(GetCredentials(env.creds, Kl.Name)) ==>
        s[domain].emailCount == store[domain].emailCount && s[domain].openRate == store[domain].openRate
        && s[domain].clickRate == store[domain].clickRate && s[domain].orderRate == store[domain].orderRate
  {
    var snap := FetchAll(env, domain);
    RunRefresh(store, domain, snap, now);
    PartialRefreshKeeps(store[domain], snap, now);
  }

  /** A Brightpearl customer search that finds no contact id still overwrites the order
      columns with zero. */
  lemma NoCustomersZeroesOrders(store: Store, domain: string, env: Sources, now: int)
    requires Usable(env, domain)
    requires domain in store
    requires var creds := GetCredentials(env.creds, Bp.Name);
      Bp.IsAvailable(creds, env.clock)
      && var resp := env.brightpearl.contacts(Bp.CustomerSearch(domain, creds.value));
         Succeeded(resp.status)
         && forall i :: 0 <= i < |resp.decoded.value| ==> resp.decoded.value[i].contactId.None?
    ensures var s := RefreshAt(store, domain, env, now).1;
      s[domain].orderCount == 0 && s[domain].orderTotal == 0.0
  {
    var snap := FetchAll(env, domain);
    Bp.NoCustomersIsZero(GetCredentials(env.creds, Bp.Name), env.clock, env.brightpearl, domain);
    RunRefresh(store, domain, snap, now);
    ZeroOverwrites(store[domain], snap, now);
  }
}

=== FILE: web.dfy ===
/** What the JSON endpoints under includes/api share: the request method and POST fields they
    read, the `{success, message}` reply with its HTTP status, and the guards that open every
    handler. */
module Web {
  import opened Php
  import Auth

  /** `$_SERVER['REQUEST_METHOD']` and `$_POST`. */
  datatype Form = Form(verb: string, fields: map<string, string>)

  /** `isset($_POST[key]) ? trim($_POST[key]) : ''` */
  function Field(f: Form, key: string): (v: string)
    ensures Trimmed(v)
    ensures key !in f.fields ==> v == ""
    ensures key in f.fields && Trimmed(f.fields[key]) ==> v == f.fields[key]
  {
    if key in f.fields then Trim(f.fields[key]) else ""
  }

  /** `isset($_POST[key]) ? $_POST[key] : ''`, for the one field read untrimmed. */
  function RawField(f: Form, key: string): (v: string)
    ensures key in f.fields ==> v == f.fields[key]
    ensures key !in f.fields ==> v == ""
  {
    if key in f.fields then f.fields[key] else ""
  }

  /** The body jsonResponse sends, with its status code; jsonResponse ends the script. */
  datatype Reply = Reply(status: int, success: bool, message: string)

  const AuthRequired: Reply := Reply(401, false, "Authentication required")
  const Forbidden: Reply := Reply(403, false, "You do not have permission to perform this action")
  const BadMethod: Reply := Reply(405, false, "Invalid request method")

  /** The guard that opens every handler: someone logged in, then (for the admin-only
      handlers) the admin role, then a POST. None when the request gets through. */
  function Gate(caller: Option<Auth.PublicUser>, adminOnly: bool, f: Form): (r: Option<Reply>)
    ensures r.None? <==> caller.Some? && (adminOnly ==> caller.value.role == "admin") && f.verb == "POST"
    ensures caller.None? ==> r == Some(AuthRequired)
    ensures r.Some? ==> !r.value.success && r.value.status in {401, 403, 405}
  {
    if caller.None? then Some(AuthRequired)
    else if adminOnly && caller.value.role != "admin" then Some(Forbidden)
    else if f.verb != "POST" then Some(BadMethod)
    else None
  }

  /** The order of the guards: a missing user is reported before a missing role, and a missing
      role before a wrong method. */
  lemma GateOrder(caller: Option<Auth.PublicUser>, f: Form)
    ensures caller.Some? && caller.value.role != "admin" ==> Gate(caller, true, f) == Some(Forbidden)
    ensures caller.Some? && f.verb != "POST" ==> Gate(caller, false, f) == Some(BadMethod)
    ensures caller.Some? && caller.value.role == "admin" ==> Gate(caller, true, f) == Gate(caller, false, f)
  {
  }
}
